=== FILE: README.md ===
# IKVM.AWT.WinForms: the Java-to-GDI+ conversion and peer logic, modelled in Dafny

IKVM.AWT.WinForms implements Java AWT on top of Windows Forms and GDI+.
Most of the binding is native calls. Between those calls sits a layer of
pure conversion rules, and this project models that layer and proves
properties of it:

- **Converters.** The `J2C` and `C2J` converters cover colours, shapes
  and paths, rounded rectangles, line joins, fonts, regions, rectangles
  and matrices (modules `Colors`, `Paths`, `Fonts`).
- **Compositing helpers.** The `CompositeHelper` and
  `AlphaCompositeHelper` map a composite rule to a GDI+ compositing mode
  and rescale alpha (`Colors`).
- **Graphics state and setters.** `NetGraphics` models:
  - setColor, setPaint and setComposite;
  - the dash and square-cap emulation (`Stroke`);
  - the gradient stop tables of GradientPaint, LinearGradientPaint and
    RadialGradientPaint (`Gradient`);
  - the drawLine nudge and the arc flip;
  - drawString in simple-string mode;
  - the rendering-hint table (`Graphics`);
  - the memoised baseline probe (`Baseline`).
- **Snapshots and print emulation.**
  - `NetGraphicsState` snapshots (`GraphicsState`);
  - the `PrintGraphics` protocol that fakes `create()` through one
    shared "current" object (`PrintGraphics`);
  - the `ComponentGraphics` overrides (`ComponentGraphics`).
- **Font metrics.** `NetFontMetrics` and `NetLineMetrics` formulas over
  abstract cell metrics (`FontMetrics`).
- **Peer logic.**
  - Component peers: event and modifier mapping, drag-and-drop actions,
    paint gating, dispose-once and setBounds (`InputEvents`,
    `ComponentPeer`).
  - Window and frame peers: modal blocking, the window grab, owner
    chains and insets (`WindowPeer`).
  - The undecorated form's style bits, the frame state and
    setMaximizedBounds (`Forms`).
  - Text area, text field and list peers (`TextPeers`).
- **Printer status.** Win32 printer status decoding (`PrinterStatus`).
- **Toolkit and environment.**
  - The toolkit's capability predicates, system colours, screen insets,
    glyph outline shift and custom cursor checks (`Toolkit`);
  - the graphics environment and configuration: the font family list,
    screen devices and compatible images (`GraphicsEnvironment`).

Shared definitions live in `Base`:

- `Result`/`Option` carry the exceptions the source throws.
- Rounding, truncation and division follow C#:
  - `Math.Round` rounds half to even;
  - a float-to-int cast truncates toward zero;
  - int `/` truncates;
  - unchecked arithmetic wraps at 32 bits.
- Floats are modelled as `real`.
- Bit masks are `bv32`.

Anything native is a parameter of the model:

- text measurement (a width function);
- the font's cell metrics;
- the installed families and the styles each supports;
- the probe bitmap's dark pixels;
- the screens and their working areas;
- the system palette;
- the native best cursor size;
- the spooler's status word and job count;
- the screen position of a control's client area.

## Model

| member | source | states |
|---|---|---|
| Colors.ToNetColor | IKVM.AWT.WinForms/J2C.cs:42-45 | a null Java colour becomes Color.Empty and any other colour keeps its ARGB word |
| Colors.ToJavaColor | IKVM.AWT.WinForms/C2J.cs:50-53 | Color.Empty becomes null and any other colour keeps its ARGB word, alpha included |
| Colors.JavaColorRoundTrip | IKVM.AWT.WinForms/J2C.cs:42-45 | converting a Java colour (or null) to .NET and back gives it back |
| Colors.NetColorRoundTrip | IKVM.AWT.WinForms/C2J.cs:50-53 | converting a .NET colour (or Color.Empty) to Java and back gives it back |
| Colors.Create | IKVM.AWT.WinForms/CompositeHelper.cs:44-77 | CLEAR yields the clear helper; CLEAR and SRC select SourceCopy; DST forces alpha 0; an alpha of 1 needs no helper, any other alpha an alpha helper with that alpha; unknown rules and non-alpha composites are logged |
| Colors.CreateSrcOver | IKVM.AWT.WinForms/CompositeHelper.cs:57-69 | the default composite SrcOver gives SourceOver, no helper and no log line |
| Colors.ScaledAlphaIsRoundHalfUp | IKVM.AWT.WinForms/AlphaCompositeHelper.cs:48-54 | scaling the masked alpha word and adding 0x800000 before truncation is rounding the alpha byte half up |
| Colors.HelperArgb | IKVM.AWT.WinForms/AlphaCompositeHelper.cs:48-54 | the alpha helper multiplies the alpha byte by its alpha, rounded half up, and keeps red, green and blue; other helpers pass the word through |
| Colors.HelperInverseArgb | IKVM.AWT.WinForms/AlphaCompositeHelper.cs:56-62 | the alpha helper divides the alpha byte by its alpha, rounded half up, and keeps red, green and blue; other helpers pass the word through |
| Colors.HelperNetColor | IKVM.AWT.WinForms/CompositeHelper.cs:84-87 | a null Java colour stays Color.Empty; any other colour is the helper's rewritten ARGB |
| Colors.HelperJavaColor | IKVM.AWT.WinForms/CompositeHelper.cs:94-97 | Color.Empty becomes null; any other colour is the helper's inverse rewrite |
| Colors.IdentityHelperConverts | IKVM.AWT.WinForms/CompositeHelper.cs:79-97 | without an alpha helper the helper's conversions coincide with J2C's and C2J's |
| Colors.AlphaRoundTripWithinOne | IKVM.AWT.WinForms/AlphaCompositeHelper.cs:48-62 | for an alpha of at least one half, a colour sent to GDI+ and read back keeps its colour bytes and its alpha byte to within one |
| Colors.AlphaRoundTripLossForSmallAlpha | IKVM.AWT.WinForms/AlphaCompositeHelper.cs:48-62 | for alpha 1/100 the round trip turns alpha 149 into 1 and then 100, so the within-one bound needs a large alpha |
| Colors.DstMakesTransparent | IKVM.AWT.WinForms/CompositeHelper.cs:60-63 | under the DST rule every colour handed to GDI+ is fully transparent |
| Paths.ConvertShape | IKVM.AWT.WinForms/J2C.cs:138-180 | one GraphicsPath call per segment: moveTo starts a figure, close closes it, lines and curves start at the pen, a quadratic becomes a cubic with its control point doubled, and the fill mode is the winding rule |
| Paths.LineAfterCloseStartsAtLastEnd | IKVM.AWT.WinForms/J2C.cs:158-175 | a close does not move the pen, so a line after a close starts at the last end point, not at the figure's start |
| Paths.Decode | IKVM.AWT.WinForms/C2J.cs:83-115 | decoding fails only by reading past the arrays, and yields at most two calls per point |
| Paths.ConvertPath | IKVM.AWT.WinForms/C2J.cs:71-118 | the Java path takes the fill mode as winding rule and the decoded calls; it fails exactly when decoding reads past the arrays |
| Paths.DecodeStart | IKVM.AWT.WinForms/C2J.cs:90-93 | a single figure start decodes to one moveTo |
| Paths.DecodeSkipsUnknownKind | IKVM.AWT.WinForms/C2J.cs:105-113 | a point of an unknown kind adds nothing except the closePath its close flag asks for |
| Paths.DecodeEncode | IKVM.AWT.WinForms/C2J.cs:71-118 | decoding the points and types GDI+ reports for a call list gives that call list back |
| Paths.RoundRect | IKVM.AWT.WinForms/J2C.cs:107-136 | four edges, each followed by a 90-degree arc of the given diameters only when both diameters are positive, then a close |
| Paths.RoundRectIsClosedCurve | IKVM.AWT.WinForms/J2C.cs:107-136 | with even positive diameters every piece starts where the previous one ends and the outline closes on itself |
| Paths.RoundRectWithoutArcsIsRectangle | IKVM.AWT.WinForms/J2C.cs:107-136 | without arcs the path is the rectangle's four sides, a closed outline |
| Paths.ToMatrix | IKVM.AWT.WinForms/J2C.cs:198-207 | the GDI+ matrix moves the origin where the Java transform moves it |
| Paths.ToAffine | IKVM.AWT.WinForms/C2J.cs:39-43 | the Java transform moves the origin where the GDI+ matrix moves it |
| Paths.ToMatrixAgrees | IKVM.AWT.WinForms/J2C.cs:198-207 | the converted matrix maps every point as the Java transform does |
| Paths.TransformRoundTrip | IKVM.AWT.WinForms/C2J.cs:39-43 | transform to matrix and back, and matrix to transform and back, are identities |
| Paths.ToJavaRect | IKVM.AWT.WinForms/C2J.cs:45-48 | each component is truncated toward zero: within one of the float, never larger in magnitude |
| Paths.ToNetRect | IKVM.AWT.WinForms/J2C.cs:92-95 | a java.awt.Rectangle becomes a System.Drawing.Rectangle with the same x, y, width and height |
| Paths.IntRectRoundTrip | IKVM.AWT.WinForms/C2J.cs:45-48 | an integer rectangle converted to floats and back is unchanged |
| Paths.ToNetRegion | IKVM.AWT.WinForms/J2C.cs:289-317 | null stays null; a rectangular region with negative extent becomes `new Region()`, whose interior is infinite (the model follows the code, which covers every point where Java covers none), otherwise a rectangle at the region's x and y with its size; a span region becomes the union of one rectangle per span box, in order |
| Paths.ToNetRegionKeepsPixels | IKVM.AWT.WinForms/J2C.cs:289-317 | a pixel lies in the converted region exactly when it lies in the Java region, except for a region of negative extent, which covers nothing in Java and everything once converted |
| Paths.GlyphText | IKVM.AWT.WinForms/J2C.cs:319-330 | one UTF-16 unit per glyph, the code taken modulo 2^16 |
| Paths.GlyphTextKeepsChars | IKVM.AWT.WinForms/J2C.cs:319-330 | codes that already fit a char pass through unchanged |
| Stroke.ConvertLineJoin | IKVM.AWT.WinForms/J2C.cs:182-196 | the three Java joins map to the GDI+ join of the same name; any other value is logged and becomes Miter |
| Stroke.LineJoinRoundTrip | IKVM.AWT.WinForms/J2C.cs:182-196 | every GDI+ join is reached, unlogged, from the Java join it stands for |
| Stroke.LineJoinIsNotACast | IKVM.AWT.WinForms/J2C.cs:182-196 | the two enumerations number round and bevel differently, so the switch cannot be replaced by a cast |
| Stroke.Paired | IKVM.AWT.WinForms/NetGraphics.cs:930-935 | an odd-length dash array is followed by a copy of itself; an even one is kept |
| Stroke.UnitScale | IKVM.AWT.WinForms/NetGraphics.cs:937-943 | a length divided by a line width above 1, times GDI+'s width scale, is the Java length again, and keeps its sign |
| Stroke.InPenUnits | IKVM.AWT.WinForms/NetGraphics.cs:936-944 | every dash length is divided by the line width when the width exceeds 1 |
| Stroke.WithoutZeroGap | IKVM.AWT.WinForms/NetGraphics.cs:945-950 | the pair {x, 0} is cut to {x}; anything else is kept |
| Stroke.SquareCapped | IKVM.AWT.WinForms/NetGraphics.cs:962-977 | dashes grow by one unit, gaps shrink by one unit but stay at least 0.00001 |
| Stroke.DashOffset | IKVM.AWT.WinForms/NetGraphics.cs:983-1000 | the dash offset counts line widths; a zero-width line with a positive phase is first widened to 0.001; otherwise the offset is 0 |
| Stroke.DashOffsetRestoresPhase | IKVM.AWT.WinForms/NetGraphics.cs:983-1000 | for a non-negative width and phase, the dash offset times the pen width is the Java phase again, and a zero pen width occurs only with phase 0 |
| Stroke.SetLineDash | IKVM.AWT.WinForms/NetGraphics.cs:921-1006 | no dash array means a solid pen; otherwise a custom pattern built as paired, scaled, zero-gap-cut and square-capped, the dash cap by end cap, an unknown cap logged, and join and miter limit left alone |
| Stroke.OddDashSameAsDoubled | IKVM.AWT.WinForms/NetGraphics.cs:930-935 | an odd dash array gives the same pen as the array written out twice |
| Stroke.OddDashDoubles | IKVM.AWT.WinForms/NetGraphics.cs:930-944 | with butt or round caps an odd array of n lengths yields 2n pen-unit lengths, the array repeated |
| Stroke.SquareCapPatternPositive | IKVM.AWT.WinForms/NetGraphics.cs:962-977 | with square caps every length handed to GDI+ is positive, as GDI+ requires |
| Stroke.SolidPairCollapses | IKVM.AWT.WinForms/NetGraphics.cs:945-950 | the Java solid pattern {x, 0} on a thin line reaches GDI+ as the single length {x} |
| Stroke.GetStroke | IKVM.AWT.WinForms/NetGraphics.cs:1220-1227 | the last stroke set, or a default BasicStroke before any |
| Stroke.SetStroke | IKVM.AWT.WinForms/NetGraphics.cs:895-913 | an equal stroke is ignored; a BasicStroke sets width, miter limit and join; without a dash array the pen is solid at the stroke's width, with one it is a custom pattern (square-capped exactly for CAP_SQUARE) whose width and dash offset are those the dash phase asks for; another stroke only logs; a null stroke throws after being stored |
| Stroke.SetStrokeIdempotent | IKVM.AWT.WinForms/NetGraphics.cs:897-900 | setting the same stroke again changes nothing and logs nothing |
| Stroke.GetStrokeAfterSet | IKVM.AWT.WinForms/NetGraphics.cs:1220-1227 | after setStroke, getStroke reports the stroke that was set |
| Fonts.Lower | IKVM.AWT.WinForms/J2C.cs:211 | the lower-cased name, letter by letter, of the same length (ASCII letters only) |
| Fonts.LowerIdempotent | IKVM.AWT.WinForms/J2C.cs:211 | lower-casing an already lower-cased name changes nothing |
| Fonts.CreateFontFamily | IKVM.AWT.WinForms/J2C.cs:209-235 | a null name is SansSerif; the monospace, serif and sans-serif aliases select the generic families regardless of case; any other name selects the installed family of that name, and a name no family has falls back to SansSerif |
| Fonts.FamilyIgnoresCase | IKVM.AWT.WinForms/J2C.cs:211-224 | two spellings that differ only in letter case select the same generic family, or both an installed one |
| Fonts.LogicalNameIsGeneric | IKVM.AWT.WinForms/J2C.cs:212-224 | a logical name never reaches the system, even when a family of that name is installed |
| Fonts.LoweredNameResolvesAlike | IKVM.AWT.WinForms/J2C.cs:209-235 | the lower-cased name resolves to the same kind of family as the name itself |
| Fonts.ConvertFontStyle | IKVM.AWT.WinForms/J2C.cs:237-252 | BOLD and ITALIC become Bold and Italic, each exactly when set; no other flag is produced |
| Fonts.FirstAvailable | IKVM.AWT.WinForms/J2C.cs:264-283 | the earliest style of the order that the family provides, or none when it provides none of them |
| Fonts.FallbackChain | IKVM.AWT.WinForms/J2C.cs:267-282 | the fallback tries Regular, Bold, Italic and Bold+Italic in that order |
| Fonts.ChooseStyle | IKVM.AWT.WinForms/J2C.cs:262-283 | the requested style when provided, else the first of the fallback chain, else the requested style unchanged |
| Fonts.ConvertFont | IKVM.AWT.WinForms/J2C.cs:254-286 | the family is CreateFontFamily's, a non-positive size becomes 1, the unit is pixels, the requested style is kept when provided, otherwise the first style of the fallback chain the family provides; the Font constructor throws ArgumentException exactly when the family provides none of the four styles |
| Fonts.ConvertFontWithoutStylesFails | IKVM.AWT.WinForms/J2C.cs:264-285 | a family that provides no style at all makes the conversion throw ArgumentException |
| Fonts.RequestedIsInFallbackOrder | IKVM.AWT.WinForms/J2C.cs:237-283 | every converted style is one the fallback chain would try |
| Fonts.NewJavaFont | IKVM.AWT.WinForms/C2J.cs:61 | the Java font keeps name and size, and a style with bits beyond BOLD and ITALIC becomes PLAIN |
| Fonts.SizeInPoints | IKVM.AWT.WinForms/C2J.cs:58-60 | a point size is kept, an inch is 72 points, a document unit 72/300 of a point and a millimetre 72/25.4 of a point; a non-negative size stays non-negative |
| Fonts.JavaSize | IKVM.AWT.WinForms/C2J.cs:57-60 | a pixel size is the Java size; any other unit is converted to points and scaled by the screen resolution over 72 |
| Fonts.DeriveFont | IKVM.AWT.WinForms/C2J.cs:62-65 | deriveFont keeps name and style and takes the exact float size |
| Fonts.ConvertFontToJava | IKVM.AWT.WinForms/C2J.cs:55-69 | the family's name, the pixel size (or points through the screen resolution), the style bits or PLAIN, and an integer size that is the truncated size when exact, else the rounded one |
| Fonts.FontRoundTrip | IKVM.AWT.WinForms/C2J.cs:55-69 | a positive-size Java font whose style the family provides converts without an exception, and converted back keeps its float size and, when the family provides its style, its BOLD and ITALIC bits |
| Fonts.UnderlineDropsStyle | IKVM.AWT.WinForms/C2J.cs:61 | an underlined bold italic .NET font arrives in Java as PLAIN |
| FontMetrics.AscentFloat | IKVM.AWT.WinForms/NetFontMetrics.cs:110-115 | the cell ascent scaled by size over em height: non-negative, and times the em height it is size times ascent |
| FontMetrics.DescentFloat | IKVM.AWT.WinForms/NetFontMetrics.cs:117-122 | the cell descent scaled the same way |
| FontMetrics.LeadingFloat | IKVM.AWT.WinForms/NetFontMetrics.cs:124-128 | Font.Height minus ascent and descent, clamped at zero |
| FontMetrics.Leading | IKVM.AWT.WinForms/NetFontMetrics.cs:73-76 | the leading rounded to the nearest whole number, never negative |
| FontMetrics.Ascent | IKVM.AWT.WinForms/NetFontMetrics.cs:95-98 | the ascent rounded to within one half, never negative |
| FontMetrics.Descent | IKVM.AWT.WinForms/NetFontMetrics.cs:100-103 | the descent rounded to within one half, never negative |
| FontMetrics.StringWidthFloat | IKVM.AWT.WinForms/NetFontMetrics.cs:130-163 | 0 for the empty string; otherwise the measured width, exact under AntiAlias and SingleBitPerPixel, else a whole number within one half of it |
| FontMetrics.StringWidth | IKVM.AWT.WinForms/NetFontMetrics.cs:105-108 | 0 for the empty string; otherwise an integer within one of the measured width |
| FontMetrics.StringWidthRoundsOnce | IKVM.AWT.WinForms/NetFontMetrics.cs:105-108 | stringWidth is the measured width rounded once: the second rounding changes nothing |
| FontMetrics.CharWidth | IKVM.AWT.WinForms/NetFontMetrics.cs:84-88 | a non-negative twenty-fold width w gives a width r with 20r <= w < 20r + 20 |
| FontMetrics.CharWidthBounds | IKVM.AWT.WinForms/NetFontMetrics.cs:84-88 | a character's width is the twenty-fold width divided by twenty, rounded down: twenty of them fit in the twenty-fold width, twenty-one do not |
| FontMetrics.MaxAdvance | IKVM.AWT.WinForms/NetFontMetrics.cs:78-82 | the maximal advance is the width of 'M' |
| FontMetrics.CharsWidth | IKVM.AWT.WinForms/NetFontMetrics.cs:90-93 | a range outside the array throws ArgumentOutOfRangeException; otherwise the width of the characters in the range |
| FontMetrics.CharsWidthOfWholeAndEmpty | IKVM.AWT.WinForms/NetFontMetrics.cs:90-93 | the whole array measures like its string and an empty range measures 0 |
| FontMetrics.StringBounds | IKVM.AWT.WinForms/NetFontMetrics.cs:165-186 | the box starts at x 0, is as wide as the string measured on the NetGraphics given (or the shared graphics) and as high as the scaled line spacing |
| FontMetrics.StringBoundsSplitLeading | IKVM.AWT.WinForms/NetFontMetrics.cs:165-177 | the box leaves as much room above the ascent as below the descent |
| FontMetrics.NewLineMetrics | IKVM.AWT.WinForms/fonts-0.95.cs:313-320 | the line metrics use CreateFontFamily's family for the font name, the raw style bits, the float size and the measured text |
| FontMetrics.LineAscent | IKVM.AWT.WinForms/fonts-0.95.cs:322-325 | the ascent times the em height is the cell ascent times the font size |
| FontMetrics.LineDescent | IKVM.AWT.WinForms/fonts-0.95.cs:338-341 | the descent times the em height is the cell descent times the font size |
| FontMetrics.LineHeight | IKVM.AWT.WinForms/fonts-0.95.cs:343-346 | the height times the em height is the line spacing times the font size |
| FontMetrics.LineLeading | IKVM.AWT.WinForms/fonts-0.95.cs:348-351 | ascent, descent and leading add up to the height; the leading is not clamped |
| FontMetrics.BaselineIndex | IKVM.AWT.WinForms/fonts-0.95.cs:327-330 | always the roman baseline |
| FontMetrics.BaselineOffsets | IKVM.AWT.WinForms/fonts-0.95.cs:332-336 | three offsets: roman at 0, hanging at minus the ascent, centre half of half the descent minus the ascent |
| FontMetrics.NumChars | IKVM.AWT.WinForms/fonts-0.95.cs:353-356 | the length of the measured text |
| FontMetrics.StrikethroughOffset | IKVM.AWT.WinForms/fonts-0.95.cs:365-371 | the strikethrough offset is minus a third of the ascent |
| FontMetrics.StrikethroughThickness | IKVM.AWT.WinForms/fonts-0.95.cs:374-381 | the strikethrough is an eighteenth of the font size thick |
| FontMetrics.UnderlineOffset | IKVM.AWT.WinForms/fonts-0.95.cs:383-390 | the underline offset is the font size divided by 8.7 |
| FontMetrics.UnderlineThickness | IKVM.AWT.WinForms/fonts-0.95.cs:392-399 | the underline is an eighteenth of the font size thick |
| FontMetrics.DecorationPlacement | IKVM.AWT.WinForms/fonts-0.95.cs:365-399 | the strikethrough sits above the baseline and the underline below it, equally thick, and the centre baseline lies between the hanging and roman ones when the descent is at most twice the ascent |
| FontMetrics.MetricsAgree | IKVM.AWT.WinForms/fonts-0.95.cs:322-351 | on equal size and cell metrics the two metric classes report the same ascent, descent and height, and NetFontMetrics' leading is the line leading against Font.Height, clamped at zero |
| Baseline.Brightness | IKVM.AWT.WinForms/NetGraphics.cs:1276-1277 | the HSL lightness of a probe pixel lies between 0 and 1 |
| Baseline.LeadingDarkRows | IKVM.AWT.WinForms/NetGraphics.cs:1270-1286 | the rows counted from the top all hold a dark pixel, and the row after them, if any, holds none |
| Baseline.CountDarkRows | IKVM.AWT.WinForms/NetGraphics.cs:1270-1286 | the probe loop counts exactly the leading rows with a pixel darker than one half, at most the bitmap's height |
| Baseline.MetricBaseline | IKVM.AWT.WinForms/NetGraphics.cs:1248-1253 | the font height times cell ascent over line spacing, rounded to within one half |
| Baseline.Measured | IKVM.AWT.WinForms/NetGraphics.cs:1253-1286 | a fresh baseline is the metric baseline plus between 0 and 3 probe rows |
| Baseline.GetBaseline | IKVM.AWT.WinForms/NetGraphics.cs:1241-1293 | a cached key returns its value and leaves the cache alone; a new key is measured and stored under that key |
| Baseline.Lookup | IKVM.AWT.WinForms/NetGraphics.cs:1245-1291 | after a lookup the key is cached with the returned value and every earlier entry is kept |
| Baseline.RepeatCallIsCached | IKVM.AWT.WinForms/NetGraphics.cs:1245-1291 | a second call with the same key returns the same value and leaves the cache alone, whatever the probe would measure |
| Graphics.ClipTo | IKVM.AWT.WinForms/NetGraphics.cs:114-125 | a null shape resets the clip to infinite; a shape narrows the clip; nothing but the clip changes |
| Graphics.ClipNarrows | IKVM.AWT.WinForms/NetGraphics.cs:120-123 | after clip(shape) a point is visible exactly when it was visible before and lies in the shape |
| Graphics.ClipResetShowsAll | IKVM.AWT.WinForms/NetGraphics.cs:116-119 | after clip(null) every point is visible |
| Graphics.SetColor | IKVM.AWT.WinForms/NetGraphics.cs:443-463 | null or the current paint changes nothing; otherwise the colour becomes paint and Java colour, its native colour goes through the helper, a solid brush is recoloured in place and any other brush replaced, and the pen takes colour and brush; nothing else changes |
| Graphics.SetColorIdempotent | IKVM.AWT.WinForms/NetGraphics.cs:445-449 | setting the same colour twice is setting it once |
| Graphics.GetPaint | IKVM.AWT.WinForms/NetGraphics.cs:1199-1203 | the current paint; before any, the native colour read back through the helper (null for Color.Empty), then remembered |
| Graphics.GetPaintUnderIdentity | IKVM.AWT.WinForms/NetGraphics.cs:1199-1203 | without an alpha helper the recovered paint is the native colour's ARGB word |
| Graphics.BrushFor | IKVM.AWT.WinForms/NetGraphics.cs:672-891 | a GradientPaint becomes its gradient brush; a LinearGradientPaint or RadialGradientPaint becomes the brush the code builds as written, from its helper-converted colours, centred on the radial paint's centre and reaching across the larger surface side; a radial paint on an empty surface throws IndexOutOfRangeException; textures and custom paints become texture brushes |
| Graphics.BrushForCorrected | IKVM.AWT.WinForms/NetGraphics.cs:672-891 | the same dispatch with the corrected linear zoom and radial rings: GradientPaint, texture and custom paints get exactly BrushFor's brush, and a radial paint fails exactly on an empty surface |
| Graphics.BrushForCorrectedAgrees | IKVM.AWT.WinForms/NetGraphics.cs:672-891 | the corrected and the as-written brushes differ only for a NO_CYCLE LinearGradientPaint or a RadialGradientPaint |
| Graphics.BrushForDiffersOnReversedAxis | IKVM.AWT.WinForms/NetGraphics.cs:743-764 | for the axis (100,100) to (50,50) on a 100 x 100 surface the as-written brush has descending stops while the corrected one's ascend |
| Graphics.SetPaint | IKVM.AWT.WinForms/NetGraphics.cs:658-893 | null or the current paint changes nothing; a colour is setColor; any other paint is recorded first, and the pen takes the as-written brush unless building it throws, which leaves the old brush |
| Graphics.SetPaintReadBack | IKVM.AWT.WinForms/NetGraphics.cs:658-1203 | after setPaint of a paint, getPaint returns that paint and changes nothing |
| Graphics.SetComposite | IKVM.AWT.WinForms/NetGraphics.cs:644-656 | the current composite changes nothing; null throws IllegalArgumentException; otherwise the helper and compositing mode follow the composite and the paint read before the switch is set again |
| Graphics.SetCompositeRederivesColor | IKVM.AWT.WinForms/NetGraphics.cs:644-656 | after a composite change a colour paint is the same Java colour, now drawn in the colour the new helper makes of it, by a solid brush |
| Graphics.SetRenderingHint | IKVM.AWT.WinForms/NetGraphics.cs:1008-1079 | unrecognised keys and values change nothing; no hint touches colour, paint, pen, brush or compositing; a text antialiasing hint sets the text hint and looks the baseline up again |
| Graphics.SetTextRenderingHint | IKVM.AWT.WinForms/NetGraphics.cs:1229-1233 | the native text hint changes and the baseline is the one for that hint; nothing else changes |
| Graphics.TextHintLastWins | IKVM.AWT.WinForms/NetGraphics.cs:1229-1233 | a second text hint overrides the first as if only it had been set, and setting the current hint again changes nothing exactly when the baseline already is the one for that hint |
| Graphics.GetRenderingHints | IKVM.AWT.WinForms/NetGraphics.cs:1102-1136 | text antialiasing and fractional metrics are always reported; antialiasing and interpolation only for the native modes that have a Java name |
| Graphics.HintReadBack | IKVM.AWT.WinForms/NetGraphics.cs:1008-1136 | every recognised hint reads back as the value it was set to |
| Graphics.HintsIndependent | IKVM.AWT.WinForms/NetGraphics.cs:1008-1136 | setting one hint leaves the read-back of every other hint as it was |
| Graphics.DrawLine | IKVM.AWT.WinForms/NetGraphics.cs:238-250 | a line whose end points coincide is drawn to a point a hundredth of a pixel away; any other line as given |
| Graphics.DrawLineNeverDegenerate | IKVM.AWT.WinForms/NetGraphics.cs:238-250 | the native segment never has equal ends and ends within a hundredth of a pixel of the Java end |
| Graphics.FlipArc | IKVM.AWT.WinForms/NetGraphics.cs:134-137 | the native start is 360 minus start minus sweep in 32-bit arithmetic; box and sweep are kept |
| Graphics.FlipArcMirrors | IKVM.AWT.WinForms/NetGraphics.cs:329-332 | away from overflow the native arc ends where the Java arc starts, and flipping twice restores the start |
| Graphics.SetBackground | IKVM.AWT.WinForms/NetGraphics.cs:1210-1213 | null is stored as Color.Empty and any other colour keeps its ARGB word; nothing else changes |
| Graphics.GetBackground | IKVM.AWT.WinForms/NetGraphics.cs:1215-1218 | Color.Empty reads back as null |
| Graphics.BackgroundRoundTrip | IKVM.AWT.WinForms/NetGraphics.cs:1210-1218 | the background read back is the colour that was set, null included |
| Graphics.DrawString | IKVM.AWT.WinForms/NetGraphics.cs:563-603 | the empty string draws nothing; text is drawn under SourceOver and the compositing mode is restored; fractional or non-simple text is one call at y minus the baseline; simple text is one call per character, each at x plus the widths of those before it; in every case the calls' texts put together are the string |
| Graphics.PlaceGlyphs | IKVM.AWT.WinForms/NetGraphics.cs:588-593 | one call per character, the i-th at x plus the summed charWidth of the first i characters |
| Graphics.GlyphsAbut | IKVM.AWT.WinForms/NetGraphics.cs:589-593 | each character starts where the previous one's charWidth ends |
| Graphics.JoinedGlyphs | IKVM.AWT.WinForms/NetGraphics.cs:588-593 | the per-character calls, their texts put together, spell the string |
| Gradient.NetColors | IKVM.AWT.WinForms/NetGraphics.cs:771-774 | one converted colour per Java colour, in order, each the composite helper's colour for it |
| Gradient.GradientPaintBrush | IKVM.AWT.WinForms/NetGraphics.cs:672-716 | a GradientPaint tiles with flipping; a cyclic one runs between the two points from colour 1 to colour 2; a non-cyclic one holds [c1, c1, c2, c2] at ascending positions from 0 to 1 |
| Gradient.GradientStopsOnEndPoints | IKVM.AWT.WinForms/NetGraphics.cs:683-711 | the stretched non-cyclic brush holds colour 1 from its start to point 1 and colour 2 from point 2 to its end: its inner stops sit exactly on the Java end points |
| Gradient.StretchedAxisKeepsStops | IKVM.AWT.WinForms/NetGraphics.cs:696-709 | on the axis stretched by z either way, the remapped position (z + f) / (2z + 1) lands on the point the original fraction f named, so the stretched brush keeps Java's stops in place |
| Gradient.ZoomOf | IKVM.AWT.WinForms/NetGraphics.cs:747 | min(10, max(w / dx, h / dy)) under float division (division by zero gives an infinity or NaN); a finite result is at most 10 |
| Gradient.AxisZoomAsWritten | IKVM.AWT.WinForms/NetGraphics.cs:743-747 | the zoom factor taken from the signed axis deltas, never above 10 |
| Gradient.AxisZoomAsWrittenNegative | IKVM.AWT.WinForms/NetGraphics.cs:743-747 | an axis pointing up and left, (100,100) to (50,50) on a 100 x 100 surface, gets zoom -2 |
| Gradient.AxisZoom | IKVM.AWT.WinForms/NetGraphics.cs:743-747 | the zoom factor taken from the axis lengths, never above 10 |
| Gradient.AxisZoomInRange | IKVM.AWT.WinForms/NetGraphics.cs:747 | on a surface of non-negative size the corrected zoom lies in [0, 10]; it is undefined exactly when a zero surface side meets a zero axis delta, and it is 10 for a horizontal axis on a surface of positive height |
| Gradient.WrapOf | IKVM.AWT.WinForms/NetGraphics.cs:780-789 | the brush tiles plainly exactly for REPEAT, and with flipping for NO_CYCLE and REFLECT |
| Gradient.StretchedPositions | IKVM.AWT.WinForms/NetGraphics.cs:753-764 | n + 2 positions: 0, then each Java fraction remapped to (z + f) / (2z + 1), then 1 |
| Gradient.StretchedColors | IKVM.AWT.WinForms/NetGraphics.cs:757-763 | n + 2 colours: the paint's colours in order with the first repeated in front and the last repeated behind |
| Gradient.StretchedPositionsOrdered | IKVM.AWT.WinForms/NetGraphics.cs:753-764 | for a non-negative zoom and ascending fractions in [0, 1] the stretched positions are ascending and within [0, 1], as a ColorBlend needs |
| Gradient.LinearPaintBrushAsWritten | IKVM.AWT.WinForms/NetGraphics.cs:729-793 | REFLECT and REPEAT keep the Java stops unchanged; NO_CYCLE stretches the axis by the signed zoom factor |
| Gradient.LinearPaintBrushAsWrittenReversed | IKVM.AWT.WinForms/NetGraphics.cs:743-764 | with zoom -2 the stretched stops come out descending and the brush starts at Java fraction 2, beyond the end point, holding the first colour |
| Gradient.LinearPaintBrush | IKVM.AWT.WinForms/NetGraphics.cs:729-793 | REFLECT and REPEAT keep the Java stops; NO_CYCLE stretches the axis by a zoom in [0, 10], and on a surface of non-negative size a brush exists exactly when no zero surface side meets a zero axis delta |
| Gradient.ZoomedBrush | IKVM.AWT.WinForms/NetGraphics.cs:747-779 | a stretched brush is built exactly when the zoom is defined and non-negative |
| Gradient.StretchedBrushFaithful | IKVM.AWT.WinForms/NetGraphics.cs:743-764 | with a non-negative zoom the stops are ascending and within [0, 1], the inner colours are the paint's, each inner stop sits at the point where Java shows that colour, and the brush runs from Java fraction -z to 1 + z |
| Gradient.Ceiling | IKVM.AWT.WinForms/NetGraphics.cs:802 | the least integer not below x |
| Gradient.RingCount | IKVM.AWT.WinForms/NetGraphics.cs:801-804 | the rings reach across the larger surface side, with less than one ring to spare, and there are none only on an empty surface |
| Gradient.RingStopAsWritten | IKVM.AWT.WinForms/NetGraphics.cs:814-858 | each stop of each ring as the loops build it indexes one of the paint's colours |
| Gradient.RingStop | IKVM.AWT.WinForms/NetGraphics.cs:814-858 | each stop of each corrected ring indexes one of the paint's colours |
| Gradient.RingStopFaithful | IKVM.AWT.WinForms/NetGraphics.cs:814-858 | every corrected stop holds the colour Java paints at its distance from the centre, for NO_CYCLE, REFLECT and REPEAT, and lies within its own ring's band |
| Gradient.Rings | IKVM.AWT.WinForms/NetGraphics.cs:810-849 | one ring of n stops per ring count, each indexing a paint colour |
| Gradient.RingsAsWritten | IKVM.AWT.WinForms/NetGraphics.cs:810-858 | one ring of n stops per ring count, each indexing a paint colour |
| Gradient.RingsFaithful | IKVM.AWT.WinForms/NetGraphics.cs:810-858 | every stop of every corrected ring holds Java's colour at its distance from the centre |
| Gradient.NoCycleFillAsWrittenWrong | IKVM.AWT.WinForms/NetGraphics.cs:850-858 | with two rings under NO_CYCLE, the outer boundary holds the paint's first colour where Java shows its last |
| Gradient.ReflectParityAsWrittenWrong | IKVM.AWT.WinForms/NetGraphics.cs:828-839 | with two rings under REFLECT, the centre holds the paint's last colour where Java shows its first |
| Gradient.BlendOf | IKVM.AWT.WinForms/NetGraphics.cs:810-817 | one blend entry per stop, at the stop's position, holding the converted colour the stop indexes |
| Gradient.RadialBrushOf | IKVM.AWT.WinForms/NetGraphics.cs:796-868 | with no ring the first store into the empty blend fails; otherwise the brush is centred on the paint's centre with an extent of radius times the ring count |
| Gradient.RadialBrushOfStops | IKVM.AWT.WinForms/NetGraphics.cs:810-868 | the blend holds rings times n entries, and the entry of stop c of ring f sits at that stop's position with the converted paint colour the stop indexes |
| Gradient.RadialPaintBrushAsWritten | IKVM.AWT.WinForms/NetGraphics.cs:794-869 | fails exactly on an empty surface; otherwise centred on the paint's centre and reaching across the larger surface side |
| Gradient.RadialPaintBrush | IKVM.AWT.WinForms/NetGraphics.cs:794-869 | fails exactly on an empty surface; otherwise centred on the paint's centre and reaching across the larger surface side |
| GraphicsState.SaveGraphics | IKVM.AWT.WinForms/NetGraphicsState.cs:63-85 | a null NetGraphics changes nothing; the native modes are recorded when there is a native graphics; the pen and brush are cloned, with the same contents under fresh distinct identities, only when both exist, and are otherwise left as they were |
| GraphicsState.RestoreGraphics | IKVM.AWT.WinForms/NetGraphicsState.cs:87-122 | a null NetGraphics changes nothing; a saved snapshot re-applies every recorded mode and the text hint's baseline; an unsaved one selects nearest-neighbour interpolation; saved pen and brush come back as fresh clones; otherwise a pen and solid brush of the current colour are made and the text antialias hint reset, which fails with a null reference when there is no native graphics; colour and paint are untouched |
| GraphicsState.RestoresNeverShare | IKVM.AWT.WinForms/NetGraphicsState.cs:111-115 | restoring the same snapshot twice hands out two different pens and brushes, neither of them the snapshot's own |
| GraphicsState.SaveRestoreRoundTrip | IKVM.AWT.WinForms/NetGraphicsState.cs:63-122 | a save followed by a restore onto the same graphics gives back its native modes, baseline, pen and brush contents, under new identities |
| GraphicsState.Init | IKVM.AWT.WinForms/NetGraphics.cs:83-89 | init never fails and leaves a native graphics in place, carrying the old graphics' modes when there was one and nearest-neighbour interpolation otherwise |
| GraphicsState.ConstructorInitIsReady | IKVM.AWT.WinForms/NetGraphics.cs:67-89 | after the constructor's init the NetGraphics is ready to draw: nearest-neighbour interpolation, a pen and solid brush of its colour, the default text antialiasing hint and its baseline |
| PrintGraphics.Put | IKVM.AWT.WinForms/Printing/PrintGraphics.cs:57-60 | writing an object back changes only that object, and its native graphics and pen/brush allocator become the job's shared ones |
| PrintGraphics.SaveCurrent | IKVM.AWT.WinForms/Printing/PrintGraphics.cs:78-88 | a disposed current object saves nothing; any other current object ends up with a snapshot; no other object changes |
| PrintGraphics.RestoreOwn | IKVM.AWT.WinForms/Printing/PrintGraphics.cs:90 | an object without a snapshot changes nothing; one with a full snapshot puts its recorded native modes back on the shared graphics; no other object changes |
| PrintGraphics.CheckState | IKVM.AWT.WinForms/Printing/PrintGraphics.cs:71-92 | afterwards `me` is current; nothing happens when it already was; a switch to an object with no snapshot leaves the shared native modes alone |
| PrintGraphics.Create | IKVM.AWT.WinForms/Printing/PrintGraphics.cs:52-65 | the copy is a new object, becomes current, has no snapshot of its own and is not the base; the creator keeps a snapshot |
| PrintGraphics.CreateCopiesState | IKVM.AWT.WinForms/Printing/PrintGraphics.cs:52-65 | the copy starts with its creator's native modes and a pen and brush of the same contents under identities of its own |
| PrintGraphics.ParentSeesOwnState | IKVM.AWT.WinForms/Printing/PrintGraphics.cs:52-92 | whatever the copy does to the shared native graphics, the creator's next operation finds the native modes as they were when it created the copy |
| PrintGraphics.Dispose | IKVM.AWT.WinForms/Printing/PrintGraphics.cs:117-129 | the object drops its snapshot and is marked disposed; the shared native graphics is disposed exactly when the base object is |
| PrintGraphics.DisposedCurrentNotSaved | IKVM.AWT.WinForms/Printing/PrintGraphics.cs:76-90 | a disposed current object is not saved again when another object takes over |
| PrintGraphics.Received | IKVM.AWT.WinForms/Printing/PrintGraphics.cs:71-92 | a wrapped operation on an object works on the shared native graphics as checkState leaves it |
| PrintGraphics.Perform | IKVM.AWT.WinForms/Printing/PrintGraphics.cs:94-135 | every drawing operation runs checkState first and leaves the object current; the operation is applied to the object's own fields on the native graphics checkState left, its outcome is written back into that object only, and every other object keeps what checkState left it; getDeviceConfiguration changes nothing; copyArea throws NotImplementedException |
| PrintGraphics.SwitchRestoresSnapshot | IKVM.AWT.WinForms/Printing/PrintGraphics.cs:71-92 | switching to an object that saved a full state puts that state's native modes back on the shared native graphics |
| PrintGraphics.ParentDrawsOnOwnState | IKVM.AWT.WinForms/Printing/PrintGraphics.cs:52-135 | after create, whatever drawing operation the copy performs, the creator's next drawing operation is handed the native modes the creator had when it made the copy |
| ComponentGraphics.Clip | IKVM.AWT.WinForms/ComponentGraphics.cs:80-91 | a null shape throws NullPointerException; otherwise only the clip changes, on the same native graphics with every other native field kept, to the points inside both the old clip and the shape |
| ComponentGraphics.NullClipDiffersFromBase | IKVM.AWT.WinForms/ComponentGraphics.cs:80-91 | on a null shape the control's clip throws where the base NetGraphics clip shows every point |
| ComponentGraphics.GetSize | IKVM.AWT.WinForms/ComponentGraphics.cs:46-49 | a control's graphics measures the control; the base measures the clip bounds |
| ComponentGraphics.ControlSizeKeepsRadialPaint | IKVM.AWT.WinForms/ComponentGraphics.cs:46-49 | on a control of non-zero size a radial paint always gets its brush, while with the base's size an empty clip makes the same paint fail |
| ComponentGraphics.Create | IKVM.AWT.WinForms/ComponentGraphics.cs:51-56 | the copy is ready to draw, keeps every native mode of the original with the baseline looked up again, its colour and paint, and owns a pen and a brush of the original's contents under new identities |
| ComponentGraphics.CreateReadsAlike | IKVM.AWT.WinForms/ComponentGraphics.cs:51-56 | the copy reports the same rendering hints, background and composite as the original, and setColor on it yields the colour and brush it yields on the original |
| ComponentGraphics.CopyArea | IKVM.AWT.WinForms/ComponentGraphics.cs:68-78 | a non-positive width or height makes the bitmap constructor throw; otherwise a block of exactly the requested size is copied |
| ComponentGraphics.CopyAreaShiftsByDelta | IKVM.AWT.WinForms/ComponentGraphics.cs:68-78 | with a whole-pixel translation, and coordinates far from the int limits, the block is read from where it shows on screen and lands (dx, dy) further on |
| InputEvents.ActionOf | IKVM.AWT.WinForms/NetComponentPeer.cs:123-145 | Copy, Move, Copy or Move and Link effects map to their AWT actions and back exactly; every other effect set means no action |
| InputEvents.EffectsOf | IKVM.AWT.WinForms/NetComponentPeer1.cs:410-425 | the result is one of the five mapped effect sets, and is None exactly for None or an unmapped action |
| InputEvents.ActionEffectsRoundTrip | IKVM.AWT.WinForms/NetComponentPeer1.cs:410-425 | the action and effect mappings are inverse on the values each of them maps |
| InputEvents.DropAction | IKVM.AWT.WinForms/NetComponentPeer1.cs:427-475 | control asks for a copy, control and shift for a link, shift for a move, each granted exactly when allowed; with neither key there is no action only when none of move, copy and link is allowed; a granted action is always allowed |
| InputEvents.DropActionPrefersMove | IKVM.AWT.WinForms/NetComponentPeer1.cs:455-472 | with no key held the preference is move, then copy, then link |
| InputEvents.DropActionIgnoresOtherKeys | IKVM.AWT.WinForms/NetComponentPeer1.cs:427-475 | key-state bits other than control and shift never change the action |
| InputEvents.Modifiers | IKVM.AWT.WinForms/NetComponentPeer.cs:167-199 | shift maps to SHIFT_DOWN; control alone to CTRL_DOWN, alt alone to ALT_DOWN, both together to ALT_GRAPH_DOWN only; each held mouse button to its down mask; no other bit is set |
| InputEvents.AltGraphExcludesCtrlAndAlt | IKVM.AWT.WinForms/NetComponentPeer.cs:175-187 | when AltGraph is reported neither control nor alt is |
| InputEvents.MouseEventModifiers | IKVM.AWT.WinForms/NetComponentPeer.cs:147-165 | the key modifiers, plus the old-style mask of the event's button only when it names exactly one of left, middle and right |
| InputEvents.ButtonOf | IKVM.AWT.WinForms/NetComponentPeer.cs:201-219 | button 1, 2 or 3 for the first of left, middle and right the event includes, and NOBUTTON exactly when it includes none |
| InputEvents.ButtonAndMaskAgree | IKVM.AWT.WinForms/NetComponentPeer.cs:147-219 | for a single button the event's number and its old-style mask agree; for left and right together the number is 1 while no mask is set |
| InputEvents.MapKeyCode | IKVM.AWT.WinForms/NetComponentPeer1.cs:342-355 | Delete and Enter become AWT's VK_DELETE and VK_ENTER; every other key code passes through unchanged |
| InputEvents.MapKeyCodeInjective | IKVM.AWT.WinForms/NetComponentPeer1.cs:342-355 | distinct key codes stay distinct except that LineFeed (10) and F16 (127) collide with Enter and Delete |
| InputEvents.ScrollAmount | IKVM.AWT.WinForms/NetComponentPeer1.cs:536-549 | the scroll amount, -delta times the lines per notch over 120 in wrapping 32-bit arithmetic with truncating division, stays within int range divided by 120 |
| InputEvents.ScrollAmountPerNotch | IKVM.AWT.WinForms/NetComponentPeer1.cs:540 | away from wrap-around, k notches scroll k times the lines per notch, against the wheel's direction |
| ComponentPeer.Dispose | IKVM.AWT.WinForms/NetComponentPeer1.cs:787-800 | the peer ends up disposed, disposeImpl runs exactly when it was not disposed before, and nothing else changes |
| ComponentPeer.DisposeAtMostOnce | IKVM.AWT.WinForms/NetComponentPeer1.cs:787-800 | however often dispose is called, disposeImpl runs at most once, and exactly once on a live peer |
| ComponentPeer.SetBounds | IKVM.AWT.WinForms/NetComponentPeer1.cs:1013-1045 | a paint is pending exactly when the size differs from the recorded one, which then becomes the new size; the serial number counts every call as a wrapping int; nothing else changes |
| ComponentPeer.SameSizeLeavesNothingPending | IKVM.AWT.WinForms/NetComponentPeer1.cs:1013-1045 | a second setBounds to the same size leaves no paint pending, and one to another size always does |
| ComponentPeer.Show | IKVM.AWT.WinForms/NetComponentPeer1.cs:1158-1164 | after show a setBounds to the target's size is not a resize; only the recorded size changes |
| ComponentPeer.HandlePaint | IKVM.AWT.WinForms/NetComponentPeer1.cs:895-907 | PAINT clears the pending flag and repaints outside a layout; UPDATE changes nothing and repaints only outside a layout with no native paint awaited |
| ComponentPeer.PaintPendingAfterResize | IKVM.AWT.WinForms/NetComponentPeer1.cs:760-765 | inside a layout, isPaintPending holds after setBounds exactly when the size changed; while it holds neither PAINT nor UPDATE repaints, and a PAINT ends it |
| ComponentPeer.BeginLayout | IKVM.AWT.WinForms/NetComponentPeer1.cs:718-722 | only the layout flag changes, to set |
| ComponentPeer.EndLayout | IKVM.AWT.WinForms/NetComponentPeer1.cs:724-732 | the layout ends and nothing else changes; a PAINT is posted exactly when there is damage, no native paint is awaited and the target does not ignore repaints |
| ComponentPeer.PaintGating | IKVM.AWT.WinForms/NetComponentPeer1.cs:718-765 | within a layout nothing is painted; after a resize an UPDATE waits for the native PAINT; once it came, updates outside a layout repaint again |
| ComponentPeer.MouseDown | IKVM.AWT.WinForms/NetComponentPeer1.cs:563-569 | forgets any click, double-click or popup seen before and posts exactly one MOUSE_PRESSED |
| ComponentPeer.Click | IKVM.AWT.WinForms/NetComponentPeer1.cs:576-579 | only notes that a click was seen |
| ComponentPeer.DoubleClick | IKVM.AWT.WinForms/NetComponentPeer1.cs:581-584 | only notes that a double-click was seen |
| ComponentPeer.MouseUp | IKVM.AWT.WinForms/NetComponentPeer1.cs:586-601 | posts MOUSE_RELEASED, then MOUSE_CLICKED exactly when a click or double-click was seen, with click count 2 after a double-click; forgets the single click |
| ComponentPeer.ClickFollowsRelease | IKVM.AWT.WinForms/NetComponentPeer1.cs:563-601 | press, click, release posts PRESSED, RELEASED, CLICKED; a double-click gives the click count 2; without a click only PRESSED and RELEASED are posted |
| PrinterStatus.StateOf | IKVM.AWT.WinForms/Printing/Win32PrintPeer.cs:118-130 | STOPPED exactly when a stopping bit is set; otherwise PROCESSING exactly when busy or printing; otherwise null |
| PrinterStatus.AcceptingJobs | IKVM.AWT.WinForms/Printing/Win32PrintPeer.cs:139-150 | jobs are refused exactly when one of the six refusing bits is set |
| PrinterStatus.ExtractReasons | IKVM.AWT.WinForms/Printing/Win32PrintPeer.cs:155-220 | null exactly when no set bit has a reason; otherwise the reasons are exactly those some set bit reports, each with its fixed severity |
| PrinterStatus.SilentBitsAddNoReason | IKVM.AWT.WinForms/Printing/Win32PrintPeer.cs:155-220 | bits the decoding passes over (pending deletion, manual feed, busy and the like) never change the reasons |
| PrinterStatus.RefusesIffErrorReason | IKVM.AWT.WinForms/Printing/Win32PrintPeer.cs:139-220 | the printer refuses jobs exactly when one of the reasons it reports has ERROR severity |
| PrinterStatus.StoppedIffRefusingOrUnavailable | IKVM.AWT.WinForms/Printing/Win32PrintPeer.cs:118-150 | the printer is stopped exactly when it refuses jobs or reports NOT_AVAILABLE; that bit alone stops it without a reason while it still accepts jobs |
| PrinterStatus.StatusAttributesAgree | IKVM.AWT.WinForms/Printing/Win32PrintPeer.cs:114-220 | the attributes one status word yields agree: not accepting exactly when some reason is an error, stopped exactly when refusing jobs or not available |
| PrinterStatus.GetPrinterStatus | IKVM.AWT.WinForms/Printing/Win32PrintPeer.cs:114-153 | null when the printer cannot be queried or the category is not one of the four; otherwise the decoded state, the reasons attribute of the extracted reasons (null when there are none), the job count or the accepting flag; a negative job count makes the QueuedJobCount constructor throw |
| Forms.ExStyle | IKVM.AWT.WinForms/UndecoratedForm.cs:91-98 | WS_EX_NOACTIVATE is set exactly for an unfocusable window and WS_EX_TOPMOST exactly for an always-on-top one; every other extended bit is the base form's |
| Forms.Style | IKVM.AWT.WinForms/UndecoratedForm.cs:102 | WS_DISABLED is set exactly for a disabled form; every other style bit is the base form's |
| Forms.CreateParams | IKVM.AWT.WinForms/UndecoratedForm.cs:86-105 | NOACTIVATE exactly when unfocusable, TOPMOST exactly when always on top, DISABLED exactly when disabled, every other bit of both words as the base form has it |
| Forms.ExStyleIdempotent | IKVM.AWT.WinForms/UndecoratedForm.cs:91-98 | deriving the extended style again from a derived one changes nothing |
| Forms.StyleIdempotent | IKVM.AWT.WinForms/UndecoratedForm.cs:102 | deriving the style again from a derived one changes nothing |
| Forms.CreateParamsIdempotent | IKVM.AWT.WinForms/UndecoratedForm.cs:86-105 | deriving both words again from derived words changes nothing: only the window's flags matter |
| Forms.ShowWithoutActivation | IKVM.AWT.WinForms/UndecoratedForm.cs:80 | a window is shown without activation exactly when its create parameters carry NOACTIVATE |
| Forms.WndProc | IKVM.AWT.WinForms/UndecoratedForm.cs:110-118 | WM_MOUSEACTIVATE on an unfocusable window is answered with MA_NOACTIVATE; every other message goes on to the base window procedure |
| Forms.ActivationRulesAgree | IKVM.AWT.WinForms/UndecoratedForm.cs:80-118 | showing without activation, refusing activation by a click, and carrying NOACTIVATE happen together or not at all |
| Forms.Constructed | IKVM.AWT.WinForms/UndecoratedForm.cs:62-72 | an undecorated form has no border and no taskbar button, while MyForm's empty override keeps the sizable, taskbar-listed defaults |
| Forms.SetMaximizedBounds | IKVM.AWT.WinForms/MyForm.cs:81-100 | a rectangle is applied after the system value was saved, if it was not yet; null restores the saved value, and does nothing when none was saved |
| Forms.SavedOnce | IKVM.AWT.WinForms/MyForm.cs:93-97 | once saved, the system value is never overwritten, whatever calls follow |
| Forms.ResetRestoresSystemBounds | IKVM.AWT.WinForms/MyForm.cs:81-100 | the first rectangle saves the system value, and a null after any number of further calls brings it back |
| Forms.ApplyAllConcat | IKVM.AWT.WinForms/MyForm.cs:81-100 | applying two runs of calls one after the other is applying their concatenation |
| Forms.GetState | IKVM.AWT.WinForms/NetFramePeer.cs:130-145 | Normal, Minimized and Maximized give Java's NORMAL, ICONIFIED and MAXIMIZED_BOTH; any other window state throws InvalidEnumArgumentException |
| Forms.SetState | IKVM.AWT.WinForms/NetFramePeer.cs:147-165 | the three mapped Java states set a valid window state; every other value leaves the window state as it was |
| Forms.FrameStateRoundTrip | IKVM.AWT.WinForms/NetFramePeer.cs:130-165 | getState after setState gives back every mapped state, and setState of getState gives back every valid window state |
| Forms.BorderFor | IKVM.AWT.WinForms/NetFramePeer.cs:106-123 | no border exactly when undecorated; otherwise sizable exactly when resizable and fixed single exactly when not |
| Forms.Initialize | IKVM.AWT.WinForms/NetFramePeer.cs:68-79 | the title is taken only when the frame has one; the border follows decoration and resizability; the window state follows the extended state |
| Forms.InitializeReportsState | IKVM.AWT.WinForms/NetFramePeer.cs:68-79 | after initialize the peer reports the frame's own state whenever that is one of the mapped ones |
| WindowPeer.SetModalBlocked | IKVM.AWT.WinForms/NetWindowPeer.cs:320-350 | isModalBlocked reports the window blocked exactly when asked to be; blocking records the dialog and the enabled flag and disables the window; unblocking restores the saved flag |
| WindowPeer.ModalBlockRoundTrip | IKVM.AWT.WinForms/NetWindowPeer.cs:325-350 | blocking and then unblocking leaves the window unblocked and exactly as enabled as it was |
| WindowPeer.OnChainIffAncestor | IKVM.AWT.WinForms/NetWindowPeer.cs:469-483 | a window is on another's owner chain exactly when it is reached from it by some number of parent steps |
| WindowPeer.IsOneOfOwnersOf | IKVM.AWT.WinForms/NetWindowPeer.cs:469-483 | the walk up the parents answers true exactly when the owner is the window itself or one of its ancestors |
| WindowPeer.Ungrab | IKVM.AWT.WinForms/NetWindowPeer.cs:456-467 | a window that does not hold the grab changes nothing; the holder releases it, posting an UngrabEvent exactly when asked to |
| WindowPeer.Grab | IKVM.AWT.WinForms/NetWindowPeer.cs:441-454 | the previous holder is released with an event; the grab is kept when some form is active and released again with an event when none is; a grabbing window that is not the active form is brought to the front |
| WindowPeer.GrabReleasesPrevious | IKVM.AWT.WinForms/NetWindowPeer.cs:444 | a new grab tells the previous holder with an UngrabEvent before posting anything else |
| WindowPeer.ReleaseForeignGrab | IKVM.AWT.WinForms/NetWindowPeer.cs:432-439 | a grab held by a window that does not own this one ends with an UngrabEvent; otherwise nothing changes |
| WindowPeer.WmActivate | IKVM.AWT.WinForms/NetWindowPeer.cs:182-200 | activation posts WINDOW_GAINED_FOCUS; deactivation first releases a foreign grab and then posts WINDOW_LOST_FOCUS |
| WindowPeer.GrabSurvivesOwnedWindows | IKVM.AWT.WinForms/NetWindowPeer.cs:182-200 | a grab survives a click in, or the deactivation of, exactly the windows the grabbing window owns |
| WindowPeer.CalcInsets | IKVM.AWT.WinForms/NetWindowPeer.cs:248-276 | left and top put the client area at its place on screen, and left, client width and right add up to the window's width, as top, client height and bottom add up to its height |
| WindowPeer.InsetsIgnorePosition | IKVM.AWT.WinForms/NetWindowPeer.cs:248-276 | moving the window together with its client area leaves the insets unchanged |
| TextPeers.Insert | IKVM.AWT.WinForms/NetTextAreaPeer.cs:123-126 | the new text appears at the position with the old text unchanged on both sides of it; a position outside the text throws ArgumentOutOfRangeException |
| TextPeers.ReplaceRange | IKVM.AWT.WinForms/NetTextAreaPeer.cs:159-162 | the text before start, then the new text, then the text from end on; either bound outside the text throws ArgumentOutOfRangeException |
| TextPeers.InsertIsEmptyReplace | IKVM.AWT.WinForms/NetTextAreaPeer.cs:123-162 | insert at a position is replaceRange of the empty range there, failures included |
| TextPeers.ReplaceRangeUndo | IKVM.AWT.WinForms/NetTextAreaPeer.cs:159-162 | on a valid range, replacing the new text by what it replaced gives back the original text |
| TextPeers.ReversedRangeRepeatsText | IKVM.AWT.WinForms/NetTextAreaPeer.cs:159-162 | nothing checks that start is not after end: replacing "abcd" from 3 to 1 by nothing gives "abcbcd" |
| TextPeers.GetCaretPosition | IKVM.AWT.WinForms/NetTextAreaPeer.cs:82-110 | the caret is the selection's start |
| TextPeers.GetSelectionEnd | IKVM.AWT.WinForms/NetTextAreaPeer.cs:77-80 | the selection's end lies its length past the caret, and within the text |
| TextPeers.SetCaretPosition | IKVM.AWT.WinForms/NetTextAreaPeer.cs:112-121 | an empty selection at the position with the text unchanged; a negative position throws ArgumentOutOfRangeException and one past the text stops at its end |
| TextPeers.CaretRoundTrip | IKVM.AWT.WinForms/NetTextAreaPeer.cs:77-121 | after setCaretPosition within the text the caret reads back as set and nothing is selected |
| TextPeers.Select | IKVM.AWT.WinForms/NetTextAreaPeer.cs:97-100 | always throws NotImplementedException |
| TextPeers.SetEditable | IKVM.AWT.WinForms/NetTextAreaPeer.cs:102-105 | always throws NotImplementedException |
| TextPeers.AreaMinimumSize | IKVM.AWT.WinForms/NetTextAreaPeer.cs:143-147 | away from int overflow, cols widths of '0' plus 20 wide and rows line heights plus 20 high |
| TextPeers.AreaPreferredSize | IKVM.AWT.WinForms/NetTextAreaPeer.cs:154-157 | the preferred size is the minimum size |
| TextPeers.AreaDefaultMinimumSize | IKVM.AWT.WinForms/NetTextAreaPeer.cs:133-136 | without arguments, for realistic metrics, the size of 60 columns and 10 rows |
| TextPeers.AreaSizeGrowsPerCell | IKVM.AWT.WinForms/NetTextAreaPeer.cs:143-147 | each further column adds the width of a '0', each further row a line height |
| TextPeers.Add | IKVM.AWT.WinForms/NetListPeer.cs:75-78 | the item lands at the index with every other item kept in order around it; an index outside 0 to the count throws ArgumentOutOfRangeException |
| TextPeers.AddAppendAsWrittenFails | IKVM.AWT.WinForms/NetListPeer.cs:75-78 | add with index -1, the AWT peer's append, throws ArgumentOutOfRangeException |
| TextPeers.AddCorrected | IKVM.AWT.WinForms/NetListPeer.cs:75-78 | index -1 appends the item; any other index behaves as the native Insert |
| TextPeers.AddCorrectedAppends | IKVM.AWT.WinForms/NetListPeer.cs:75-78 | an index of -1 or of the item count puts the item last and keeps the others in order |
| TextPeers.RemoveAtRepeatedCuts | IKVM.AWT.WinForms/NetListPeer.cs:94-97 | removing at one index count times cuts out the count items from there, and throws when there are not that many |
| TextPeers.DelItemsAsWritten | IKVM.AWT.WinForms/NetListPeer.cs:90-99 | the loop removes the half-open range from start up to but not including end, failing when that range leaves the list |
| TextPeers.DelItemsAsWrittenKeepsRemovedItem | IKVM.AWT.WinForms/NetListPeer.cs:90-99 | java.awt.List.remove(p) calls delItems(p, p), which as written removes nothing |
| TextPeers.DelItems | IKVM.AWT.WinForms/NetListPeer.cs:90-99 | the corrected loop removes the inclusive range from start to end, failing when that range leaves the list, and an empty range removes nothing |
| TextPeers.DelItemsRemovesOne | IKVM.AWT.WinForms/NetListPeer.cs:75-99 | remove(p) removes exactly item p, and undoes add(item, p) |
| TextPeers.ListFromTarget | IKVM.AWT.WinForms/NetListPeer.cs:60-73 | the constructor's adds leave the native list holding the Java list's items in order |
| TextPeers.ListMinimumSize | IKVM.AWT.WinForms/NetListPeer.cs:157-160 | 100 by 100 whatever the row count |
| TextPeers.ListPreferredSize | IKVM.AWT.WinForms/NetListPeer.cs:152-155 | the preferred size is the minimum size |
| TextPeers.SelectionModeFor | IKVM.AWT.WinForms/NetListPeer.cs:142-145 | several items can be selected exactly in multiple mode |
| TextPeers.HandleJavaKeyEvent | IKVM.AWT.WinForms/NetTextFieldPeer.cs:102-116 | a typed Enter without Alt or Ctrl is consumed and posts exactly one ACTION_PERFORMED with the field's text, time and modifiers; every other event is left alone |
| TextPeers.OneActionPerEnter | IKVM.AWT.WinForms/NetTextFieldPeer.cs:102-116 | over a run of key events the field posts one ACTION_PERFORMED per plain typed Enter and nothing else, each carrying the field's text |
| TextPeers.FieldPreferredSize | IKVM.AWT.WinForms/NetTextFieldPeer.cs:80-85 | the width is within half a pixel of len average widths of the letters a to m; the height is the control's preferred height |
| TextPeers.FieldMinimumSize | IKVM.AWT.WinForms/NetTextFieldPeer.cs:75-78 | the minimum size is the preferred size |
| TextPeers.FieldWidthOfMeasuredText | IKVM.AWT.WinForms/NetTextFieldPeer.cs:80-85 | room for 13 characters is the measured alphabet's width rounded, and room for none is 0 |
| GraphicsEnvironment.SortNamesSorts | IKVM.AWT.WinForms/NetGraphicsEnvironment.cs:102 | the model's ordinal sort leaves the names in order and holds exactly the names it was given |
| GraphicsEnvironment.SortNames | IKVM.AWT.WinForms/NetGraphicsEnvironment.cs:102 | the sorted array holds each name exactly as often as given |
| GraphicsEnvironment.FamilyNames | IKVM.AWT.WinForms/NetGraphicsEnvironment.cs:88-104 | the localized names of the installed families and the five logical names, each exactly as often as given, sorted, so every logical name is always listed |
| GraphicsEnvironment.LogicalNamesListed | IKVM.AWT.WinForms/NetGraphicsEnvironment.cs:97-101 | each of Dialog, DialogInput, Serif, SansSerif and Monospaced is on the list whatever is installed |
| GraphicsEnvironment.AllFonts | IKVM.AWT.WinForms/NetGraphicsEnvironment.cs:54-74 | one plain font of size 1 per family name, in the same order |
| GraphicsEnvironment.AllFontsNameFamilies | IKVM.AWT.WinForms/NetGraphicsEnvironment.cs:66-72 | the fonts name the same families, in the same order, as the family list |
| GraphicsEnvironment.ScreenDevices | IKVM.AWT.WinForms/NetGraphicsEnvironment.cs:111-120 | one device per screen, in the screens' order |
| GraphicsEnvironment.CreateCompatibleImage | IKVM.AWT.WinForms/NetGraphicsConfiguration.cs:45-54 | an image of the requested size whose type offers at least the requested transparency, exactly it except that BITMASK gets a premultiplied translucent image; an unknown transparency, or a width or height that is not positive, throws IllegalArgumentException |
| GraphicsEnvironment.NewBufferedImage | IKVM.AWT.WinForms/NetGraphicsConfiguration.cs:49-58 | the BufferedImage constructor builds an image of the given size and type, and throws IllegalArgumentException exactly when a side is not positive |
| GraphicsEnvironment.CreateDefaultImage | IKVM.AWT.WinForms/NetGraphicsConfiguration.cs:56-59 | without a transparency the image is the one TRANSLUCENT asks for: the requested size in INT_ARGB, and IllegalArgumentException when a side is not positive |
| GraphicsEnvironment.GetColorModel | IKVM.AWT.WinForms/NetGraphicsConfiguration.cs:82-89 | a colour model exactly for TRANSLUCENT, null for anything else |
| GraphicsEnvironment.ColorModelMatchesImage | IKVM.AWT.WinForms/NetGraphicsConfiguration.cs:45-89 | for a positive size, a colour model is offered exactly for the transparency whose compatible image is plain INT_ARGB |
| GraphicsEnvironment.GetBounds | IKVM.AWT.WinForms/NetGraphicsConfiguration.cs:71-75 | the screen's bounds |
| GraphicsEnvironment.DefaultTransform | IKVM.AWT.WinForms/NetGraphicsConfiguration.cs:97-100 | the default transform maps every point to itself |
| Toolkit.SourceOf | IKVM.AWT.WinForms/NetToolkit.cs:135-160 | every SystemColor index from DESKTOP to INFO_TEXT has a native colour, and no other index has |
| Toolkit.AssignmentsFollowIndices | IKVM.AWT.WinForms/NetToolkit.cs:135-160 | the assignments cover the 26 indices in order, each with the native colour the index names |
| Toolkit.LoadSystemColors | IKVM.AWT.WinForms/NetToolkit.cs:128-161 | a table shorter than NUM_COLORS makes a write past its end throw; otherwise every known slot holds its native colour and every later slot stays Purple |
| Toolkit.TextSlotsRepeatWindowSlots | IKVM.AWT.WinForms/NetToolkit.cs:128-161 | TEXT repeats WINDOW and TEXT_TEXT repeats WINDOW_TEXT, and Purple survives only past INFO_TEXT or where the system colour itself is Purple |
| Toolkit.IsFrameStateSupported | IKVM.AWT.WinForms/NetToolkit.cs:698-709 | NORMAL, ICONIFIED and MAXIMIZED_BOTH, and nothing else |
| Toolkit.SupportedStatesRoundTrip | IKVM.AWT.WinForms/NetToolkit.cs:698-709 | the supported states are exactly those the frame peer can set and read back; any other state is ignored by setState |
| Toolkit.IsModalityTypeSupported | IKVM.AWT.WinForms/NetToolkit.cs:616-620 | modeless and application-modal dialogs only |
| Toolkit.IsModalExclusionTypeSupported | IKVM.AWT.WinForms/NetToolkit.cs:611-614 | no modal exclusion type is supported |
| Toolkit.BestCursorSize | IKVM.AWT.WinForms/NetToolkit.cs:505-509 | the size asked for |
| Toolkit.ScreenInsets | IKVM.AWT.WinForms/NetToolkit.cs:665-680 | the working area lies inside the bounds by top and left at its corner and by bottom and right at the opposite corner |
| Toolkit.ScreenInsetsAsWindowInsets | IKVM.AWT.WinForms/NetToolkit.cs:665-680 | the screen insets are the window insets of a screen-sized window whose client area is the working area; a screen without task bars has none |
| Toolkit.OutlineOrigin | IKVM.AWT.WinForms/NetToolkit.cs:587-605 | the text's origin is the baseline point moved up by the font's ascent |
| Toolkit.OutlineShiftIsTranslation | IKVM.AWT.WinForms/NetToolkit.cs:587-605 | outlines of one font at two baselines differ by exactly the baselines' offset |
| Toolkit.CustomCursor | IKVM.AWT.WinForms/NetCustomCursor.cs:65-114 | a broken image or negative size resets the hotspot to (0, 0); the image is scaled exactly when the best size differs; a hotspot outside the final size throws ArgumentException |
| Toolkit.NegativeCursorAlwaysFails | IKVM.AWT.WinForms/NetCustomCursor.cs:89-109 | with the best size being the size asked for, an image of negative size never becomes a cursor, and a good image with its hotspot inside is never scaled |
| Toolkit.BestCursorSizeCorrected | IKVM.AWT.WinForms/NetCustomCursor.cs:84-88 | the size the constructor's comment expects: at least one pixel each way, with every positive size kept |
| Toolkit.BrokenCursorHiddenWhenCorrected | IKVM.AWT.WinForms/NetCustomCursor.cs:84-109 | with the corrected size a broken or negative-size image becomes a cursor with hotspot (0, 0), and a good image is treated exactly as before |

## Left out

- UI-thread marshalling (`NetToolkit.Invoke`/`BeginInvoke`) and the event hooks of the peers. Each state change is modelled as a direct update; posted events are a list.
- Locks and concurrency. The baseline cache is plain memoisation, and the lock/condition handler of NetDataTransferer.cs is not modelled.
- Clipboard and drag-and-drop data marshalling (NetDataTransferer.cs, NetDragSourceContextPeer.cs, NetDropTargetContextPeer.cs). These depend on foreign data-format tables.
- COM and P/Invoke (ShellLink.cs, SafePrinterHandle.cs, the GetPrinterInfo2 lookup, BasePrintPeer.cs). The printer's status word and job count are inputs, and a failed lookup is an input flag.
- Native rasterisation and measurement are inputs:
  - GDI+ drawing and MeasureCharacterRanges;
  - the cell metrics;
  - the rendered probe bitmap.
- The actual drawing calls (fill, draw, drawImage) are not modelled.
- Image production and conversion are not modelled: J2C.ConvertImage, NetVolatileImage, NoImage and BitmapGraphics.
- The thin forwarding peers are not modelled, because they only forward calls to Windows Forms:
  - menu peers;
  - the file dialog peer;
  - the tray icon peer;
  - the keyboard focus manager peers;
  - the input method descriptor;
  - NetGraphicsDevice, NetContainerPeer and NetTextComponentPeer;
  - NetDialogPeer, whose setResizable is the frame's.
- Reflection-driven code is not modelled: the focus request in NetComponentPeer1.cs and the font and field patching in NetWindowPeer's initialize.
- IEEE-754 single precision is not modelled; floats are exact reals. NaN and infinity are modelled only where the source can produce them, in the zoom of a degenerate gradient axis (`Gradient.Quot`). There, no brush is produced.
- Gradient colours enter the gradient functions already converted by the composite helper. The gradient rows therefore state the stop positions and the colour order, not the alpha arithmetic again.
- ClearCompositeHelper is not part of this model. Its colour mapping is taken as the base helper's, the identity.
- Colors.HelperInverseArgb: requires alpha above 0, and an alpha byte that divided by alpha stays below 256. The source's cast of an out-of-range float to uint is left unmodelled, and the DST rule, whose alpha is 0, never reaches ToArgb in these paths.
- The AlphaCompositeHelper constructor's ImageAttributes colour matrix (entry Matrix33 = alpha) is not modelled, because drawImage is not modelled.
- Java object identity is approximated by value equality (the "same paint" and "same composite" tests). Texture paints and custom paints are opaque ids: a custom paint's rendered raster is native work.
- GraphicsEnvironment.SortNames, GraphicsEnvironment.SortNamesSorts, GraphicsEnvironment.FamilyNames: the model sorts ordinally, while Array.Sort compares by the current culture, so mixed-case names can come out in another order.
- Fonts.Lower: ASCII-only, while string.ToLower follows the current culture (under a Turkish culture "SERIF" lowers to a dotless-i spelling and misses the serif case).
- GraphicsEnvironment.CreateCompatibleImage: a size whose pixel count exceeds what a raster can hold fails natively, which is not modelled.
- List selection (select, deselect, getSelectedIndexes) is a direct forward to the ListBox and is not modelled.
- CalcInsetsImpl is modelled without:
  - the resize hack for a zero client height;
  - the menu height added on .NET Framework;
  - 32-bit wrap-around in the subtractions (screen coordinates are far from the limits).
- ScreenInsets has no 32-bit wrap-around either, for the same reason. getScreenInsets for a configuration of another toolkit defers to the base class, which is not modelled.
- setCaretPosition's handling of out-of-range positions is the TextBox's own (a negative start throws, a start past the end is clamped); the model takes it as Windows Forms documents it.
- setTitle, setFont, setBoundsPrivate, emulateActivation and the echo character are direct property writes and are not modelled.
- getAllFonts' WINFX branch is not modelled. The model follows the build that lists the family names.
- The printer status is modelled as a set of flags, not a raw integer: each PRINTER_STATUS bit is one flag.
- Native handle disposal in the print peer is not modelled.
- XOR mode, renderable images and the other members that only throw "not implemented" are not modelled, except print-mode copyArea, which is.
- The baseline cache key keeps the font's description string and the hint apart instead of concatenating them, so two keys whose concatenations collide are not modelled.
- The GDI+ PathGradientBrush convention is taken as documented: blend position 0 is the boundary and 1 the centre.

## Findings

| source | as written | input that shows it | evidently intended | confidence | as-written member | corrected member |
|---|---|---|---|---|---|---|
| IKVM.AWT.WinForms/NetListPeer.cs:90-99 | delItems(s, e) removes the half-open range [s, e) | java.awt.List.remove(p) calls delItems(p, p): nothing is removed and the native list keeps item p | remove the inclusive range [s, e], as the AWT peer contract says | not executed | TextPeers.DelItemsAsWrittenKeepsRemovedItem | TextPeers.DelItemsRemovesOne |
| IKVM.AWT.WinForms/NetGraphics.cs:743-751 | the NO_CYCLE zoom of a LinearGradientPaint is the surface size over the signed axis deltas | axis (100,100) to (50,50) on a 100×100 surface gives zoom -2, so the stops descend and the brush starts beyond the end point (`Graphics.BrushForDiffersOnReversedAxis` shows the brush setPaint installs) | divide by the magnitudes of the axis deltas | not executed | Gradient.AxisZoomAsWrittenNegative | Gradient.AxisZoomInRange |
| IKVM.AWT.WinForms/NetGraphics.cs:850-858 | radial NO_CYCLE fills the rings beyond the paint with colors[length-1], which after the reversal is the paint's first colour | two rings, fractions [0, 1]: the outer ring gets the centre colour | fill beyond the radius with the paint's last colour | not executed | Gradient.NoCycleFillAsWrittenWrong | Gradient.RingsFaithful |
| IKVM.AWT.WinForms/NetGraphics.cs:828-839 | radial REFLECT picks a ring's direction from its index counted from the outer ring | two rings, fractions [0, 1]: the centre holds the paint's last colour instead of its first | count reflections from the centre | not executed | Gradient.ReflectParityAsWrittenWrong | Gradient.RingStopFaithful |
| IKVM.AWT.WinForms/NetListPeer.cs:75-78 | add(item, index) passes the index to Items.Insert unchanged | java.awt.List.add(item) calls add(item, -1): Insert(-1, item) throws ArgumentOutOfRangeException | append the item when the index is -1 | not executed | TextPeers.AddAppendAsWrittenFails | TextPeers.AddCorrectedAppends |
| IKVM.AWT.WinForms/NetCustomCursor.cs:84-109 | the constructor relies on getBestCursorSize to adjust a negative size, but NetToolkit.cs:505-509 returns the size unchanged | an image whose getWidth is -1 (still loading or broken): the hotspot is reset to (0, 0), which lies outside a -1 × -1 image, so ArgumentException("invalid hotSpot") is thrown | hide the cursor: raise the size to a positive one so the reset hotspot fits | not executed | Toolkit.NegativeCursorAlwaysFails | Toolkit.BrokenCursorHiddenWhenCorrected |

=== FILE: base.dfy ===
/**
 * Shared vocabulary: optional values, results carrying the .NET or Java
 * exception an operation throws, and the numeric conversions the binding
 * layer relies on (banker's rounding, truncating casts and divisions,
 * two's-complement views of 32-bit integers).
 */
module Base {

  datatype Option<T> = None | Some(value: T)

  /** The exceptions the modelled operations can raise. */
  datatype Exception =
    | NullPointer            // java.lang.NullPointerException
    | IllegalArgument        // java.lang.IllegalArgumentException
    | NotImplemented         // System.NotImplementedException
    | ArgumentOutOfRange     // System.ArgumentOutOfRangeException
    | InvalidEnumArgument    // System.ComponentModel.InvalidEnumArgumentException
    | NullReference          // System.NullReferenceException
    | NativeArgument         // System.ArgumentException raised by a native constructor
    | IndexOutOfRange        // System.IndexOutOfRangeException

  datatype Result<T> = Ok(value: T) | Fail(error: Exception)

  // ---------------------------------------------------------------------
  // Rounding and truncation
  // ---------------------------------------------------------------------

  predicate IsEven(n: int) { n % 2 == 0 }

  /** Math.Round with the default MidpointRounding.ToEven. */
  function RoundHalfEven(x: real): (r: int)
    ensures -1.0 / 2.0 <= x - r as real <= 1.0 / 2.0
    ensures x - r as real == 1.0 / 2.0 || r as real - x == 1.0 / 2.0 ==> IsEven(r)
  {
    var f := x.Floor;
    var frac := x - f as real;
    if frac < 1.0 / 2.0 then f
    else if frac > 1.0 / 2.0 then f + 1
    else if IsEven(f) then f else f + 1
  }

  /** A value that is a whole number rounds to itself. */
  lemma RoundHalfEvenOfInt(n: int)
    ensures RoundHalfEven(n as real) == n
  {
  }

  /** The C# cast (int)x on a finite float: truncation toward zero. */
  function Truncate(x: real): (r: int)
    ensures 0.0 <= x ==> r >= 0 && r as real <= x < r as real + 1.0
    ensures x < 0.0 ==> r <= 0 && r as real - 1.0 < x <= r as real
  {
    if x >= 0.0 then x.Floor else -((-x).Floor)
  }

  /** C# integer division, which truncates toward zero. */
  function DivTrunc(a: int, b: int): (q: int)
    requires b != 0
    ensures Abs(q) == Abs(a) / Abs(b)
    ensures (a >= 0) == (b > 0) ==> q >= 0
    ensures (a >= 0) != (b > 0) ==> q <= 0
  {
    var m := NatDiv(Abs(a), Abs(b));
    if (a >= 0) == (b > 0) then m as int else -(m as int)
  }

  function NatDiv(n: nat, d: nat): (m: nat)
    requires d > 0
    ensures m == n / d
  {
    n / d
  }

  function Abs(x: int): (r: nat)
    ensures r == x || r == -x
  {
    if x < 0 then -x else x
  }

  function AbsReal(x: real): (r: real)
    ensures r >= 0.0 && (r == x || r == -x)
  {
    if x < 0.0 then -x else x
  }

  function MaxReal(a: real, b: real): (r: real)
    ensures r >= a && r >= b && (r == a || r == b)
  {
    if a >= b then a else b
  }

  function MinReal(a: real, b: real): (r: real)
    ensures r <= a && r <= b && (r == a || r == b)
  {
    if a <= b then a else b
  }

  // ---------------------------------------------------------------------
  // 32-bit integers
  // ---------------------------------------------------------------------

  const TwoTo32: int := 0x1_0000_0000

  /** Unchecked C# int arithmetic: the wrap-around of a mathematical result. */
  function Wrap32(x: int): (r: int)
    ensures -0x8000_0000 <= r < 0x8000_0000
    ensures (r - x) % TwoTo32 == 0
    ensures -0x8000_0000 <= x < 0x8000_0000 ==> r == x
  {
    (x + 0x8000_0000) % TwoTo32 - 0x8000_0000
  }
}

=== FILE: baseline.dfy ===
/**
 * NetGraphics.getBaseline: the distance from the top of a drawn string
 * to its baseline, computed from the font's metrics, corrected by a
 * pixel probe and memoised per font and text rendering hint.
 *
 * The probe draws "A" and "X" into a 3×3 white bitmap at -baseline and
 * counts the leading rows that contain a dark pixel; the rendered bitmap
 * is an input here.
 */
module Baseline {
  import opened Base
  import FontMetrics

  /** Probe bitmap size. */
  const ProbeWidth: nat := 3
  const ProbeHeight: nat := 3

  /** A pixel of the probe bitmap, one byte per channel. */
  datatype Pixel = Pixel(r: int, g: int, b: int)

  predicate ValidPixel(p: Pixel)
  {
    0 <= p.r < 256 && 0 <= p.g < 256 && 0 <= p.b < 256
  }

  function Max3(a: int, b: int, c: int): int
  {
    if a >= b && a >= c then a else if b >= c then b else c
  }

  function Min3(a: int, b: int, c: int): int
  {
    if a <= b && a <= c then a else if b <= c then b else c
  }

  /** Color.GetBrightness: the HSL lightness, (max + min) / 2 on a 0..1 scale. */
  function Brightness(p: Pixel): (l: real)
    requires ValidPixel(p)
    ensures 0.0 <= l <= 1.0
  {
    (Max3(p.r, p.g, p.b) + Min3(p.r, p.g, p.b)) as real / 510.0
  }

  /** A pixel the probe counts as ink. */
  predicate Dark(p: Pixel)
    requires ValidPixel(p)
  {
    Brightness(p) < 1.0 / 2.0
  }

  type Row = seq<Pixel>
  type Grid = seq<Row>

  predicate ValidGrid(grid: Grid)
  {
    |grid| == ProbeHeight &&
    forall y :: 0 <= y < |grid| ==> |grid[y]| == ProbeWidth && forall x :: 0 <= x < |grid[y]| ==> ValidPixel(grid[y][x])
  }

  predicate ValidRows(rows: seq<Row>)
  {
    forall y :: 0 <= y < |rows| ==> forall x :: 0 <= x < |rows[y]| ==> ValidPixel(rows[y][x])
  }

  predicate HasDark(row: Row)
    requires forall x :: 0 <= x < |row| ==> ValidPixel(row[x])
  {
    exists x :: 0 <= x < |row| && Dark(row[x])
  }

  /** The number of rows, from the top, that each hold a dark pixel before the first row without one. */
  function LeadingDarkRows(rows: seq<Row>): (n: nat)
    requires ValidRows(rows)
    ensures n <= |rows|
    ensures forall y :: 0 <= y < n ==> HasDark(rows[y])
    ensures n < |rows| ==> !HasDark(rows[n])
  {
    if |rows| == 0 || !HasDark(rows[0]) then 0
    else 1 + LeadingDarkRows(rows[1..])
  }

  /** The probe's scan with the source's control flow: a dark pixel moves to the next row, a clean row stops. */
  method CountDarkRows(grid: Grid) returns (count: nat)
    requires ValidGrid(grid)
    ensures count == LeadingDarkRows(grid)
    ensures count <= ProbeHeight
  {
    count := 0;
    var y := 0;
    while y < ProbeHeight
      invariant 0 <= y <= ProbeHeight && count == y
      invariant LeadingDarkRows(grid) == y + LeadingDarkRows(grid[y..])
      decreases ProbeHeight - y
    {
      var x := 0;
      var found := false;
      while x < ProbeWidth && !found
        invariant 0 <= x <= ProbeWidth
        invariant found ==> x < ProbeWidth && Dark(grid[y][x])
        invariant !found ==> forall i :: 0 <= i < x ==> !Dark(grid[y][i])
        decreases ProbeWidth - x, if found then 0 else 1
      {
        if Brightness(grid[y][x]) < 1.0 / 2.0 {
          found := true;
        } else {
          x := x + 1;
        }
      }
      if !found {
        assert !HasDark(grid[y..][0]);
        break;
      }
      assert grid[y..][0] == grid[y] && grid[y..][1..] == grid[y + 1..];
      count := count + 1;
      y := y + 1;
    }
  }

  /** What the metric half of getBaseline reads from the font, and the probe bitmap rendered for it. */
  datatype Measure = Measure(height: real, cellAscent: int, lineSpacing: int, probe: Grid)

  predicate ValidMeasure(m: Measure)
  {
    m.lineSpacing > 0 && ValidGrid(m.probe)
  }

  /** The baseline from the metrics alone: Font.GetHeight() · ascent / lineSpacing, rounded. */
  function MetricBaseline(m: Measure): (b: int)
    requires ValidMeasure(m)
    ensures AbsReal(b as real - m.height * m.cellAscent as real / m.lineSpacing as real) <= 1.0 / 2.0
  {
    RoundHalfEven(m.height * m.cellAscent as real / m.lineSpacing as real)
  }

  /**
   * The cache key: font.ToString() + hint.ToString(). `font` is the
   * font's description string.
   */
  datatype Key = Key(font: string, hint: FontMetrics.TextHint)

  type Cache = map<Key, int>

  /** A freshly measured baseline: the metric value plus one per leading dark probe row. */
  function Measured(m: Measure): (b: int)
    requires ValidMeasure(m)
    ensures MetricBaseline(m) <= b <= MetricBaseline(m) + ProbeHeight as int
  {
    MetricBaseline(m) + LeadingDarkRows(m.probe)
  }

  /** getBaseline: the cached value under `key`, or a fresh measurement that is then cached. */
  method GetBaseline(cache: Cache, key: Key, m: Measure) returns (baseline: int, cache': Cache)
    requires ValidMeasure(m)
    ensures key in cache ==> baseline == cache[key] && cache' == cache
    ensures key !in cache ==> baseline == Measured(m) && cache' == cache[key := baseline]
    ensures key in cache' && cache'[key] == baseline
  {
    if key in cache {
      return cache[key], cache;
    }
    baseline := MetricBaseline(m);
    var rows := CountDarkRows(m.probe);
    baseline := baseline + rows;
    cache' := cache[key := baseline];
  }

  /** The functional reading of GetBaseline. */
  function Lookup(cache: Cache, key: Key, m: Measure): (r: (int, Cache))
    requires ValidMeasure(m)
    ensures key in r.1 && r.1[key] == r.0
    ensures cache.Keys <= r.1.Keys
    ensures forall k :: k in cache ==> r.1[k] == cache[k]
  {
    if key in cache then (cache[key], cache) else (Measured(m), cache[key := Measured(m)])
  }

  /**
   * A second call with the same key returns the identical value and
   * leaves the cache alone, whatever the probe would measure this time.
   */
  lemma RepeatCallIsCached(cache: Cache, key: Key, m1: Measure, m2: Measure)
    requires ValidMeasure(m1) && ValidMeasure(m2)
    ensures var (b1, c1) := Lookup(cache, key, m1);
            Lookup(c1, key, m2) == (b1, c1)
  {
  }
}

=== FILE: colors.dfy ===
/**
 * Colours on both sides of the binding and the composite helpers that
 * rewrite them.
 *
 * A Java colour and a .NET colour are both a 32-bit ARGB word; the .NET
 * side also has the distinguished Color.Empty, which stands for a Java
 * null. A composite helper is chosen from the Java composite; it rewrites
 * the alpha byte of every colour handed to GDI+ (and back), and decides
 * which GDI+ compositing mode the native graphics uses.
 */
module Colors {
  import opened Base

  const Pow24: int := 0x100_0000
  const Pow32: int := 0x1_0000_0000

  /** An unsigned 32-bit ARGB word: alpha in the top byte, then red, green, blue. */
  type Argb = x: int | 0 <= x < 0x1_0000_0000

  /** A java.awt.Color, reduced to what getRGB() reports. */
  datatype JColor = JColor(argb: Argb)

  /** A System.Drawing.Color: Color.Empty or an ARGB value. */
  datatype NetColor = Empty | FromArgb(argb: Argb)

  function AlphaOf(argb: Argb): (a: int)
    ensures 0 <= a < 256
  {
    argb / Pow24
  }

  function RgbOf(argb: Argb): (rgb: int)
    ensures 0 <= rgb < Pow24
  {
    argb % Pow24
  }

  function WithAlpha(a: int, rgb: int): (r: Argb)
    requires 0 <= a < 256 && 0 <= rgb < Pow24
    ensures AlphaOf(r) == a && RgbOf(r) == rgb
  {
    a * Pow24 + rgb
  }

  lemma ArgbSplit(argb: Argb)
    ensures WithAlpha(AlphaOf(argb), RgbOf(argb)) == argb
  {
  }

  // ---------------------------------------------------------------------
  // J2C.ConvertColor and C2J.ConvertColor
  // ---------------------------------------------------------------------

  /** J2C.ConvertColor: a null Java colour becomes Color.Empty. */
  function ToNetColor(c: Option<JColor>): (r: NetColor)
    ensures r.Empty? <==> c.None?
    ensures c.Some? ==> r.argb == c.value.argb
  {
    match c
    case None => Empty
    case Some(jc) => FromArgb(jc.argb)
  }

  /** C2J.ConvertColor: Color.Empty becomes null, other colours keep alpha. */
  function ToJavaColor(c: NetColor): (r: Option<JColor>)
    ensures r.None? <==> c.Empty?
    ensures r.Some? ==> r.value.argb == c.argb
  {
    match c
    case Empty => None
    case FromArgb(argb) => Some(JColor(argb))
  }

  lemma JavaColorRoundTrip(c: Option<JColor>)
    ensures ToJavaColor(ToNetColor(c)) == c
  {
  }

  lemma NetColorRoundTrip(c: NetColor)
    ensures ToNetColor(ToJavaColor(c)) == c
  {
  }

  // ---------------------------------------------------------------------
  // Java composites and CompositeHelper.Create
  // ---------------------------------------------------------------------

  const CLEAR: int := 1
  const SRC: int := 2
  const SRC_OVER: int := 3
  const DST: int := 9

  /** A java.awt.Composite: an AlphaComposite (rule and extra alpha) or any other composite. */
  datatype JComposite = AlphaComposite(rule: int, alpha: real) | OtherComposite(id: nat)

  /** AlphaComposite.getInstance rejects an alpha outside [0, 1]. */
  predicate ValidComposite(c: JComposite) {
    c.AlphaComposite? ==> 0.0 <= c.alpha <= 1.0
  }

  const SrcOver: JComposite := AlphaComposite(SRC_OVER, 1.0)

  /** System.Drawing.Drawing2D.CompositingMode. */
  datatype CompositingMode = SourceOver | SourceCopy

  /**
   * The helper classes: CompositeHelper (no change), ClearCompositeHelper,
   * and AlphaCompositeHelper with its extra alpha.
   */
  datatype Helper = Identity | ClearHelper | AlphaHelper(alpha: real)

  predicate ValidHelper(h: Helper) {
    h.AlphaHelper? ==> 0.0 <= h.alpha < 1.0
  }

  datatype Created = Created(mode: CompositingMode, helper: Helper, logged: bool)

  /** CompositeHelper.Create: the compositing mode and helper for a Java composite. */
  function Create(comp: JComposite): (r: Created)
    requires ValidComposite(comp)
    ensures ValidHelper(r.helper)
    ensures r.helper.ClearHelper? <==> comp.AlphaComposite? && comp.rule == CLEAR
    ensures r.mode == SourceCopy <==> comp.AlphaComposite? && (comp.rule == CLEAR || comp.rule == SRC)
    ensures r.logged <==> comp.OtherComposite? || comp.rule !in {CLEAR, SRC, SRC_OVER, DST}
    ensures comp.OtherComposite? ==> r.helper == Identity
    ensures comp.AlphaComposite? && comp.rule == DST ==> r.helper == AlphaHelper(0.0)
    ensures comp.AlphaComposite? && comp.rule != CLEAR && comp.rule != DST ==>
      (r.helper == Identity <==> comp.alpha == 1.0) &&
      (r.helper.AlphaHelper? ==> r.helper.alpha == comp.alpha)
  {
    match comp
    case OtherComposite(_) => Created(SourceOver, Identity, true)
    case AlphaComposite(rule, alpha0) =>
      if rule == CLEAR then Created(SourceCopy, ClearHelper, false)
      else
        var mode := if rule == SRC then SourceCopy else SourceOver;
        var alpha := if rule == DST then 0.0 else alpha0;
        var logged := rule !in {SRC, SRC_OVER, DST};
        Created(mode, if alpha == 1.0 then Identity else AlphaHelper(alpha), logged)
  }

  /** The default composite, AlphaComposite.SrcOver, needs no helper. */
  lemma CreateSrcOver()
    ensures Create(SrcOver) == Created(SourceOver, Identity, false)
  {
  }

  // ---------------------------------------------------------------------
  // Alpha scaling (AlphaCompositeHelper.GetArgb / ToArgb)
  // ---------------------------------------------------------------------

  /** The rounded alpha byte computed from a 2^24-scaled, half-added float. */
  function ScaledAlpha(a: int, factor: real): (n: int)
    requires 0 <= a < 256 && factor >= 0.0
  {
    ((a * Pow24) as real * factor + (Pow24 / 2) as real).Floor / Pow24
  }

  /** Dividing the 2^24-scaled floor by 2^24 is rounding half up at byte scale. */
  lemma ScaledAlphaIsRoundHalfUp(a: int, factor: real)
    requires 0 <= a < 256 && factor >= 0.0
    ensures ScaledAlpha(a, factor) == (a as real * factor + 1.0 / 2.0).Floor
  {
    var y := a as real * factor + 1.0 / 2.0;
    var f := y.Floor;
    var x := (a * Pow24) as real * factor + (Pow24 / 2) as real;
    assert (a * Pow24) as real == a as real * 16777216.0;
    assert (Pow24 / 2) as real == 8388608.0;
    assert x == y * Pow24 as real;
    FloorDiv(y, x);
  }

  lemma FloorDiv(y: real, x: real)
    requires y >= 0.0 && x == y * Pow24 as real
    ensures x.Floor / Pow24 == y.Floor
  {
    var f := y.Floor;
    assert f as real <= y < f as real + 1.0;
    assert (f * Pow24) as real <= x < ((f + 1) * Pow24) as real;
    assert f * Pow24 <= x.Floor < (f + 1) * Pow24;
  }

  /** Multiplying the alpha byte by at most 1 keeps it a byte. */
  lemma MulAlphaBound(a: int, alpha: real)
    requires 0 <= a < 256 && 0.0 <= alpha <= 1.0
    ensures 0 <= (a as real * alpha + 1.0 / 2.0).Floor <= a
  {
    assert a as real * alpha <= a as real;
  }

  /** The colour a helper hands to GDI+ for a Java colour (GetArgb). */
  function HelperArgb(h: Helper, c: JColor): (r: Argb)
    requires ValidHelper(h)
    ensures RgbOf(r) == RgbOf(c.argb)
    ensures h.AlphaHelper? ==> AlphaOf(r) == (AlphaOf(c.argb) as real * h.alpha + 1.0 / 2.0).Floor
    ensures !h.AlphaHelper? ==> r == c.argb
  {
    match h
    case AlphaHelper(alpha) =>
      var a := AlphaOf(c.argb);
      ScaledAlphaIsRoundHalfUp(a, alpha);
      MulAlphaBound(a, alpha);
      WithAlpha(ScaledAlpha(a, alpha), RgbOf(c.argb))
    case _ => c.argb
  }

  /**
   * The inverse rescaling (ToArgb) is defined only when the alpha is non-zero
   * and the divided alpha still fits the byte; outside it the float-to-uint
   * cast of the source is out of range.
   */
  predicate InverseDefined(h: Helper, c: NetColor) {
    h.AlphaHelper? && c.FromArgb? ==>
      h.alpha > 0.0 && AlphaOf(c.argb) as real / h.alpha + 1.0 / 2.0 < 256.0
  }

  /** The ARGB value a helper reports back to Java for a GDI+ colour (ToArgb). */
  function HelperInverseArgb(h: Helper, argb: Argb): (r: Argb)
    requires ValidHelper(h) && InverseDefined(h, FromArgb(argb))
    ensures RgbOf(r) == RgbOf(argb)
    ensures h.AlphaHelper? ==> AlphaOf(r) == (AlphaOf(argb) as real / h.alpha + 1.0 / 2.0).Floor
    ensures !h.AlphaHelper? ==> r == argb
  {
    match h
    case AlphaHelper(alpha) =>
      var a := AlphaOf(argb);
      ScaledAlphaIsRoundHalfUp(a, 1.0 / alpha);
      assert a as real * (1.0 / alpha) == a as real / alpha;
      WithAlpha(ScaledAlpha(a, 1.0 / alpha), RgbOf(argb))
    case _ => argb
  }

  /** CompositeHelper.GetColor(java.awt.Color): null stays Color.Empty. */
  function HelperNetColor(h: Helper, c: Option<JColor>): (r: NetColor)
    requires ValidHelper(h)
    ensures r.Empty? <==> c.None?
    ensures c.Some? ==> r.argb == HelperArgb(h, c.value)
  {
    match c
    case None => Empty
    case Some(jc) => FromArgb(HelperArgb(h, jc))
  }

  /** CompositeHelper.GetColor(System.Drawing.Color): Color.Empty becomes null. */
  function HelperJavaColor(h: Helper, c: NetColor): (r: Option<JColor>)
    requires ValidHelper(h) && InverseDefined(h, c)
    ensures r.None? <==> c.Empty?
    ensures r.Some? ==> r.value.argb == HelperInverseArgb(h, c.argb)
  {
    match c
    case Empty => None
    case FromArgb(argb) => Some(JColor(HelperInverseArgb(h, argb)))
  }

  /** Without an alpha helper the helper's conversions are J2C's and C2J's. */
  lemma IdentityHelperConverts(h: Helper, c: Option<JColor>, n: NetColor)
    requires h == Identity || h == ClearHelper
    ensures HelperNetColor(h, c) == ToNetColor(c)
    ensures HelperJavaColor(h, n) == ToJavaColor(n)
  {
  }

  /**
   * An alpha helper scales the alpha byte down; converting back scales it up
   * again. For an extra alpha of at least one half the byte comes back within
   * one step of where it started.
   */
  lemma AlphaRoundTripWithinOne(alpha: real, c: JColor)
    requires 1.0 / 2.0 <= alpha < 1.0
    requires InverseDefined(AlphaHelper(alpha), FromArgb(HelperArgb(AlphaHelper(alpha), c)))
    ensures var back := HelperInverseArgb(AlphaHelper(alpha), HelperArgb(AlphaHelper(alpha), c));
      RgbOf(back) == RgbOf(c.argb) &&
      -1 <= AlphaOf(back) - AlphaOf(c.argb) <= 1
  {
    var h := AlphaHelper(alpha);
    var scaled := HelperArgb(h, c);
    var back := HelperInverseArgb(h, scaled);
    RoundTripArithmetic(AlphaOf(c.argb), alpha, AlphaOf(scaled), AlphaOf(back));
  }

  /** Scaling by alpha >= 1/2 and back, rounding half up each time, moves a whole number by at most one. */
  lemma RoundTripArithmetic(a: int, alpha: real, scaled: int, back: int)
    requires 1.0 / 2.0 <= alpha < 1.0
    requires scaled == (a as real * alpha + 1.0 / 2.0).Floor
    requires back == (scaled as real / alpha + 1.0 / 2.0).Floor
    ensures -1 <= back - a <= 1
  {
    assert a as real * alpha - 1.0 / 2.0 < scaled as real <= a as real * alpha + 1.0 / 2.0;
    DivideBounds(a as real, alpha, scaled as real);
    assert 1.0 / (2.0 * alpha) <= 1.0;
    FloorNear(a, scaled as real / alpha, 1.0 / (2.0 * alpha));
  }

  lemma DivideBounds(a: real, alpha: real, s: real)
    requires alpha > 0.0
    requires a * alpha - 1.0 / 2.0 < s <= a * alpha + 1.0 / 2.0
    ensures a - 1.0 / (2.0 * alpha) < s / alpha <= a + 1.0 / (2.0 * alpha)
  {
    assert s / alpha * alpha == s;
    assert (a - 1.0 / (2.0 * alpha)) * alpha == a * alpha - 1.0 / 2.0;
    assert (a + 1.0 / (2.0 * alpha)) * alpha == a * alpha + 1.0 / 2.0;
  }

  /** A value within `e <= 1` of a whole number rounds half up to within one of it. */
  lemma FloorNear(a: int, q: real, e: real)
    requires e <= 1.0 && a as real - e < q <= a as real + e
    ensures -1 <= (q + 1.0 / 2.0).Floor - a <= 1
  {
  }

  /**
   * For a small extra alpha the round trip loses most of the alpha byte:
   * with alpha 1/100 an alpha byte of 149 becomes 1 and then 100.
   */
  lemma AlphaRoundTripLossForSmallAlpha()
    ensures var c := JColor(WithAlpha(149, 0));
      var h := AlphaHelper(1.0 / 100.0);
      AlphaOf(HelperArgb(h, c)) == 1 &&
      InverseDefined(h, FromArgb(HelperArgb(h, c))) &&
      AlphaOf(HelperInverseArgb(h, HelperArgb(h, c))) == 100
  {
    var c := JColor(WithAlpha(149, 0));
    var h := AlphaHelper(1.0 / 100.0);
    assert (149.0 * (1.0 / 100.0) + 1.0 / 2.0).Floor == 1;
    assert (1.0 / (1.0 / 100.0) + 1.0 / 2.0).Floor == 100;
  }

  /** Scaling by the DST rule's zero alpha makes every colour fully transparent. */
  lemma DstMakesTransparent(c: JColor)
    ensures AlphaOf(HelperArgb(AlphaHelper(0.0), c)) == 0
  {
  }
}

=== FILE: component_graphics.dfy ===
/**
 * ComponentGraphics: the NetGraphics of a Windows Forms control. It
 * differs from the base in four places: a null clip throws, the size
 * used by the gradient workarounds is the control's, create() gives the
 * copy a native graphics of its own, and copyArea copies from the screen.
 */
module ComponentGraphics {
  import opened Base
  import opened Colors
  import opened Paths
  import opened Graphics
  import GraphicsState
  import FontMetrics

  /** clip: a null shape throws NullPointerException; any other shape narrows the clip as the base does. */
  function Clip(s: Gfx, shape: Option<nat>): (r: Result<Gfx>)
    requires s.g.Some?
    ensures r.Fail? <==> shape.None?
    ensures r.Fail? ==> r.error == NullPointer
    ensures r.Ok? ==> r.value.g.Some? && r.value == s.(g := r.value.g)
    ensures r.Ok? ==> r.value.g.value == s.g.value.(clip := r.value.g.value.clip)
    ensures r.Ok? ==> forall p: Point, inside: (nat, Point) -> bool {:trigger InClip(r.value.g.value.clip, p, inside)} ::
      InClip(r.value.g.value.clip, p, inside) <==> InClip(s.g.value.clip, p, inside) && inside(shape.value, p)
  {
    if shape.None? then Fail(NullPointer)
    else
      var r := ClipTo(s, shape);
      forall p: Point, inside: (nat, Point) -> bool ensures InClip(r.g.value.clip, p, inside) <==> InClip(s.g.value.clip, p, inside) && inside(shape.value, p) {
        ClipNarrows(s, shape.value, p, inside);
      }
      Ok(r)
  }

  /** The base clip on a null shape shows everything, where the control's throws. */
  lemma NullClipDiffersFromBase(s: Gfx, p: Point, inside: (nat, Point) -> bool)
    requires s.g.Some?
    ensures Clip(s, None) == Fail(NullPointer)
    ensures InClip(ClipTo(s, None).g.value.clip, p, inside)
  {
    ClipResetShowsAll(s, p, inside);
  }

  /** Where GetSize takes the size from: a control, or the clip bounds as the base NetGraphics does. */
  datatype Surface = Control(size: Size) | ClipBounded

  function GetSize(surface: Surface, clipBounds: Size): (z: Size)
    ensures surface.Control? ==> z == surface.size
    ensures surface.ClipBounded? ==> z == clipBounds
  {
    match surface
    case Control(size) => size
    case ClipBounded => clipBounds
  }

  /**
   * On a control of non-zero size a radial paint always gets its brush,
   * however the clip stands; with the base's clip-bounds size an empty
   * clip makes the same paint fail.
   */
  lemma ControlSizeKeepsRadialPaint(p: Paint, h: Helper, control: Size, clipBounds: Size)
    requires p.PRadial? && ValidPaint(p) && ValidHelper(h) && ValidSize(control) && ValidSize(clipBounds)
    requires control.width > 0.0 || control.height > 0.0
    ensures BrushFor(p, h, GetSize(Control(control), clipBounds)).Ok?
    ensures BrushFor(p, h, GetSize(ClipBounded, Size(0.0, 0.0))).Fail?
  {
  }

  /**
   * create: a member-wise copy re-initialised on a new native graphics of
   * the control. The copy is ready to draw, takes over every native mode
   * of the original (the baseline looked up again for its text hint), its
   * colour and paint, and owns a pen and a brush of the original's
   * contents that are not the original's.
   */
  function Create(s: Gfx, created: Native, baselineOf: FontMetrics.TextHint -> int): (r: Gfx)
    requires Ready(s)
    ensures Ready(r)
    ensures r.g == s.g && r.baseline == baselineOf(s.g.value.textHint)
    ensures r.color == s.color && r.javaPaint == s.javaPaint
    ensures r.pen.value.(id := 0) == s.pen.value.(id := 0) && r.pen.value.id != s.pen.value.id
    ensures r.brush.value.(id := 0) == s.brush.value.(id := 0) && r.brush.value.id != s.brush.value.id
  {
    GraphicsState.Init(s, created, baselineOf).target.value
  }

  /**
   * The copy answers every query as the original does: the same rendering
   * hints, background, paint and composite; and setting a colour on it
   * paints as the same call on the original paints.
   */
  lemma CreateReadsAlike(s: Gfx, created: Native, baselineOf: FontMetrics.TextHint -> int, c: JColor)
    requires Ready(s)
    ensures var r := Create(s, created, baselineOf);
      && GetRenderingHints(r) == GetRenderingHints(s)
      && GetBackground(r) == GetBackground(s)
      && r.composite == s.composite && r.javaComposite == s.javaComposite
      && SetColor(r, Some(c)).color == SetColor(s, Some(c)).color
      && SetColor(r, Some(c)).brush.value.brush == SetColor(s, Some(c)).brush.value.brush
  {
  }

  datatype IntPoint = IntPoint(x: int, y: int)

  /** What copyArea does: copy a width × height block from `source` on screen and draw it at `dest`. */
  datatype CopyPlan = CopyPlan(source: IntPoint, width: int, height: int, dest: IntPoint)

  /**
   * copyArea: the source is the block's corner moved by the transform's
   * offset (each truncated to int) and mapped to the screen; the copy is
   * drawn at the corner moved by (dx, dy). Sums wrap as C# int sums do; a
   * non-positive width or height makes the intermediate bitmap's
   * constructor throw.
   */
  function CopyArea(t: Matrix, toScreen: IntPoint -> IntPoint, x: int, y: int, width: int, height: int, dx: int, dy: int): (r: Result<CopyPlan>)
    ensures r.Fail? <==> width <= 0 || height <= 0
    ensures r.Fail? ==> r.error == NativeArgument
    ensures r.Ok? ==> r.value.width == width && r.value.height == height
  {
    if width <= 0 || height <= 0 then Fail(NativeArgument)
    else
      var src := toScreen(IntPoint(Wrap32(x + Truncate(t.dx)), Wrap32(y + Truncate(t.dy))));
      Ok(CopyPlan(src, width, height, IntPoint(Wrap32(x + dx), Wrap32(y + dy))))
  }

  /** A control whose client area starts at `origin` on screen. */
  function Translation(origin: IntPoint): IntPoint -> IntPoint
  {
    (p: IntPoint) => IntPoint(p.x + origin.x, p.y + origin.y)
  }

  /**
   * With a whole-pixel translation as transform, a control at `origin` on
   * screen and coordinates far from the int limits, the block is copied
   * from where it is shown on screen and lands (dx, dy) further on in
   * user space.
   */
  lemma CopyAreaShiftsByDelta(tx: int, ty: int, origin: IntPoint, x: int, y: int, width: int, height: int, dx: int, dy: int)
    requires width > 0 && height > 0
    requires -0x1000_0000 <= tx < 0x1000_0000 && -0x1000_0000 <= ty < 0x1000_0000
    requires -0x1000_0000 <= x < 0x1000_0000 && -0x1000_0000 <= y < 0x1000_0000
    requires -0x1000_0000 <= dx < 0x1000_0000 && -0x1000_0000 <= dy < 0x1000_0000
    ensures var r := CopyArea(Matrix(1.0, 0.0, 0.0, 1.0, tx as real, ty as real), Translation(origin), x, y, width, height, dx, dy);
            && r.Ok?
            && r.value.source == IntPoint(x + tx + origin.x, y + ty + origin.y)
            && r.value.dest.x - x == dx && r.value.dest.y - y == dy
  {
    assert Truncate(tx as real) == tx && Truncate(ty as real) == ty;
  }
}

=== FILE: component_peer.dfy ===
/**
 * The small state machines of NetComponentPeer: dispose-once, the size
 * bookkeeping of setBounds, the gating of paint events during layout and
 * after a resize, and the synthesis of the AWT click after mouse-up.
 */
module ComponentPeer {
  import opened Base

  /** The peer's fields these rules read and write; `implRuns` counts disposeImpl runs. */
  datatype Peer = Peer(
    disposed: bool, implRuns: nat,
    oldWidth: int, oldHeight: int, serialNum: int,
    isLayouting: bool, paintPending: bool,
    isMouseClick: bool, isDoubleClick: bool, isPopupMenu: bool)

  /** A freshly constructed peer: no size recorded yet (-1 × -1). */
  const Initial: Peer := Peer(false, 0, -1, -1, 0, false, false, false, false, false)

  // ---------------------------------------------------------------------
  // dispose
  // ---------------------------------------------------------------------

  /** dispose: marks the peer disposed and runs disposeImpl only if it was not disposed already. */
  function Dispose(p: Peer): (r: Peer)
    ensures r.disposed
    ensures r.implRuns == if p.disposed then p.implRuns else p.implRuns + 1
    ensures r.(implRuns := p.implRuns, disposed := p.disposed) == p
  {
    if p.disposed then p else p.(disposed := true, implRuns := p.implRuns + 1)
  }

  /** `n` calls of dispose one after the other. */
  function DisposeTimes(p: Peer, n: nat): Peer
    decreases n
  {
    if n == 0 then p else DisposeTimes(Dispose(p), n - 1)
  }

  /** However often dispose is called, disposeImpl runs at most once, and exactly once on a live peer. */
  lemma {:induction false} DisposeAtMostOnce(p: Peer, n: nat)
    ensures DisposeTimes(p, n).implRuns == if n > 0 && !p.disposed then p.implRuns + 1 else p.implRuns
    ensures n > 0 ==> DisposeTimes(p, n).disposed
    decreases n
  {
    if n > 1 {
      DisposeAtMostOnce(Dispose(p), n - 1);
    }
  }

  // ---------------------------------------------------------------------
  // setBounds
  // ---------------------------------------------------------------------

  /**
   * setBounds: a paint is pending exactly when the size differs from the
   * recorded one; the recorded size is updated only on such a change;
   * the serial number counts every call (as a wrapping C# int).
   */
  function SetBounds(p: Peer, width: int, height: int): (r: Peer)
    ensures r.paintPending <==> width != p.oldWidth || height != p.oldHeight
    ensures r.oldWidth == width && r.oldHeight == height
    ensures !r.paintPending ==> r.oldWidth == p.oldWidth && r.oldHeight == p.oldHeight
    ensures r.serialNum == Wrap32(p.serialNum + 1)
    ensures r.(paintPending := p.paintPending, oldWidth := p.oldWidth, oldHeight := p.oldHeight, serialNum := p.serialNum) == p
  {
    var resized := width != p.oldWidth || height != p.oldHeight;
    var p1 := p.(paintPending := resized);
    var p2 := if resized then p1.(oldWidth := width, oldHeight := height) else p1;
    p2.(serialNum := Wrap32(p2.serialNum + 1))
  }

  /** A move or a repeated size leaves no paint pending. */
  lemma SameSizeLeavesNothingPending(p: Peer, w1: int, h1: int, w2: int, h2: int)
    ensures !SetBounds(SetBounds(p, w1, h1), w1, h1).paintPending
    ensures SetBounds(SetBounds(p, w1, h1), w2, h2).paintPending <==> w1 != w2 || h1 != h2
  {
  }

  /** show: records the target's size, so that a setBounds to the same size is not a resize. */
  function Show(p: Peer, width: int, height: int): (r: Peer)
    ensures !SetBounds(r, width, height).paintPending
    ensures r.(oldWidth := p.oldWidth, oldHeight := p.oldHeight) == p
  {
    p.(oldWidth := width, oldHeight := height)
  }

  // ---------------------------------------------------------------------
  // Paint gating
  // ---------------------------------------------------------------------

  /** isPaintPending: inside a layout and waiting for the native paint. */
  predicate IsPaintPending(p: Peer)
  {
    p.paintPending && p.isLayouting
  }

  datatype PaintEvent = Paint | Update

  /**
   * handleEvent for PaintEvent.PAINT and UPDATE: a PAINT means the native
   * paint arrived, so nothing is pending any more; either event repaints
   * only outside a layout and when no native paint is awaited.
   */
  function HandlePaint(p: Peer, e: PaintEvent): (r: (Peer, bool))
    ensures e == Paint ==> r.0 == p.(paintPending := false) && (r.1 <==> !p.isLayouting)
    ensures e == Update ==> r.0 == p && (r.1 <==> !p.isLayouting && !p.paintPending)
  {
    var p1 := if e == Paint then p.(paintPending := false) else p;
    (p1, !p1.isLayouting && !p1.paintPending)
  }

  function BeginLayout(p: Peer): (r: Peer)
    ensures r.isLayouting && r.(isLayouting := p.isLayouting) == p
  {
    p.(isLayouting := true)
  }

  /**
   * endLayout: posts a PAINT for the damaged area when there is one, no
   * native paint is awaited and the target does not ignore repaints; the
   * layout ends.
   */
  function EndLayout(p: Peer, damaged: bool, ignoreRepaint: bool): (r: (Peer, bool))
    ensures !r.0.isLayouting && r.0.(isLayouting := p.isLayouting) == p
    ensures r.1 <==> damaged && !p.paintPending && !ignoreRepaint
  {
    (p.(isLayouting := false), damaged && !p.paintPending && !ignoreRepaint)
  }

  /**
   * A resize inside a layout leaves a paint pending exactly when the size
   * changed; while one is pending neither PAINT nor UPDATE repaints, and
   * the native PAINT ends the wait.
   */
  lemma PaintPendingAfterResize(p: Peer, width: int, height: int, e: PaintEvent)
    ensures IsPaintPending(SetBounds(BeginLayout(p), width, height)) <==> width != p.oldWidth || height != p.oldHeight
    ensures IsPaintPending(p) ==> !HandlePaint(p, e).1 && !IsPaintPending(HandlePaint(p, Paint).0)
  {
  }

  /**
   * Within a layout nothing is painted; after a resize an UPDATE waits
   * for the native PAINT, and once it came (outside a layout) updates
   * repaint again.
   */
  lemma PaintGating(p: Peer, width: int, height: int, e: PaintEvent)
    ensures !HandlePaint(BeginLayout(p), e).1
    ensures var q := SetBounds(p, width, height);
            q.paintPending ==> !HandlePaint(q, Update).1
    ensures var q := SetBounds(p, width, height).(isLayouting := false);
            HandlePaint(HandlePaint(q, Paint).0, Update).1
  {
  }

  // ---------------------------------------------------------------------
  // Mouse buttons and clicks
  // ---------------------------------------------------------------------

  /** java.awt.event.MouseEvent identifiers. */
  const MouseClicked: int := 500
  const MousePressed: int := 501
  const MouseReleased: int := 502

  /** A posted mouse event: its identifier and click count. */
  datatype MouseOut = MouseOut(id: int, clickCount: int)

  /** OnMouseDown: forgets any click seen before and posts MOUSE_PRESSED. */
  function MouseDown(p: Peer, clicks: int): (r: (Peer, seq<MouseOut>))
    ensures !r.0.isMouseClick && !r.0.isDoubleClick && !r.0.isPopupMenu
    ensures r.1 == [MouseOut(MousePressed, clicks)]
  {
    (p.(isMouseClick := false, isDoubleClick := false, isPopupMenu := false), [MouseOut(MousePressed, clicks)])
  }

  /** OnClick and OnDoubleClick only take note. */
  function Click(p: Peer): (r: Peer)
    ensures r.isMouseClick && r.(isMouseClick := p.isMouseClick) == p
  {
    p.(isMouseClick := true)
  }

  function DoubleClick(p: Peer): (r: Peer)
    ensures r.isDoubleClick && r.(isDoubleClick := p.isDoubleClick) == p
  {
    p.(isDoubleClick := true)
  }

  /**
   * OnMouseUp: posts MOUSE_RELEASED, then MOUSE_CLICKED when a click or
   * double-click was seen (with click count 2 for a double-click), and
   * forgets the single click.
   */
  function MouseUp(p: Peer, clicks: int): (r: (Peer, seq<MouseOut>))
    ensures 1 <= |r.1| <= 2 && r.1[0] == MouseOut(MouseReleased, clicks)
    ensures |r.1| == 2 <==> p.isMouseClick || p.isDoubleClick
    ensures |r.1| == 2 ==> r.1[1] == MouseOut(MouseClicked, if p.isDoubleClick then 2 else clicks)
    ensures !r.0.isMouseClick && !r.0.isPopupMenu && r.0.isDoubleClick == p.isDoubleClick
  {
    var released := [MouseOut(MouseReleased, clicks)];
    var clicked :=
      if p.isMouseClick || p.isDoubleClick then [MouseOut(MouseClicked, if p.isDoubleClick then 2 else clicks)]
      else [];
    (p.(isMouseClick := false, isPopupMenu := false), released + clicked)
  }

  /**
   * Windows reports the click before the button comes up; the peer
   * reorders it: press, click, release gives PRESSED, RELEASED, CLICKED;
   * with a double-click the click count is 2; without a click only
   * PRESSED and RELEASED are posted.
   */
  lemma ClickFollowsRelease(p: Peer, clicks: int)
    ensures var (a, e1) := MouseDown(p, clicks);
            var (b, e2) := MouseUp(Click(a), clicks);
            e1 + e2 == [MouseOut(MousePressed, clicks), MouseOut(MouseReleased, clicks), MouseOut(MouseClicked, clicks)]
    ensures var (a, e1) := MouseDown(p, clicks);
            var (b, e2) := MouseUp(DoubleClick(a), clicks);
            e2 == [MouseOut(MouseReleased, clicks), MouseOut(MouseClicked, 2)]
    ensures var (a, e1) := MouseDown(p, clicks);
            var (b, e2) := MouseUp(a, clicks);
            e1 + e2 == [MouseOut(MousePressed, clicks), MouseOut(MouseReleased, clicks)]
  {
  }
}

=== FILE: fonts.dfy ===
/**
 * Font translation between java.awt.Font and System.Drawing.Font:
 * family lookup by logical name, style bits, the fallback through the
 * styles a family actually provides, and the conversion back to Java
 * with its integer/float size pair.
 *
 * The installed families and the styles each family provides are
 * inputs; nothing here enumerates real fonts.
 */
module Fonts {
  import opened Base

  // ---------------------------------------------------------------------
  // Families
  // ---------------------------------------------------------------------

  /** A System.Drawing.FontFamily: one of the three generic families or an installed one. */
  datatype Family = Monospace | Serif | SansSerif | Installed(name: string)

  /** The concrete names Windows gives the generic families. */
  datatype GenericNames = GenericNames(monospace: string, serif: string, sansSerif: string)

  /** FontFamily.Name. */
  function FamilyName(f: Family, names: GenericNames): string
  {
    match f
    case Monospace => names.monospace
    case Serif => names.serif
    case SansSerif => names.sansSerif
    case Installed(n) => n
  }

  function LowerChar(c: char): (r: char)
    ensures 'A' <= c <= 'Z' ==> 'a' <= r <= 'z'
    ensures !('A' <= c <= 'Z') ==> r == c
  {
    if 'A' <= c <= 'Z' then (c as int + 32) as char else c
  }

  /** string.ToLower restricted to ASCII letters. */
  function Lower(s: string): (r: string)
    ensures |r| == |s|
    ensures forall i :: 0 <= i < |s| ==> r[i] == LowerChar(s[i])
  {
    seq(|s|, i requires 0 <= i < |s| => LowerChar(s[i]))
  }

  lemma LowerIdempotent(s: string)
    ensures Lower(Lower(s)) == Lower(s)
  {
    assert forall i :: 0 <= i < |s| ==> Lower(Lower(s))[i] == Lower(s)[i];
  }

  const MonospaceNames: set<string> := {"monospaced", "courier"}
  const SerifNames: set<string> := {"serif"}
  const SansSerifNames: set<string> := {"sansserif", "dialog", "dialoginput", "default"}

  /** A name the switch in CreateFontFamily resolves without asking the system. */
  predicate IsLogicalName(name: string)
  {
    var key := Lower(name);
    key in MonospaceNames || key in SerifNames || key in SansSerifNames
  }

  /**
   * J2C.CreateFontFamily. `installed` holds the lower-cased names of the
   * families `new FontFamily(name)` finds; any other name makes that
   * constructor throw ArgumentException, which falls back to SansSerif.
   */
  function CreateFontFamily(name: Option<string>, installed: set<string>): (f: Family)
    ensures name.None? ==> f == SansSerif
    ensures f == Monospace <==> name.Some? && Lower(name.value) in MonospaceNames
    ensures f == Serif <==> name.Some? && Lower(name.value) in SerifNames
    ensures f.Installed? <==> name.Some? && !IsLogicalName(name.value) && Lower(name.value) in installed
    ensures f.Installed? ==> f.name == name.value
  {
    if name.None? then SansSerif
    else
      var key := Lower(name.value);
      if key in MonospaceNames then Monospace
      else if key in SerifNames then Serif
      else if key in SansSerifNames then SansSerif
      else if key in installed then Installed(name.value)
      else SansSerif
  }

  /** Two spellings of a name that differ only in letter case select the same family. */
  lemma {:induction false} FamilyIgnoresCase(a: string, b: string, installed: set<string>)
    requires Lower(a) == Lower(b)
    ensures CreateFontFamily(Some(a), installed).Installed? == CreateFontFamily(Some(b), installed).Installed?
    ensures !CreateFontFamily(Some(a), installed).Installed? ==>
              CreateFontFamily(Some(a), installed) == CreateFontFamily(Some(b), installed)
  {
  }

  /** A logical name never reaches the system, even when a family of that name is installed. */
  lemma LogicalNameIsGeneric(name: string, installed: set<string>)
    requires IsLogicalName(name)
    ensures !CreateFontFamily(Some(name), installed).Installed?
  {
  }

  /** Feeding back the lower-cased name of a resolved family resolves to the same kind of family. */
  lemma LoweredNameResolvesAlike(name: string, installed: set<string>)
    ensures CreateFontFamily(Some(Lower(name)), installed).Installed? == CreateFontFamily(Some(name), installed).Installed?
    ensures !CreateFontFamily(Some(name), installed).Installed? ==>
              CreateFontFamily(Some(Lower(name)), installed) == CreateFontFamily(Some(name), installed)
  {
    LowerIdempotent(name);
    FamilyIgnoresCase(Lower(name), name, installed);
  }

  // ---------------------------------------------------------------------
  // Styles
  // ---------------------------------------------------------------------

  /** java.awt.Font style bits. */
  const JavaPlain: bv32 := 0
  const JavaBold: bv32 := 1
  const JavaItalic: bv32 := 2

  /** System.Drawing.FontStyle flags. */
  const Regular: bv32 := 0
  const Bold: bv32 := 1
  const Italic: bv32 := 2
  const Underline: bv32 := 4
  const Strikeout: bv32 := 8

  /** J2C.ConvertFontStyle: BOLD and ITALIC become Bold and Italic; every other bit is dropped. */
  function ConvertFontStyle(style: bv32): (r: bv32)
    ensures r & Bold != 0 <==> style & JavaBold != 0
    ensures r & Italic != 0 <==> style & JavaItalic != 0
    ensures r & !(Bold | Italic) == 0
  {
    var fs := Regular;
    var fs := if style & JavaBold != 0 then fs | Bold else fs;
    if style & JavaItalic != 0 then fs | Italic else fs
  }

  /** The order in which ConvertFont tries the styles when the requested one is missing. */
  const FallbackOrder: seq<bv32> := [Regular, Bold, Italic, Bold | Italic]

  /** The first entry of `order` the family provides. */
  function FirstAvailable(order: seq<bv32>, available: set<bv32>): (r: Option<bv32>)
    ensures r.Some? ==> r.value in available && r.value in order
    ensures r.None? <==> forall i :: 0 <= i < |order| ==> order[i] !in available
    ensures r.Some? ==> exists i :: 0 <= i < |order| && order[i] == r.value &&
                          forall j :: 0 <= j < i ==> order[j] !in available
  {
    if |order| == 0 then None
    else if order[0] in available then Some(order[0])
    else
      var rest := FirstAvailable(order[1..], available);
      if rest.Some? then
        ghost var i :| 0 <= i < |order[1..]| && order[1..][i] == rest.value &&
                 forall j :: 0 <= j < i ==> order[1..][j] !in available;
        assert order[i + 1] == rest.value;
        rest
      else rest
  }

  /** The fallback chain spelled out. */
  lemma FallbackChain(available: set<bv32>)
    ensures FirstAvailable(FallbackOrder, available) ==
            if Regular in available then Some(Regular)
            else if Bold in available then Some(Bold)
            else if Italic in available then Some(Italic)
            else if Bold | Italic in available then Some(Bold | Italic)
            else None
  {
    var o := FallbackOrder;
    assert o[1..] == [Bold, Italic, Bold | Italic];
    assert o[1..][1..] == [Italic, Bold | Italic];
    assert o[1..][1..][1..] == [Bold | Italic];
    assert FirstAvailable([Bold | Italic], available) ==
           if Bold | Italic in available then Some(Bold | Italic) else None;
    assert FirstAvailable([Italic, Bold | Italic], available) ==
           if Italic in available then Some(Italic) else FirstAvailable([Bold | Italic], available);
    assert FirstAvailable([Bold, Italic, Bold | Italic], available) ==
           if Bold in available then Some(Bold) else FirstAvailable([Italic, Bold | Italic], available);
  }

  /** The style ConvertFont settles on: the requested one if provided, else the fallback chain. */
  function ChooseStyle(requested: bv32, available: set<bv32>): (s: bv32)
    ensures requested in available ==> s == requested
    ensures requested !in available && FirstAvailable(FallbackOrder, available).Some? ==>
              s == FirstAvailable(FallbackOrder, available).value
    ensures requested !in available && FirstAvailable(FallbackOrder, available).None? ==> s == requested
  {
    FallbackChain(available);
    if requested in available then requested
    else if Regular in available then Regular
    else if Bold in available then Bold
    else if Italic in available then Italic
    else if Bold | Italic in available then Bold | Italic
    else requested
  }

  /** GraphicsUnit values a font can carry. */
  datatype Unit = Pixel | Point | Inch | Document | Millimeter

  /** A System.Drawing.Font. */
  datatype NetFont = NetFont(family: Family, size: real, style: bv32, unit: Unit)

  /** The installed families and the styles each provides (FontFamily.IsStyleAvailable). */
  datatype Catalog = Catalog(installed: set<string>, styles: map<Family, set<bv32>>)

  function StylesOf(cat: Catalog, f: Family): set<bv32>
  {
    if f in cat.styles then cat.styles[f] else {}
  }

  /**
   * J2C.ConvertFont(name, style, size). When the family provides none of
   * the four styles the requested style is left in place, and the Font
   * constructor rejects it with an ArgumentException.
   */
  function ConvertFont(name: Option<string>, style: bv32, size: real, cat: Catalog): (r: Result<NetFont>)
    ensures var available := StylesOf(cat, CreateFontFamily(name, cat.installed));
      r.Ok? <==> exists i :: 0 <= i < |FallbackOrder| && FallbackOrder[i] in available
    ensures r.Fail? ==> r.error == NativeArgument
    ensures r.Ok? ==> r.value.family == CreateFontFamily(name, cat.installed)
    ensures r.Ok? ==> r.value.size == (if size <= 0.0 then 1.0 else size) && r.value.size > 0.0
    ensures r.Ok? ==> r.value.unit == Pixel
    ensures r.Ok? ==> r.value.style in StylesOf(cat, r.value.family)
    ensures r.Ok? && ConvertFontStyle(style) in StylesOf(cat, r.value.family) ==> r.value.style == ConvertFontStyle(style)
    ensures r.Ok? && ConvertFontStyle(style) !in StylesOf(cat, r.value.family) ==>
              Some(r.value.style) == FirstAvailable(FallbackOrder, StylesOf(cat, r.value.family))
  {
    var family := CreateFontFamily(name, cat.installed);
    var requested := ConvertFontStyle(style);
    var available := StylesOf(cat, family);
    RequestedIsInFallbackOrder(style);
    FallbackChain(available);
    var chosen := ChooseStyle(requested, available);
    if chosen in available then Ok(NetFont(family, if size <= 0.0 then 1.0 else size, chosen, Pixel))
    else Fail(NativeArgument)
  }

  /** A family that provides none of the four styles (Aharoni lacks Regular, for one) makes the constructor throw. */
  lemma ConvertFontWithoutStylesFails(name: Option<string>, style: bv32, size: real, cat: Catalog)
    requires StylesOf(cat, CreateFontFamily(name, cat.installed)) == {}
    ensures ConvertFont(name, style, size, cat) == Fail(NativeArgument)
  {
  }

  /** Every style ConvertFontStyle produces is one of the four the fallback chain tries. */
  lemma RequestedIsInFallbackOrder(style: bv32)
    ensures ConvertFontStyle(style) in FallbackOrder
  {
    var r := ConvertFontStyle(style);
    assert r == Regular || r == Bold || r == Italic || r == Bold | Italic;
  }

  // ---------------------------------------------------------------------
  // Back to Java
  // ---------------------------------------------------------------------

  /** A java.awt.Font: its integer size and its float point size. */
  datatype JavaFont = JavaFont(name: string, style: bv32, size: int, pointSize: real)

  /** `new java.awt.Font(name, style, size)`: a style with bits beyond BOLD|ITALIC becomes PLAIN. */
  function NewJavaFont(name: string, style: bv32, size: int): (f: JavaFont)
    ensures f.name == name && f.size == size && f.pointSize == size as real
    ensures f.style == (if style & !(JavaBold | JavaItalic) == 0 then style else JavaPlain)
  {
    JavaFont(name, if style & !(JavaBold | JavaItalic) == 0 then style else JavaPlain, size, size as real)
  }

  /** Font.deriveFont(float): the point size is exact, the integer size is rounded half up. */
  function DeriveFont(f: JavaFont, size: real): (r: JavaFont)
    ensures r.name == f.name && r.style == f.style && r.pointSize == size
  {
    JavaFont(f.name, f.style, Truncate(size + 1.0 / 2.0), size)
  }

  /** Font.SizeInPoints for the units that do not depend on a device. */
  function SizeInPoints(f: NetFont): (r: real)
    requires f.unit != Pixel
    ensures f.unit == Point ==> r == f.size
    ensures f.unit == Inch ==> r == 72.0 * f.size
    ensures f.unit == Document ==> 300.0 * r == 72.0 * f.size
    ensures f.unit == Millimeter ==> 254.0 * r == 720.0 * f.size
    ensures f.size >= 0.0 ==> r >= 0.0
  {
    match f.unit
    case Point => f.size
    case Inch => f.size * 72.0
    case Document => f.size * 72.0 / 300.0
    case Millimeter => f.size * 72.0 * 10.0 / 254.0
  }

  /** The Java size C2J.ConvertFont computes: pixels as they are, other units through the screen resolution. */
  function JavaSize(font: NetFont, screenResolution: int): (r: real)
    ensures font.unit == Pixel ==> r == font.size
    ensures font.unit != Pixel ==> 72.0 * r == SizeInPoints(font) * screenResolution as real
  {
    if font.unit == Pixel then font.size
    else SizeInPoints(font) * screenResolution as real / 72.0
  }

  /** C2J.ConvertFont. */
  function ConvertFontToJava(font: NetFont, names: GenericNames, screenResolution: int): (r: JavaFont)
    ensures r.name == FamilyName(font.family, names)
    ensures r.pointSize == JavaSize(font, screenResolution)
    ensures r.style == (if font.style & !(JavaBold | JavaItalic) == 0 then font.style else JavaPlain)
    ensures Truncate(r.pointSize) as real == r.pointSize ==> r.size == Truncate(r.pointSize)
    ensures Truncate(r.pointSize) as real != r.pointSize ==> r.size == Truncate(r.pointSize + 1.0 / 2.0)
  {
    var size := JavaSize(font, screenResolution);
    var jFont := NewJavaFont(FamilyName(font.family, names), font.style, Truncate(size));
    if jFont.pointSize != size then DeriveFont(jFont, size) else jFont
  }

  /**
   * A Java font converted to .NET and back keeps its float size and,
   * when the family provides the requested style, its BOLD/ITALIC bits.
   */
  lemma FontRoundTrip(name: Option<string>, style: bv32, size: real, cat: Catalog,
                      names: GenericNames, screenResolution: int)
    requires size > 0.0
    requires ConvertFontStyle(style) in StylesOf(cat, CreateFontFamily(name, cat.installed))
    ensures ConvertFont(name, style, size, cat).Ok?
    ensures ConvertFontToJava(ConvertFont(name, style, size, cat).value, names, screenResolution).pointSize == size
    ensures ConvertFontToJava(ConvertFont(name, style, size, cat).value, names, screenResolution).style
            == style & (JavaBold | JavaItalic)
  {
    var r := ConvertFontStyle(style);
    assert r == style & (JavaBold | JavaItalic);
  }

  /** An underlined .NET font arrives in Java as PLAIN, losing its bold and italic bits too. */
  lemma UnderlineDropsStyle(family: Family, size: real, names: GenericNames, screenResolution: int)
    ensures ConvertFontToJava(NetFont(family, size, Bold | Italic | Underline, Pixel), names, screenResolution).style
            == JavaPlain
  {
  }
}

=== FILE: forms.dfy ===
/**
 * The native top-level forms: the window style words of UndecoratedForm,
 * the maximized-bounds bookkeeping of MyForm, and the frame peer's
 * translation between java.awt.Frame states and FormWindowState.
 */
module Forms {
  import opened Base
  import opened Paths

  // ---------------------------------------------------------------------
  // UndecoratedForm
  // ---------------------------------------------------------------------

  /** Extended window style bits. */
  const ExTopMost: bv32 := 0x0000_0008
  const ExNoActivate: bv32 := 0x0800_0000
  /** Window style bit. */
  const Disabled: bv32 := 0x0800_0000

  /** The two style words of a window's CreateParams. */
  datatype StyleWords = StyleWords(style: bv32, exStyle: bv32)

  /** What the form knows of its Java window. */
  datatype WindowFlags = WindowFlags(focusable: bool, alwaysOnTop: bool, enabled: bool)

  /** The extended style word UndecoratedForm computes, before anything is said about it. */
  function ExStyleWord(base: bv32, w: WindowFlags): bv32
  {
    var ex := if w.focusable then base & !ExNoActivate else base | ExNoActivate;
    if w.alwaysOnTop then ex | ExTopMost else ex & !ExTopMost
  }

  lemma ExStyleNoActivate(base: bv32, w: WindowFlags)
    ensures (ExStyleWord(base, w) & ExNoActivate != 0) <==> !w.focusable
  {
  }

  lemma ExStyleTopMost(base: bv32, w: WindowFlags)
    ensures (ExStyleWord(base, w) & ExTopMost != 0) <==> w.alwaysOnTop
  {
  }

  /** The extended style bits other than NOACTIVATE and TOPMOST. */
  const ExOthers: bv32 := 0xF7FF_FFF7

  lemma ExOthersAreTheRest()
    ensures ExOthers == !(ExNoActivate | ExTopMost)
  {
  }

  lemma OthersOfClearSet(base: bv32, w: WindowFlags)
    requires w.focusable && w.alwaysOnTop
    ensures ExStyleWord(base, w) & ExOthers == base & ExOthers
  {
    assert ExStyleWord(base, w) == (base & !ExNoActivate) | ExTopMost;
  }

  lemma OthersOfClearClear(base: bv32, w: WindowFlags)
    requires w.focusable && !w.alwaysOnTop
    ensures ExStyleWord(base, w) & ExOthers == base & ExOthers
  {
    assert ExStyleWord(base, w) == (base & !ExNoActivate) & !ExTopMost;
  }

  lemma OthersOfSetSet(base: bv32, w: WindowFlags)
    requires !w.focusable && w.alwaysOnTop
    ensures ExStyleWord(base, w) & ExOthers == base & ExOthers
  {
    assert ExStyleWord(base, w) == (base | ExNoActivate) | ExTopMost;
  }

  lemma OthersOfSetClear(base: bv32, w: WindowFlags)
    requires !w.focusable && !w.alwaysOnTop
    ensures ExStyleWord(base, w) & ExOthers == base & ExOthers
  {
    assert ExStyleWord(base, w) == (base | ExNoActivate) & !ExTopMost;
  }

  lemma ExStyleKeepsOtherBits(base: bv32, w: WindowFlags)
    ensures ExStyleWord(base, w) & ExOthers == base & ExOthers
  {
    if w.focusable {
      if w.alwaysOnTop { OthersOfClearSet(base, w); } else { OthersOfClearClear(base, w); }
    } else {
      if w.alwaysOnTop { OthersOfSetSet(base, w); } else { OthersOfSetClear(base, w); }
    }
  }

  /** The extended style: NOACTIVATE exactly when unfocusable, TOPMOST exactly when always on top. */
  function ExStyle(base: bv32, w: WindowFlags): (r: bv32)
    ensures (r & ExNoActivate != 0) <==> !w.focusable
    ensures (r & ExTopMost != 0) <==> w.alwaysOnTop
    ensures r & ExOthers == base & ExOthers
  {
    ExStyleNoActivate(base, w);
    ExStyleTopMost(base, w);
    ExStyleKeepsOtherBits(base, w);
    ExStyleWord(base, w)
  }

  /** The style: DISABLED exactly when the form is disabled. */
  function Style(base: bv32, w: WindowFlags): (r: bv32)
    ensures (r & Disabled != 0) <==> !w.enabled
    ensures r & !Disabled == base & !Disabled
  {
    if w.enabled then base & !Disabled else base | Disabled
  }

  /**
   * CreateParams: the base words with NOACTIVATE set exactly for a window
   * that cannot take the focus, TOPMOST exactly for an always-on-top one
   * and DISABLED exactly for a disabled form, every other bit as the base
   * form has it.
   */
  function CreateParams(base: StyleWords, w: WindowFlags): (r: StyleWords)
    ensures (r.exStyle & ExNoActivate != 0) <==> !w.focusable
    ensures (r.exStyle & ExTopMost != 0) <==> w.alwaysOnTop
    ensures (r.style & Disabled != 0) <==> !w.enabled
    ensures r.exStyle & ExOthers == base.exStyle & ExOthers
    ensures r.style & !Disabled == base.style & !Disabled
  {
    StyleWords(Style(base.style, w), ExStyle(base.exStyle, w))
  }

  /** Deriving the extended style twice is deriving it once. */
  lemma ExStyleIdempotent(base: bv32, w: WindowFlags)
    ensures ExStyle(ExStyle(base, w), w) == ExStyle(base, w)
  {
  }

  /** Deriving the style twice is deriving it once. */
  lemma StyleIdempotent(base: bv32, w: WindowFlags)
    ensures Style(Style(base, w), w) == Style(base, w)
  {
    if w.enabled {
      assert (base & !Disabled) & !Disabled == base & !Disabled;
    } else {
      assert (base | Disabled) | Disabled == base | Disabled;
    }
  }

  /** Deriving the words again from derived words changes nothing: only the window's flags matter. */
  lemma CreateParamsIdempotent(base: StyleWords, w: WindowFlags)
    ensures CreateParams(CreateParams(base, w), w) == CreateParams(base, w)
  {
    ExStyleIdempotent(base.exStyle, w);
    StyleIdempotent(base.style, w);
  }

  /** ShowWithoutActivation: a window that cannot take the focus is shown without being activated. */
  function ShowWithoutActivation(w: WindowFlags): (r: bool)
    ensures r <==> (CreateParams(StyleWords(0, 0), w).exStyle & ExNoActivate != 0)
  {
    !w.focusable
  }

  const WmMouseActivate: int := 0x0021
  const MaNoActivate: int := 0x0003

  /** WndProc: answers WM_MOUSEACTIVATE with MA_NOACTIVATE for a window that cannot take the focus; None passes the message on. */
  function WndProc(w: WindowFlags, msg: int): (r: Option<int>)
    ensures r.Some? <==> !w.focusable && msg == WmMouseActivate
    ensures r.Some? ==> r.value == MaNoActivate
  {
    if !w.focusable && msg == WmMouseActivate then Some(MaNoActivate) else None
  }

  /**
   * The three places that keep a window from being activated agree: it is
   * shown without activation, refuses activation by a click, and carries
   * NOACTIVATE, or none of the three.
   */
  lemma ActivationRulesAgree(base: StyleWords, w: WindowFlags)
    ensures ShowWithoutActivation(w) <==> WndProc(w, WmMouseActivate).Some?
    ensures ShowWithoutActivation(w) <==> (CreateParams(base, w).exStyle & ExNoActivate != 0)
  {
  }

  // ---------------------------------------------------------------------
  // Form construction
  // ---------------------------------------------------------------------

  datatype BorderStyle = NoBorder | FixedSingle | Sizable

  /** The form kinds: the plain undecorated form, and MyForm, the frame's form. */
  datatype FormKind = Undecorated | MyForm

  datatype Look = Look(border: BorderStyle, showInTaskbar: bool)

  /** Windows Forms' defaults for a new form. */
  const DefaultLook: Look := Look(Sizable, true)

  /**
   * The constructor's setBorderStyle: an undecorated form drops the border
   * and the taskbar button; MyForm overrides it to do nothing, so a frame
   * keeps the defaults.
   */
  function Constructed(kind: FormKind): (r: Look)
    ensures kind == MyForm ==> r == DefaultLook
    ensures kind == Undecorated ==> r.border == NoBorder && !r.showInTaskbar
  {
    match kind
    case Undecorated => Look(NoBorder, false)
    case MyForm => DefaultLook
  }

  // ---------------------------------------------------------------------
  // MyForm.setMaximizedBounds
  // ---------------------------------------------------------------------

  /** The form's MaximizedBounds and the system value saved before the first change. */
  datatype MaxBounds = MaxBounds(current: IntRect, original: IntRect, saved: bool)

  /**
   * setMaximizedBounds: a rectangle is applied, the system value having
   * been saved first if it was not yet; null goes back to the saved value
   * and does nothing when none was saved.
   */
  function SetMaximizedBounds(m: MaxBounds, rect: Option<IntRect>): (r: MaxBounds)
    ensures rect.Some? ==> r.current == rect.value && r.saved
    ensures rect.Some? ==> r.original == if m.saved then m.original else m.current
    ensures rect.None? && m.saved ==> r == m.(current := m.original)
    ensures rect.None? && !m.saved ==> r == m
  {
    match rect
    case None => if m.saved then m.(current := m.original) else m
    case Some(b) =>
      var m1 := if m.saved then m else m.(original := m.current, saved := true);
      m1.(current := b)
  }

  /** A sequence of setMaximizedBounds calls. */
  function ApplyAll(m: MaxBounds, calls: seq<Option<IntRect>>): MaxBounds
    decreases |calls|
  {
    if |calls| == 0 then m else ApplyAll(SetMaximizedBounds(m, calls[0]), calls[1..])
  }

  /** Once saved, the system value is never overwritten, whatever follows. */
  lemma {:induction false} SavedOnce(m: MaxBounds, calls: seq<Option<IntRect>>)
    requires m.saved
    ensures ApplyAll(m, calls).saved && ApplyAll(m, calls).original == m.original
    decreases |calls|
  {
    if |calls| > 0 {
      SavedOnce(SetMaximizedBounds(m, calls[0]), calls[1..]);
    }
  }

  /**
   * The first rectangle saves the system value, and a null after any
   * number of further changes brings it back.
   */
  lemma ResetRestoresSystemBounds(m: MaxBounds, first: IntRect, calls: seq<Option<IntRect>>)
    requires !m.saved
    ensures ApplyAll(m, [Some(first)] + calls + [None]).current == m.current
  {
    var m1 := SetMaximizedBounds(m, Some(first));
    SavedOnce(m1, calls);
    ApplyAllConcat(m1, calls, [None]);
    assert ([Some(first)] + calls + [None])[1..] == calls + [None];
  }

  lemma {:induction false} ApplyAllConcat(m: MaxBounds, a: seq<Option<IntRect>>, b: seq<Option<IntRect>>)
    ensures ApplyAll(m, a + b) == ApplyAll(ApplyAll(m, a), b)
    decreases |a|
  {
    if |a| == 0 {
      assert a + b == b;
    } else {
      assert (a + b)[0] == a[0] && (a + b)[1..] == a[1..] + b;
      ApplyAllConcat(SetMaximizedBounds(m, a[0]), a[1..], b);
    }
  }

  // ---------------------------------------------------------------------
  // NetFramePeer
  // ---------------------------------------------------------------------

  /** java.awt.Frame states. */
  const FrameNormal: int := 0
  const FrameIconified: int := 1
  const FrameMaximizedBoth: int := 6

  /** FormWindowState values; the C# enum field can hold any int. */
  const FormNormal: int := 0
  const FormMinimized: int := 1
  const FormMaximized: int := 2

  predicate ValidFormState(s: int)
  {
    s == FormNormal || s == FormMinimized || s == FormMaximized
  }

  predicate FrameStateMapped(s: int)
  {
    s == FrameNormal || s == FrameIconified || s == FrameMaximizedBoth
  }

  /** getState: the Java state of the form's window state; any other value throws InvalidEnumArgumentException. */
  function GetState(formState: int): (r: Result<int>)
    ensures r.Fail? <==> !ValidFormState(formState)
    ensures r.Fail? ==> r.error == InvalidEnumArgument
    ensures r.Ok? ==> FrameStateMapped(r.value)
  {
    if formState == FormNormal then Ok(FrameNormal)
    else if formState == FormMaximized then Ok(FrameMaximizedBoth)
    else if formState == FormMinimized then Ok(FrameIconified)
    else Fail(InvalidEnumArgument)
  }

  /** setState: the three mapped Java states set the window state; every other value leaves it. */
  function SetState(formState: int, state: int): (r: int)
    ensures !FrameStateMapped(state) ==> r == formState
    ensures FrameStateMapped(state) ==> ValidFormState(r)
  {
    if state == FrameNormal then FormNormal
    else if state == FrameMaximizedBoth then FormMaximized
    else if state == FrameIconified then FormMinimized
    else formState
  }

  /** setState and getState are inverse on the mapped states, in both directions. */
  lemma FrameStateRoundTrip(formState: int, state: int)
    ensures FrameStateMapped(state) ==> GetState(SetState(formState, state)) == Ok(state)
    ensures ValidFormState(formState) ==> SetState(0, GetState(formState).value) == formState
  {
  }

  /** setResizable: no border when undecorated, else a sizable or a fixed one. */
  function BorderFor(undecorated: bool, resizable: bool): (r: BorderStyle)
    ensures r == NoBorder <==> undecorated
    ensures r == Sizable <==> !undecorated && resizable
    ensures r == FixedSingle <==> !undecorated && !resizable
  {
    if undecorated then NoBorder
    else if resizable then Sizable
    else FixedSingle
  }

  /** The frame form's title, border and window state. */
  datatype FrameForm = FrameForm(title: string, border: BorderStyle, windowState: int)

  /** What initialize reads from the Java frame. */
  datatype JavaFrame = JavaFrame(title: Option<string>, undecorated: bool, resizable: bool, extendedState: int)

  /** initialize: the title only when the frame has one, then the border and the state. */
  function Initialize(f: FrameForm, target: JavaFrame): (r: FrameForm)
    ensures r.title == if target.title.Some? then target.title.value else f.title
    ensures r.border == BorderFor(target.undecorated, target.resizable)
    ensures r.windowState == SetState(f.windowState, target.extendedState)
  {
    var f1 := if target.title.Some? then f.(title := target.title.value) else f;
    var f2 := f1.(border := BorderFor(target.undecorated, target.resizable));
    f2.(windowState := SetState(f2.windowState, target.extendedState))
  }

  /** After initialize the peer reports the frame's own state, when that is one of the mapped ones. */
  lemma InitializeReportsState(f: FrameForm, target: JavaFrame)
    requires FrameStateMapped(target.extendedState)
    ensures GetState(Initialize(f, target).windowState) == Ok(target.extendedState)
  {
    FrameStateRoundTrip(f.windowState, target.extendedState);
  }
}

=== FILE: gradient.dfy ===
/**
 * The brushes NetGraphics.setPaint builds for Java gradient paints.
 *
 * GDI+ gradient brushes only tile (or tile-and-flip) outside their axis, so a
 * Java gradient that holds its end colours constant (NO_CYCLE) is emulated by
 * stretching the brush axis far beyond the Java axis and remapping the Java
 * stops into the middle of the stretched axis. For radial paints the ellipse
 * is made large enough to cover the drawing surface and one band of stops is
 * emitted per radius-wide ring.
 */
module Gradient {
  import opened Base
  import opened Colors
  import opened Paths

  datatype CycleMethod = NoCycle | Reflect | Repeat

  datatype WrapMode = Tile | TileFlipXY

  /** A ColorBlend: interpolation colours with their positions along the brush. */
  datatype Blend = Blend(colors: seq<NetColor>, positions: seq<real>)

  /** A LinearGradientBrush from start to end. */
  datatype LinearBrush = LinearBrush(start: Point, end: Point, blend: Blend, wrap: WrapMode)

  /**
   * A PathGradientBrush over the circle of the given extent (its radius)
   * around center. Blend position 0 is the circle's boundary, 1 its centre.
   */
  datatype PathBrush = PathBrush(center: Point, extent: real, blend: Blend)

  /** The point at parameter t on the axis from a to b. */
  function Lerp(a: Point, b: Point, t: real): Point {
    Point(a.x + t * (b.x - a.x), a.y + t * (b.y - a.y))
  }

  predicate Ascending(s: seq<real>) {
    forall i, j :: 0 <= i <= j < |s| ==> s[i] <= s[j]
  }

  predicate WithinUnit(s: seq<real>) {
    forall i :: 0 <= i < |s| ==> 0.0 <= s[i] <= 1.0
  }

  /**
   * What the Java paint classes guarantee about their stops: at least two,
   * one colour per fraction, fractions strictly increasing within [0, 1].
   */
  predicate ValidStops(fractions: seq<real>, colors: seq<JColor>) {
    && WellFormed(fractions, colors)
    && (forall i :: 0 <= i < |fractions| ==> 0.0 <= fractions[i] <= 1.0)
    && (forall i, j :: 0 <= i < j < |fractions| ==> fractions[i] < fractions[j])
  }

  /** At least two stops, one colour per fraction. */
  predicate WellFormed(fractions: seq<real>, colors: seq<JColor>) {
    |fractions| == |colors| >= 2
  }

  /** The native colours of Java colours under a composite helper. */
  function NetColors(h: Helper, cs: seq<JColor>): (r: seq<NetColor>)
    requires ValidHelper(h)
    ensures |r| == |cs|
    ensures forall i :: 0 <= i < |cs| ==> r[i] == HelperNetColor(h, Some(cs[i]))
  {
    seq(|cs|, i requires 0 <= i < |cs| => HelperNetColor(h, Some(cs[i])))
  }

  // ---------------------------------------------------------------------
  // java.awt.GradientPaint
  // ---------------------------------------------------------------------

  /** The fixed stretch factor used for a non-cyclic GradientPaint. */
  const GradientZoom: real := 60.0

  /**
   * The brush for a GradientPaint from colour n1 at p1 to n2 at p2, the
   * colours as the composite helper converts them.
   */
  function GradientPaintBrush(p1: Point, p2: Point, n1: NetColor, n2: NetColor, cyclic: bool): (r: LinearBrush)
    ensures r.wrap == TileFlipXY
    ensures cyclic ==> r.start == p1 && r.end == p2
    ensures cyclic ==> r.blend.colors == [n1, n2] && r.blend.positions == [0.0, 1.0]
    ensures !cyclic ==> r.blend.colors == [n1, n1, n2, n2]
    ensures |r.blend.positions| == |r.blend.colors|
    ensures r.blend.positions[0] == 0.0 && r.blend.positions[|r.blend.positions| - 1] == 1.0
    ensures Ascending(r.blend.positions) && WithinUnit(r.blend.positions)
  {
    if cyclic then
      LinearBrush(p1, p2, Blend([n1, n2], [0.0, 1.0]), TileFlipXY)
    else
      var z := GradientZoom;
      var dx := p2.x - p1.x;
      var dy := p2.y - p1.y;
      LinearBrush(Point(p1.x - z * dx, p1.y - z * dy), Point(p2.x + z * dx, p2.y + z * dy),
                  Blend([n1, n1, n2, n2], [0.0, z / (2.0 * z + 1.0), (z + 1.0) / (2.0 * z + 1.0), 1.0]),
                  TileFlipXY)
  }

  /**
   * The stretched non-cyclic brush keeps c1 from its start up to p1 and c2
   * from p2 to its end: its inner stops sit exactly on the Java end points.
   */
  lemma GradientStopsOnEndPoints(p1: Point, p2: Point, n1: NetColor, n2: NetColor)
    ensures var r := GradientPaintBrush(p1, p2, n1, n2, false);
      && Lerp(r.start, r.end, r.blend.positions[1]) == p1
      && Lerp(r.start, r.end, r.blend.positions[2]) == p2
      && r.blend.colors[0] == r.blend.colors[1] == n1
      && r.blend.colors[2] == r.blend.colors[3] == n2
  {
    var r := GradientPaintBrush(p1, p2, n1, n2, false);
    StretchedAxisKeepsStops(p1, p2, GradientZoom, 0.0);
    StretchedAxisKeepsStops(p1, p2, GradientZoom, 1.0);
    assert Lerp(p1, p2, 0.0) == p1;
    assert Lerp(p1, p2, 1.0) == p2;
  }

  // ---------------------------------------------------------------------
  // Stretching an axis
  // ---------------------------------------------------------------------

  /** The axis from a to b extended by z axis lengths at both ends. */
  function StretchStart(a: Point, b: Point, z: real): Point {
    Point(a.x - z * (b.x - a.x), a.y - z * (b.y - a.y))
  }

  function StretchEnd(a: Point, b: Point, z: real): Point {
    Point(b.x + z * (b.x - a.x), b.y + z * (b.y - a.y))
  }

  /** Where Java fraction f lands on an axis stretched by z at both ends. */
  function StretchedPosition(z: real, f: real): real
    requires 2.0 * z + 1.0 != 0.0
  {
    (z + f) / (2.0 * z + 1.0)
  }

  /**
   * Remapping a fraction with StretchedPosition and reading it on the
   * stretched axis gives the same point as reading it on the Java axis.
   */
  lemma StretchedAxisKeepsStops(a: Point, b: Point, z: real, f: real)
    requires 2.0 * z + 1.0 != 0.0
    ensures Lerp(StretchStart(a, b, z), StretchEnd(a, b, z), StretchedPosition(z, f)) == Lerp(a, b, f)
  {
    var k := 2.0 * z + 1.0;
    var p := StretchedPosition(z, f);
    assert p * k == z + f;
    var s, e := StretchStart(a, b, z), StretchEnd(a, b, z);
    StretchedCoordinate(a.x, b.x, z, p, f);
    StretchedCoordinate(a.y, b.y, z, p, f);
    assert Lerp(s, e, p).x == Lerp(a, b, f).x;
    assert Lerp(s, e, p).y == Lerp(a, b, f).y;
  }

  lemma StretchedCoordinate(a: real, b: real, z: real, p: real, f: real)
    requires p * (2.0 * z + 1.0) == z + f
    ensures (a - z * (b - a)) + p * ((b + z * (b - a)) - (a - z * (b - a))) == a + f * (b - a)
  {
    var d := b - a;
    assert (b + z * d) - (a - z * d) == (2.0 * z + 1.0) * d;
    calc {
      p * ((2.0 * z + 1.0) * d);
      (p * (2.0 * z + 1.0)) * d;
      (z + f) * d;
    }
  }

  // ---------------------------------------------------------------------
  // Single-precision quotients, as far as the zoom factor needs them
  // ---------------------------------------------------------------------

  /** A float quotient: finite, an infinity, or NaN. */
  datatype Quot = Finite(v: real) | PosInf | NegInf | NaN

  /** a / b in IEEE arithmetic; a zero divisor is the +0 of a difference x - x. */
  function Divide(a: real, b: real): (q: Quot)
    ensures q.Finite? <==> b != 0.0
    ensures q.Finite? ==> q.v * b == a
    ensures q.NaN? <==> a == 0.0 && b == 0.0
    ensures q.PosInf? <==> a > 0.0 && b == 0.0
  {
    if b != 0.0 then Finite(a / b)
    else if a > 0.0 then PosInf
    else if a < 0.0 then NegInf
    else NaN
  }

  /** System.Math.Max on floats: NaN wins, then the larger value. */
  function QMax(a: Quot, b: Quot): (r: Quot)
    ensures r.NaN? <==> a.NaN? || b.NaN?
    ensures a.Finite? && b.Finite? ==> r == Finite(MaxReal(a.v, b.v))
  {
    if a.NaN? || b.NaN? then NaN
    else if a.PosInf? || b.PosInf? then PosInf
    else if a.NegInf? then b
    else if b.NegInf? then a
    else Finite(MaxReal(a.v, b.v))
  }

  /** System.Math.Min on floats: NaN wins, then the smaller value. */
  function QMin(a: Quot, b: Quot): (r: Quot)
    ensures r.NaN? <==> a.NaN? || b.NaN?
    ensures a.Finite? && b.Finite? ==> r == Finite(MinReal(a.v, b.v))
  {
    if a.NaN? || b.NaN? then NaN
    else if a.NegInf? || b.NegInf? then NegInf
    else if a.PosInf? then b
    else if b.PosInf? then a
    else Finite(MinReal(a.v, b.v))
  }

  /** The largest stretch used for a non-cyclic LinearGradientPaint. */
  const MaxZoom: real := 10.0

  /**
   * Math.Min(10, Math.Max(w / dx, h / dy)) for a surface of size w x h and
   * an axis with deltas dx, dy; None when the result is not a finite float.
   */
  function ZoomOf(w: real, h: real, dx: real, dy: real): (z: Option<real>)
    ensures z.Some? ==> z.value <= MaxZoom
    ensures z == None <==> QMin(Finite(MaxZoom), QMax(Divide(w, dx), Divide(h, dy))) == NaN
                           || QMin(Finite(MaxZoom), QMax(Divide(w, dx), Divide(h, dy))) == NegInf
  {
    match QMin(Finite(MaxZoom), QMax(Divide(w, dx), Divide(h, dy)))
    case Finite(v) => Some(v)
    case _ => None
  }

  /** The zoom factor exactly as NetGraphics computes it, from the signed axis deltas. */
  function AxisZoomAsWritten(w: real, h: real, dx: real, dy: real): (z: Option<real>)
    ensures z.Some? ==> z.value <= MaxZoom
  {
    ZoomOf(w, h, dx, dy)
  }

  /** The zoom factor computed from the lengths of the axis deltas. */
  function AxisZoom(w: real, h: real, dx: real, dy: real): (z: Option<real>)
    ensures z.Some? ==> z.value <= MaxZoom
  {
    ZoomOf(w, h, AbsReal(dx), AbsReal(dy))
  }

  /**
   * On a real surface the corrected zoom is a finite factor in [0, 10],
   * unless an axis delta and the matching surface size are both zero.
   * A horizontal or vertical axis gets the full factor.
   */
  lemma AxisZoomInRange(w: real, h: real, dx: real, dy: real)
    requires w >= 0.0 && h >= 0.0
    ensures AxisZoom(w, h, dx, dy) == None <==> (w == 0.0 && dx == 0.0) || (h == 0.0 && dy == 0.0)
    ensures AxisZoom(w, h, dx, dy).Some? ==> 0.0 <= AxisZoom(w, h, dx, dy).value <= MaxZoom
    ensures dy == 0.0 && h > 0.0 && !(w == 0.0 && dx == 0.0) ==> AxisZoom(w, h, dx, dy) == Some(MaxZoom)
  {
    var qx := Divide(w, AbsReal(dx));
    var qy := Divide(h, AbsReal(dy));
    assert qx.Finite? ==> qx.v >= 0.0 by {
      if qx.Finite? { QuotientNonNegative(w, AbsReal(dx)); }
    }
    assert qy.Finite? ==> qy.v >= 0.0 by {
      if qy.Finite? { QuotientNonNegative(h, AbsReal(dy)); }
    }
  }

  lemma QuotientNonNegative(a: real, b: real)
    requires a >= 0.0 && b > 0.0
    ensures a / b >= 0.0
  {
  }

  /**
   * The zoom factor as written can be negative: with the axis pointing up
   * and to the left both quotients are negative.
   */
  lemma AxisZoomAsWrittenNegative()
    ensures AxisZoomAsWritten(100.0, 100.0, -50.0, -50.0) == Some(-2.0)
  {
  }

  // ---------------------------------------------------------------------
  // java.awt.LinearGradientPaint
  // ---------------------------------------------------------------------

  datatype LinearPaint = LinearPaint(start: Point, end: Point, fractions: seq<real>, colors: seq<JColor>, cycle: CycleMethod)

  /** The LinearGradientPaint constructor refuses equal end points. */
  predicate ValidLinear(p: LinearPaint) {
    WellFormed(p.fractions, p.colors) && p.start != p.end
  }

  /** NO_CYCLE and REFLECT tile with flipping; REPEAT tiles plainly. */
  function WrapOf(cycle: CycleMethod): (w: WrapMode)
    ensures w == Tile <==> cycle == Repeat
  {
    match cycle
    case NoCycle => TileFlipXY
    case Reflect => TileFlipXY
    case Repeat => Tile
  }

  /**
   * The positions of the n + 2 stops of the stretched brush: 0, the Java
   * fractions remapped by StretchedPosition, and 1.
   */
  function StretchedPositions(z: real, fractions: seq<real>): (ps: seq<real>)
    requires 2.0 * z + 1.0 != 0.0
    ensures |ps| == |fractions| + 2
    ensures ps[0] == 0.0 && ps[|fractions| + 1] == 1.0
    ensures forall i :: 0 <= i < |fractions| ==> ps[i + 1] == StretchedPosition(z, fractions[i])
  {
    [0.0] + seq(|fractions|, i requires 0 <= i < |fractions| => StretchedPosition(z, fractions[i])) + [1.0]
  }

  /** The colours of the stretched brush: the end colours are repeated at both ends. */
  function StretchedColors(colors: seq<NetColor>): (cs: seq<NetColor>)
    requires |colors| >= 1
    ensures |cs| == |colors| + 2
    ensures cs[1..|colors| + 1] == colors
    ensures cs[0] == colors[0] && cs[|colors| + 1] == colors[|colors| - 1]
  {
    [colors[0]] + colors + [colors[|colors| - 1]]
  }

  /**
   * For a non-negative zoom the stretched positions of ascending fractions
   * in [0, 1] are ascending and stay within [0, 1].
   */
  lemma StretchedPositionsOrdered(z: real, fractions: seq<real>)
    requires 0.0 <= z
    requires forall i :: 0 <= i < |fractions| ==> 0.0 <= fractions[i] <= 1.0
    requires forall i, j :: 0 <= i <= j < |fractions| ==> fractions[i] <= fractions[j]
    ensures Ascending(StretchedPositions(z, fractions))
    ensures WithinUnit(StretchedPositions(z, fractions))
  {
    var ps := StretchedPositions(z, fractions);
    var n := |fractions|;
    forall i | 0 < i <= n
      ensures 0.0 <= ps[i] <= 1.0
    {
      StretchedPositionBounds(z, fractions[i - 1]);
    }
    forall i, j | 0 <= i <= j < |ps|
      ensures ps[i] <= ps[j]
    {
      if 0 < i && j <= n {
        StretchedPositionMonotone(z, fractions[i - 1], fractions[j - 1]);
      }
    }
  }

  /** The brush for a non-cyclic paint once the zoom factor is known. */
  function StretchedBrush(p: LinearPaint, ncs: seq<NetColor>, z: real): LinearBrush
    requires |ncs| >= 1
    requires 2.0 * z + 1.0 != 0.0
  {
    LinearBrush(StretchStart(p.start, p.end, z), StretchEnd(p.start, p.end, z),
                Blend(StretchedColors(ncs), StretchedPositions(z, p.fractions)), TileFlipXY)
  }

  /** The brush for REFLECT and REPEAT paints: the Java stops unchanged. */
  function CyclicBrush(p: LinearPaint, ncs: seq<NetColor>): LinearBrush {
    LinearBrush(p.start, p.end, Blend(ncs, p.fractions), WrapOf(p.cycle))
  }

  /**
   * The LinearGradientPaint brush as NetGraphics builds it on a surface of
   * size w x h, from the paint's colours ncs as the composite helper
   * converts them; None when the float arithmetic leaves the finite range.
   */
  function LinearPaintBrushAsWritten(p: LinearPaint, ncs: seq<NetColor>, w: real, ht: real): (r: Option<LinearBrush>)
    requires ValidLinear(p) && |ncs| == |p.colors|
    ensures p.cycle != NoCycle ==> r == Some(CyclicBrush(p, ncs))
    ensures p.cycle == NoCycle && r.Some? ==>
      exists z :: 2.0 * z + 1.0 != 0.0 && AxisZoomAsWritten(w, ht, p.end.x - p.start.x, p.end.y - p.start.y) == Some(z)
               && r.value == StretchedBrush(p, ncs, z)
  {
    if p.cycle != NoCycle then Some(CyclicBrush(p, ncs))
    else match AxisZoomAsWritten(w, ht, p.end.x - p.start.x, p.end.y - p.start.y)
      case Some(z) => if 2.0 * z + 1.0 != 0.0 then Some(StretchedBrush(p, ncs, z)) else None
      case None => None
  }

  /** The LinearGradientPaint brush with the zoom factor taken from the axis lengths. */
  function LinearPaintBrush(p: LinearPaint, ncs: seq<NetColor>, w: real, ht: real): (r: Option<LinearBrush>)
    requires ValidLinear(p) && |ncs| == |p.colors|
    ensures p.cycle != NoCycle ==> r == Some(CyclicBrush(p, ncs))
    ensures p.cycle == NoCycle && r.Some? ==>
      exists z :: 0.0 <= z <= MaxZoom && r.value == StretchedBrush(p, ncs, z)
    ensures w >= 0.0 && ht >= 0.0 && p.cycle == NoCycle ==>
      (r.Some? <==> !(w == 0.0 && p.end.x == p.start.x) && !(ht == 0.0 && p.end.y == p.start.y))
  {
    if p.cycle != NoCycle then Some(CyclicBrush(p, ncs))
    else
      var dx := p.end.x - p.start.x;
      var dy := p.end.y - p.start.y;
      if w >= 0.0 && ht >= 0.0 then AxisZoomInRange(w, ht, dx, dy); ZoomedBrush(p, ncs, AxisZoom(w, ht, dx, dy))
      else ZoomedBrush(p, ncs, AxisZoom(w, ht, dx, dy))
  }

  function ZoomedBrush(p: LinearPaint, ncs: seq<NetColor>, z: Option<real>): (r: Option<LinearBrush>)
    requires |ncs| >= 1
    ensures r.Some? <==> z.Some? && 0.0 <= z.value
    ensures r.Some? ==> r.value == StretchedBrush(p, ncs, z.value)
  {
    match z
    case Some(v) => if 0.0 <= v then Some(StretchedBrush(p, ncs, v)) else None
    case None => None
  }

  /**
   * With the corrected zoom the stretched stops are ascending and within
   * [0, 1], and each inner stop sits at the point where Java shows its colour.
   */
  lemma StretchedBrushFaithful(p: LinearPaint, ncs: seq<NetColor>, z: real)
    requires ValidStops(p.fractions, p.colors) && |ncs| == |p.colors|
    requires 0.0 <= z
    ensures var r := StretchedBrush(p, ncs, z);
      && Ascending(r.blend.positions) && WithinUnit(r.blend.positions)
      && r.blend.colors[1..|ncs| + 1] == ncs
      && (forall i :: 0 <= i < |p.fractions| ==>
            Lerp(r.start, r.end, r.blend.positions[i + 1]) == Lerp(p.start, p.end, p.fractions[i]))
      && Lerp(p.start, p.end, -z) == r.start && Lerp(p.start, p.end, 1.0 + z) == r.end
  {
    var r := StretchedBrush(p, ncs, z);
    var ps := r.blend.positions;
    forall i | 0 <= i < |p.fractions|
      ensures Lerp(r.start, r.end, ps[i + 1]) == Lerp(p.start, p.end, p.fractions[i])
    {
      StretchedAxisKeepsStops(p.start, p.end, z, p.fractions[i]);
    }
    StretchedPositionsOrdered(z, p.fractions);
  }

  lemma StretchedPositionBounds(z: real, f: real)
    requires 0.0 <= z && 0.0 <= f <= 1.0
    ensures 0.0 <= StretchedPosition(z, f) <= 1.0
  {
    var k := 2.0 * z + 1.0;
    var p := StretchedPosition(z, f);
    assert p * k == z + f;
  }

  lemma StretchedPositionMonotone(z: real, f: real, g: real)
    requires 0.0 <= z && f <= g
    ensures StretchedPosition(z, f) <= StretchedPosition(z, g)
  {
    var k := 2.0 * z + 1.0;
    var p := StretchedPosition(z, f);
    var q := StretchedPosition(z, g);
    assert p * k == z + f && q * k == z + g;
    if p > q {
      assert (p - q) * k > 0.0;
      assert p * k - q * k > 0.0;
    }
  }

  /**
   * With the zoom as written, an axis from (100, 100) to (50, 50) on a
   * 100 x 100 surface gets zoom -2: the stops come out descending, and the
   * brush starts at Java fraction 2, beyond the end point, yet holds the
   * first colour there.
   */
  lemma LinearPaintBrushAsWrittenReversed(c0: JColor, c1: JColor, n0: NetColor, n1: NetColor)
    ensures var p := LinearPaint(Point(100.0, 100.0), Point(50.0, 50.0), [0.0, 1.0], [c0, c1], NoCycle);
      && ValidLinear(p)
      && var r := LinearPaintBrushAsWritten(p, [n0, n1], 100.0, 100.0);
      && r.Some?
      && r.value.blend.positions[1] > r.value.blend.positions[2]
      && r.value.start == Lerp(p.start, p.end, 2.0)
      && r.value.blend.colors[0] == n0
  {
    var p := LinearPaint(Point(100.0, 100.0), Point(50.0, 50.0), [0.0, 1.0], [c0, c1], NoCycle);
    AxisZoomAsWrittenNegative();
    var ps := StretchedPositions(-2.0, p.fractions);
    assert ps[1] == StretchedPosition(-2.0, 0.0);
    assert ps[2] == StretchedPosition(-2.0, 1.0);
  }

  // ---------------------------------------------------------------------
  // java.awt.RadialGradientPaint
  // ---------------------------------------------------------------------

  datatype RadialPaint = RadialPaint(center: Point, radius: real, fractions: seq<real>, colors: seq<JColor>, cycle: CycleMethod)

  /** The RadialGradientPaint constructor demands a positive radius. */
  predicate ValidRadial(p: RadialPaint) {
    WellFormed(p.fractions, p.colors) && p.radius > 0.0
  }

  /** Math.Ceiling. */
  function Ceiling(x: real): (n: int)
    ensures x <= n as real < x + 1.0
  {
    -((-x).Floor)
  }

  /**
   * The number of radius-wide rings, (int)Math.Ceiling(max(w, h) / radius):
   * just enough rings to reach across the whole surface.
   */
  function RingCount(w: real, h: real, radius: real): (n: nat)
    requires w >= 0.0 && h >= 0.0 && radius > 0.0
    ensures radius * n as real >= MaxReal(w, h)
    ensures radius * n as real < MaxReal(w, h) + radius
    ensures n == 0 <==> w == 0.0 && h == 0.0
  {
    var m := MaxReal(w, h);
    var q := m / radius;
    var n := Ceiling(q);
    CeilingTimes(m, q, n, radius);
    n
  }

  lemma CeilingTimes(m: real, q: real, n: int, radius: real)
    requires radius > 0.0 && m >= 0.0 && q == m / radius
    requires q <= n as real < q + 1.0
    ensures n >= 0
    ensures radius * n as real >= m
    ensures radius * n as real < m + radius
    ensures n == 0 <==> m == 0.0
  {
    assert q * radius == m;
    var d := n as real - q;
    assert 0.0 <= d < 1.0;
    assert radius * (1.0 - d) > 0.0;
    assert radius * n as real == m + radius * d;
    if m == 0.0 {
      assert q == 0.0;
    } else {
      assert q > 0.0;
      assert n as real > 0.0;
    }
  }

  /** One stop of the blend: its position and the index of the paint colour it holds. */
  datatype Stop = Stop(position: real, index: nat)

  /**
   * Stop c of ring f (ring 0 is the outermost) as NetGraphics builds it:
   * rings hold the stops in reverse order, REFLECT mirrors the odd rings
   * counted from the outside, and NO_CYCLE copies ring 0 to the innermost
   * ring and fills every other ring with colors[length - 1], the paint's
   * first colour.
   */
  function RingStopAsWritten(cycle: CycleMethod, rings: nat, fr: seq<real>, f: nat, c: nat): (s: Stop)
    requires c < |fr| && f < rings
    ensures s.index < |fr|
  {
    var last := |fr| - 1;
    var j := last - c;
    var mirrored := cycle == Reflect && f % 2 == 1;
    var position :=
      if mirrored then (f as real + fr[c]) / rings as real
      else (f as real + 1.0 - fr[j]) / rings as real;
    var index :=
      if mirrored then c
      else if cycle == NoCycle && f < rings - 1 then 0
      else j;
    Stop(position, index)
  }

  /**
   * Stop c of ring f as Java paints it: ring k = rings - 1 - f counted from
   * the centre is mirrored under REFLECT exactly when k is odd, and under
   * NO_CYCLE every ring beyond the radius holds the paint's last colour.
   */
  function RingStop(cycle: CycleMethod, rings: nat, fr: seq<real>, f: nat, c: nat): (s: Stop)
    requires c < |fr| && f < rings
    ensures s.index < |fr|
  {
    var last := |fr| - 1;
    var j := last - c;
    var k := rings - 1 - f;
    var mirrored := cycle == Reflect && k % 2 == 1;
    var position :=
      if mirrored then (f as real + fr[c]) / rings as real
      else (f as real + 1.0 - fr[j]) / rings as real;
    var index :=
      if mirrored then c
      else if cycle == NoCycle && k > 0 then last
      else j;
    Stop(position, index)
  }

  /**
   * The fraction of the Java gradient shown at distance k + u radii from the
   * centre, for 0 <= u <= 1.
   */
  function JavaFraction(cycle: CycleMethod, k: nat, u: real): real {
    match cycle
    case NoCycle => if k == 0 then u else 1.0
    case Repeat => u
    case Reflect => if k % 2 == 0 then u else 1.0 - u
  }

  /** At fraction x Java shows stop m's colour (ends are held constant). */
  predicate Shows(fr: seq<real>, x: real, m: nat) {
    && m < |fr|
    && (fr[m] == x || (m == 0 && x <= fr[0]) || (m == |fr| - 1 && x >= fr[|fr| - 1]))
  }

  /**
   * A stop of ring f holds the colour Java paints at its distance from the
   * centre: position p is at rings * (1 - p) radii.
   */
  predicate FaithfulStop(cycle: CycleMethod, rings: nat, fr: seq<real>, f: nat, s: Stop)
    requires f < rings
  {
    var k := rings - 1 - f;
    var u := rings as real * (1.0 - s.position) - k as real;
    Shows(fr, JavaFraction(cycle, k, u), s.index)
  }

  /** Every stop of the corrected rings is faithful and lies within its ring's band. */
  lemma RingStopFaithful(cycle: CycleMethod, rings: nat, fr: seq<real>, f: nat, c: nat)
    requires c < |fr| && f < rings
    requires forall i :: 0 <= i < |fr| ==> 0.0 <= fr[i] <= 1.0
    ensures FaithfulStop(cycle, rings, fr, f, RingStop(cycle, rings, fr, f, c))
    ensures var p := RingStop(cycle, rings, fr, f, c).position;
      f as real / rings as real <= p <= (f + 1) as real / rings as real
  {
    var s := RingStop(cycle, rings, fr, f, c);
    var j := |fr| - 1 - c;
    var k := rings - 1 - f;
    var n := rings as real;
    var mirrored := cycle == Reflect && k % 2 == 1;
    var a := if mirrored then f as real + fr[c] else f as real + 1.0 - fr[j];
    assert s.position == a / n;
    RingDistance(n, a);
    var u := n * (1.0 - s.position) - k as real;
    assert u == (if mirrored then 1.0 - fr[c] else fr[j]);
    DivideWithin(f as real, a, (f + 1) as real, n);
  }

  /** Position a / n lies at n - a radii from the centre. */
  lemma RingDistance(n: real, a: real)
    requires n > 0.0
    ensures n * (1.0 - a / n) == n - a
  {
  }

  lemma DivideWithin(lo: real, a: real, hi: real, n: real)
    requires n > 0.0 && lo <= a <= hi
    ensures lo / n <= a / n <= hi / n
  {
  }

  /** The rings of stops, outermost first. */
  function Rings(cycle: CycleMethod, rings: nat, fr: seq<real>): (r: seq<seq<Stop>>)
    ensures |r| == rings
    ensures forall f :: 0 <= f < rings ==> |r[f]| == |fr|
    ensures forall f, c :: 0 <= f < rings && 0 <= c < |r[f]| ==> r[f][c].index < |fr|
  {
    seq(rings, f requires 0 <= f < rings => seq(|fr|, c requires 0 <= c < |fr| => RingStop(cycle, rings, fr, f, c)))
  }

  function RingsAsWritten(cycle: CycleMethod, rings: nat, fr: seq<real>): (r: seq<seq<Stop>>)
    ensures |r| == rings
    ensures forall f :: 0 <= f < rings ==> |r[f]| == |fr|
    ensures forall f, c :: 0 <= f < rings && 0 <= c < |r[f]| ==> r[f][c].index < |fr|
  {
    seq(rings, f requires 0 <= f < rings => seq(|fr|, c requires 0 <= c < |fr| => RingStopAsWritten(cycle, rings, fr, f, c)))
  }

  /** The corrected rings hold Java's colour at every stop. */
  lemma RingsFaithful(cycle: CycleMethod, rings: nat, fr: seq<real>)
    requires forall i :: 0 <= i < |fr| ==> 0.0 <= fr[i] <= 1.0
    ensures var r := Rings(cycle, rings, fr);
      forall f, c :: 0 <= f < rings && 0 <= c < |fr| ==> FaithfulStop(cycle, rings, fr, f, r[f][c])
  {
    var r := Rings(cycle, rings, fr);
    forall f, c | 0 <= f < rings && 0 <= c < |fr|
      ensures FaithfulStop(cycle, rings, fr, f, r[f][c])
    {
      RingStopFaithful(cycle, rings, fr, f, c);
    }
  }

  /**
   * NO_CYCLE as written: with two rings, the boundary of the outer ring
   * holds the paint's first colour where Java shows its last.
   */
  lemma NoCycleFillAsWrittenWrong()
    ensures RingStopAsWritten(NoCycle, 2, [0.0, 1.0], 0, 0) == Stop(0.0, 0)
    ensures !FaithfulStop(NoCycle, 2, [0.0, 1.0], 0, RingStopAsWritten(NoCycle, 2, [0.0, 1.0], 0, 0))
  {
  }

  /**
   * REFLECT as written: with two rings, the centre of the brush holds the
   * paint's last colour although Java shows its first colour there.
   */
  lemma ReflectParityAsWrittenWrong()
    ensures RingStopAsWritten(Reflect, 2, [0.0, 1.0], 1, 1) == Stop(1.0, 1)
    ensures !FaithfulStop(Reflect, 2, [0.0, 1.0], 1, RingStopAsWritten(Reflect, 2, [0.0, 1.0], 1, 1))
  {
  }

  /** The stops of all rings in blend order. */
  function Flatten(rings: seq<seq<Stop>>): seq<Stop> {
    if |rings| == 0 then [] else rings[0] + Flatten(rings[1..])
  }

  /** The blend of the stops, each holding the converted paint colour it indexes. */
  function BlendOf(ncs: seq<NetColor>, stops: seq<Stop>): (b: Blend)
    requires forall i :: 0 <= i < |stops| ==> stops[i].index < |ncs|
    ensures |b.colors| == |b.positions| == |stops|
    ensures forall i :: 0 <= i < |stops| ==>
      b.positions[i] == stops[i].position && b.colors[i] == ncs[stops[i].index]
  {
    Blend(seq(|stops|, i requires 0 <= i < |stops| => ncs[stops[i].index]),
          seq(|stops|, i requires 0 <= i < |stops| => stops[i].position))
  }

  lemma FlattenIndices(rings: seq<seq<Stop>>, n: nat)
    requires forall f, c :: 0 <= f < |rings| && 0 <= c < |rings[f]| ==> rings[f][c].index < n
    ensures forall i :: 0 <= i < |Flatten(rings)| ==> Flatten(rings)[i].index < n
  {
    if |rings| > 0 {
      FlattenIndices(rings[1..], n);
      var r := Flatten(rings);
      forall i | 0 <= i < |r|
        ensures r[i].index < n
      {
        if i >= |rings[0]| {
          assert r[i] == Flatten(rings[1..])[i - |rings[0]|];
        }
      }
    }
  }

  /**
   * The RadialGradientPaint brush built from the given rings, from the
   * paint's colours ncs as the composite helper converts them; with no ring
   * the first store into the empty blend fails.
   */
  function RadialBrushOf(p: RadialPaint, ncs: seq<NetColor>, rings: nat, stops: seq<seq<Stop>>): (r: Result<PathBrush>)
    requires |stops| == rings
    requires forall f, c :: 0 <= f < rings && 0 <= c < |stops[f]| ==> stops[f][c].index < |ncs|
    ensures r.Fail? <==> rings == 0
    ensures r.Ok? ==> r.value.center == p.center && r.value.extent == p.radius * rings as real
  {
    if rings == 0 then Fail(IndexOutOfRange)
    else
      FlattenIndices(stops, |ncs|);
      Ok(PathBrush(p.center, p.radius * rings as real, BlendOf(ncs, Flatten(stops))))
  }

  /** Rings of k stops each, laid end to end: stop c of ring f is entry f * k + c. */
  lemma {:induction false} FlattenIndex(rings: seq<seq<Stop>>, k: nat, f: nat, c: nat)
    requires forall i :: 0 <= i < |rings| ==> |rings[i]| == k
    requires f < |rings| && c < k
    ensures |Flatten(rings)| == |rings| * k
    ensures f * k + c < |Flatten(rings)| && Flatten(rings)[f * k + c] == rings[f][c]
    decreases |rings|
  {
    FlattenLength(rings, k);
    if f > 0 {
      FlattenIndex(rings[1..], k, f - 1, c);
      assert (f - 1) * k + c + k == f * k + c;
    }
  }

  lemma {:induction false} FlattenLength(rings: seq<seq<Stop>>, k: nat)
    requires forall i :: 0 <= i < |rings| ==> |rings[i]| == k
    ensures |Flatten(rings)| == |rings| * k
    decreases |rings|
  {
    if |rings| > 0 {
      FlattenLength(rings[1..], k);
    }
  }

  /**
   * The radial brush holds one blend entry per ring stop, in ring order:
   * entry f * k + c has the position of stop c of ring f and the colour
   * that stop indexes.
   */
  lemma RadialBrushOfStops(p: RadialPaint, ncs: seq<NetColor>, rings: nat, stops: seq<seq<Stop>>, k: nat, f: nat, c: nat)
    requires |stops| == rings
    requires forall i :: 0 <= i < rings ==> |stops[i]| == k
    requires forall i, j :: 0 <= i < rings && 0 <= j < |stops[i]| ==> stops[i][j].index < |ncs|
    requires f < rings && c < k
    ensures var r := RadialBrushOf(p, ncs, rings, stops);
      && r.Ok?
      && |r.value.blend.colors| == |r.value.blend.positions| == rings * k
      && f * k + c < rings * k
      && r.value.blend.positions[f * k + c] == stops[f][c].position
      && r.value.blend.colors[f * k + c] == ncs[stops[f][c].index]
  {
    FlattenIndex(stops, k, f, c);
  }

  function RadialPaintBrushAsWritten(p: RadialPaint, ncs: seq<NetColor>, w: real, ht: real): (r: Result<PathBrush>)
    requires ValidRadial(p) && |ncs| == |p.colors| && w >= 0.0 && ht >= 0.0
    ensures r.Fail? <==> w == 0.0 && ht == 0.0
    ensures r.Ok? ==> r.value.center == p.center && r.value.extent >= MaxReal(w, ht)
  {
    var n := RingCount(w, ht, p.radius);
    var stops := RingsAsWritten(p.cycle, n, p.fractions);
    assert forall f, c :: 0 <= f < n && 0 <= c < |stops[f]| ==> stops[f][c].index < |ncs|;
    RadialBrushOf(p, ncs, n, stops)
  }

  /** The radial brush with Java's colour at every stop. */
  function RadialPaintBrush(p: RadialPaint, ncs: seq<NetColor>, w: real, ht: real): (r: Result<PathBrush>)
    requires ValidRadial(p) && |ncs| == |p.colors| && w >= 0.0 && ht >= 0.0
    ensures r.Fail? <==> w == 0.0 && ht == 0.0
    ensures r.Ok? ==> r.value.center == p.center && r.value.extent >= MaxReal(w, ht)
  {
    var n := RingCount(w, ht, p.radius);
    var stops := Rings(p.cycle, n, p.fractions);
    assert forall f, c :: 0 <= f < n && 0 <= c < |stops[f]| ==> stops[f][c].index < |ncs|;
    RadialBrushOf(p, ncs, n, stops)
  }
}

=== FILE: graphics.dfy ===
/**
 * NetGraphics: the Java2D Graphics2D state kept on top of a
 * System.Drawing.Graphics. The state record holds the Java-side values
 * (colour, paint, composite, hints) next to the native modes and the
 * pen and brush they are translated into.
 */
module Graphics {
  import opened Base
  import opened Colors
  import opened Paths
  import Gradient
  import FontMetrics

  // ---------------------------------------------------------------------
  // Native modes
  // ---------------------------------------------------------------------

  /** System.Drawing.Drawing2D.SmoothingMode. */
  datatype Smoothing = SmoothingDefault | SmoothingHighSpeed | SmoothingHighQuality | SmoothingNone | SmoothingAntiAlias

  /** System.Drawing.Drawing2D.PixelOffsetMode. */
  datatype PixelOffset = PixelOffsetDefault | PixelOffsetHighSpeed | PixelOffsetHighQuality | PixelOffsetNone | PixelOffsetHalf

  /** System.Drawing.Drawing2D.InterpolationMode. */
  datatype Interpolation =
    | InterpolationDefault | Low | High | Bilinear | Bicubic | NearestNeighbor | HighQualityBilinear | HighQualityBicubic

  /** The clip of the native graphics; a shape clip is identified, not described. */
  datatype Clip = Infinite | ClipRect(rect: RealRect) | ClipShape(id: nat) | Intersection(outer: Clip, inner: Clip)

  /** Whether a point lies in a clip, where `inside(id, p)` says whether it lies in shape `id`. */
  predicate InClip(c: Clip, p: Point, inside: (nat, Point) -> bool)
  {
    match c
    case Infinite => true
    case ClipRect(r) => r.x <= p.x < r.x + r.w && r.y <= p.y < r.y + r.h
    case ClipShape(id) => inside(id, p)
    case Intersection(a, b) => InClip(a, p, inside) && InClip(b, p, inside)
  }

  /** The properties of a System.Drawing.Graphics the binding reads and writes. */
  datatype Native = Native(
    transform: Matrix, clip: Clip, smoothing: Smoothing, pixelOffset: PixelOffset,
    textHint: FontMetrics.TextHint, interpolation: Interpolation, compositing: CompositingMode)

  // ---------------------------------------------------------------------
  // Paints and brushes
  // ---------------------------------------------------------------------

  /** The java.awt.Paint kinds setPaint distinguishes; textures and custom paints are identified only. */
  datatype Paint =
    | PColor(color: JColor)
    | PGradient(p1: Point, p2: Point, c1: JColor, c2: JColor, cyclic: bool)
    | PLinear(linear: Gradient.LinearPaint)
    | PRadial(radial: Gradient.RadialPaint)
    | PTexture(id: nat)
    | PCustom(id: nat)

  /** What the Java paint classes guarantee about their own fields. */
  predicate ValidPaint(p: Paint)
  {
    (p.PLinear? ==> Gradient.ValidLinear(p.linear)) && (p.PRadial? ==> Gradient.ValidRadial(p.radial))
  }

  /** The native brush kinds. NonFinite stands for a gradient whose stretch factor is not a number. */
  datatype Brush =
    | Solid(color: NetColor)
    | Linear(linear: Gradient.LinearBrush)
    | PathGradient(path: Gradient.PathBrush)
    | Texture(paintId: nat)
    | NonFinite

  /** A brush object: its identity and what it paints. */
  datatype BrushHandle = BrushHandle(id: nat, brush: Brush)

  /** A pen object: its identity, its colour and the brush it strokes with. */
  datatype PenHandle = PenHandle(id: nat, color: NetColor, brush: BrushHandle)

  // ---------------------------------------------------------------------
  // Rendering hints
  // ---------------------------------------------------------------------

  datatype HintKey = KeyAntialiasing | KeyInterpolation | KeyTextAntialiasing | KeyFractionalMetrics | OtherKey(id: nat)

  datatype HintValue =
    | AntialiasDefault | AntialiasOff | AntialiasOn
    | InterpolationBilinear | InterpolationBicubic | InterpolationNearestNeighbor
    | TextAntialiasDefault | TextAntialiasOff | TextAntialiasOn
    | FractionalMetricsDefault | FractionalMetricsOff | FractionalMetricsOn
    | OtherValue(id: nat)

  /** The key/value pairs setRenderingHint acts on. */
  predicate Recognised(key: HintKey, value: HintValue)
  {
    match key
    case KeyAntialiasing => value in {AntialiasDefault, AntialiasOff, AntialiasOn}
    case KeyInterpolation => value in {InterpolationBilinear, InterpolationBicubic, InterpolationNearestNeighbor}
    case KeyTextAntialiasing => value in {TextAntialiasDefault, TextAntialiasOff, TextAntialiasOn}
    case KeyFractionalMetrics => value in {FractionalMetricsDefault, FractionalMetricsOff, FractionalMetricsOn}
    case OtherKey(_) => false
  }

  // ---------------------------------------------------------------------
  // The state
  // ---------------------------------------------------------------------

  datatype Gfx = Gfx(
    g: Option<Native>,
    color: NetColor,
    bgcolor: NetColor,
    javaColor: Option<JColor>,
    javaPaint: Option<Paint>,
    composite: Helper,
    javaComposite: JComposite,
    pen: Option<PenHandle>,
    brush: Option<BrushHandle>,
    textAntialias: HintValue,
    fractional: HintValue,
    baseline: int,
    nextId: nat)

  /** A constructed NetGraphics: a native graphics, a pen and a brush, and a well-formed composite. */
  predicate Ready(s: Gfx)
  {
    && s.g.Some? && s.pen.Some? && s.brush.Some?
    && s.pen.value.id < s.nextId && s.brush.value.id < s.nextId
    && ValidHelper(s.composite) && ValidComposite(s.javaComposite)
  }

  /** The result of a setter that can throw part-way. */
  datatype Outcome = Outcome(state: Gfx, error: Option<Exception>)

  // ---------------------------------------------------------------------
  // clip
  // ---------------------------------------------------------------------

  /** clip: a null shape resets the clip to infinite; any other shape narrows the clip to its intersection with it. */
  function ClipTo(s: Gfx, shape: Option<nat>): (r: Gfx)
    requires s.g.Some?
    ensures r.g.Some? && r == s.(g := r.g) && r.g.value == s.g.value.(clip := r.g.value.clip)
    ensures shape.None? ==> r.g.value.clip == Infinite
  {
    var n := s.g.value;
    s.(g := Some(n.(clip := if shape.None? then Infinite else Intersection(n.clip, ClipShape(shape.value)))))
  }

  /** After clip(shape) a point is visible exactly when it was visible before and lies in the shape. */
  lemma ClipNarrows(s: Gfx, shape: nat, p: Point, inside: (nat, Point) -> bool)
    requires s.g.Some?
    ensures InClip(ClipTo(s, Some(shape)).g.value.clip, p, inside) <==> InClip(s.g.value.clip, p, inside) && inside(shape, p)
  {
  }

  /** After clip(null) every point is visible. */
  lemma ClipResetShowsAll(s: Gfx, p: Point, inside: (nat, Point) -> bool)
    requires s.g.Some?
    ensures InClip(ClipTo(s, None).g.value.clip, p, inside)
  {
  }

  // ---------------------------------------------------------------------
  // setColor / getPaint / setPaint / setComposite
  // ---------------------------------------------------------------------

  /**
   * setColor: null, or the colour that already is the paint, changes
   * nothing. Otherwise the colour becomes the paint, its native colour
   * goes through the composite helper, a solid brush is recoloured in
   * place (any other brush is replaced by a new solid one), and the pen
   * takes the colour and the brush.
   */
  function SetColor(s: Gfx, c: Option<JColor>): (r: Gfx)
    requires Ready(s)
    ensures Ready(r)
    ensures c.None? || s.javaPaint == Some(PColor(c.value)) ==> r == s
    ensures c.Some? && s.javaPaint != Some(PColor(c.value)) ==>
      && r.javaPaint == Some(PColor(c.value)) && r.javaColor == c
      && r.color == HelperNetColor(s.composite, c)
      && r.brush.value.brush == Solid(r.color)
      && (s.brush.value.brush.Solid? <==> r.brush.value.id == s.brush.value.id)
      && r.pen.value.id == s.pen.value.id && r.pen.value.color == r.color && r.pen.value.brush == r.brush.value
      && r.g == s.g && r.composite == s.composite && r.javaComposite == s.javaComposite
      && r.bgcolor == s.bgcolor && r.baseline == s.baseline
      && r.textAntialias == s.textAntialias && r.fractional == s.fractional
  {
    if c.None? || s.javaPaint == Some(PColor(c.value)) then s
    else
      var color := HelperNetColor(s.composite, c);
      var brush :=
        if s.brush.value.brush.Solid? then BrushHandle(s.brush.value.id, Solid(color))
        else BrushHandle(s.nextId, Solid(color));
      var next := if s.brush.value.brush.Solid? then s.nextId else s.nextId + 1;
      s.(javaPaint := Some(PColor(c.value)), javaColor := c, color := color,
         brush := Some(brush), pen := Some(PenHandle(s.pen.value.id, color, brush)), nextId := next)
  }

  /** Setting the same colour twice is setting it once. */
  lemma SetColorIdempotent(s: Gfx, c: Option<JColor>)
    requires Ready(s)
    ensures SetColor(SetColor(s, c), c) == SetColor(s, c)
  {
  }

  /**
   * getPaint: the current paint; before any paint was set, the Java
   * colour recovered from the native colour through the composite helper,
   * which is then remembered. An empty native colour gives null.
   */
  function GetPaint(s: Gfx): (r: (Option<Paint>, Gfx))
    requires Ready(s)
    requires s.javaPaint.None? ==> InverseDefined(s.composite, s.color)
    ensures s.javaPaint.Some? ==> r == (s.javaPaint, s)
    ensures s.javaPaint.None? ==>
      && (r.0.None? <==> s.color.Empty?)
      && (r.0.Some? ==> r.0.value == PColor(HelperJavaColor(s.composite, s.color).value))
      && r.1 == s.(javaPaint := r.0)
  {
    if s.javaPaint.Some? then (s.javaPaint, s)
    else
      var back := HelperJavaColor(s.composite, s.color);
      var p := if back.None? then None else Some(PColor(back.value));
      (p, s.(javaPaint := p))
  }

  /** Under the identity helper, the recovered paint is the native colour read back as a Java colour. */
  lemma GetPaintUnderIdentity(s: Gfx)
    requires Ready(s) && s.javaPaint.None? && s.composite == Identity && s.color.FromArgb?
    ensures GetPaint(s).0 == Some(PColor(JColor(s.color.argb)))
  {
    IdentityHelperConverts(Identity, None, s.color);
  }

  /** A size as GetSize reports it. */
  datatype Size = Size(width: real, height: real)

  predicate ValidSize(z: Size)
  {
    z.width >= 0.0 && z.height >= 0.0
  }

  /**
   * The native brush setPaint builds for a paint, its colours converted by
   * the composite helper, with the gradient arithmetic as NetGraphics
   * writes it; a radial paint on an empty surface fails with
   * IndexOutOfRange.
   */
  function BrushFor(p: Paint, h: Helper, z: Size): (r: Result<Brush>)
    requires ValidPaint(p) && ValidHelper(h) && ValidSize(z)
    ensures r.Fail? <==> p.PRadial? && z.width == 0.0 && z.height == 0.0
    ensures p.PGradient? ==>
      r == Ok(Linear(Gradient.GradientPaintBrush(p.p1, p.p2, HelperNetColor(h, Some(p.c1)), HelperNetColor(h, Some(p.c2)), p.cyclic)))
    ensures p.PLinear? ==>
      var b := Gradient.LinearPaintBrushAsWritten(p.linear, Gradient.NetColors(h, p.linear.colors), z.width, z.height);
      r == Ok(if b.Some? then Linear(b.value) else NonFinite)
    ensures p.PRadial? && r.Ok? ==>
      r == Ok(PathGradient(Gradient.RadialPaintBrushAsWritten(p.radial, Gradient.NetColors(h, p.radial.colors), z.width, z.height).value))
      && r.value.path.center == p.radial.center && r.value.path.extent >= MaxReal(z.width, z.height)
    ensures p.PTexture? || p.PCustom? ==> r == Ok(Texture(p.id))
    ensures p.PColor? ==> r == Ok(Solid(HelperNetColor(h, Some(p.color))))
  {
    match p
    case PColor(c) => Ok(Solid(HelperNetColor(h, Some(c))))
    case PGradient(p1, p2, c1, c2, cyclic) =>
      Ok(Linear(Gradient.GradientPaintBrush(p1, p2, HelperNetColor(h, Some(c1)), HelperNetColor(h, Some(c2)), cyclic)))
    case PLinear(lp) =>
      var b := Gradient.LinearPaintBrushAsWritten(lp, Gradient.NetColors(h, lp.colors), z.width, z.height);
      Ok(if b.Some? then Linear(b.value) else NonFinite)
    case PRadial(rp) =>
      var b := Gradient.RadialPaintBrushAsWritten(rp, Gradient.NetColors(h, rp.colors), z.width, z.height);
      if b.Ok? then Ok(PathGradient(b.value)) else Fail(b.error)
    case PTexture(id) => Ok(Texture(id))
    case PCustom(id) => Ok(Texture(id))
  }

  /**
   * The brush with the three gradient defects corrected: the NO_CYCLE zoom
   * taken from the axis magnitudes, and every radial stop holding Java's
   * colour at its distance from the centre.
   */
  function BrushForCorrected(p: Paint, h: Helper, z: Size): (r: Result<Brush>)
    requires ValidPaint(p) && ValidHelper(h) && ValidSize(z)
    ensures r.Fail? <==> p.PRadial? && z.width == 0.0 && z.height == 0.0
    ensures p.PLinear? ==>
      var b := Gradient.LinearPaintBrush(p.linear, Gradient.NetColors(h, p.linear.colors), z.width, z.height);
      r == Ok(if b.Some? then Linear(b.value) else NonFinite)
    ensures p.PRadial? && r.Ok? ==>
      r == Ok(PathGradient(Gradient.RadialPaintBrush(p.radial, Gradient.NetColors(h, p.radial.colors), z.width, z.height).value))
    ensures !p.PLinear? && !p.PRadial? ==> r == BrushFor(p, h, z)
  {
    match p
    case PLinear(lp) =>
      var b := Gradient.LinearPaintBrush(lp, Gradient.NetColors(h, lp.colors), z.width, z.height);
      Ok(if b.Some? then Linear(b.value) else NonFinite)
    case PRadial(rp) =>
      var b := Gradient.RadialPaintBrush(rp, Gradient.NetColors(h, rp.colors), z.width, z.height);
      if b.Ok? then Ok(PathGradient(b.value)) else Fail(b.error)
    case _ => BrushFor(p, h, z)
  }

  /**
   * The correction touches only NO_CYCLE linear paints and radial paints:
   * every other paint gets the brush NetGraphics builds.
   */
  lemma BrushForCorrectedAgrees(p: Paint, h: Helper, z: Size)
    requires ValidPaint(p) && ValidHelper(h) && ValidSize(z)
    requires !(p.PLinear? && p.linear.cycle == Gradient.NoCycle) && !p.PRadial?
    ensures BrushForCorrected(p, h, z) == BrushFor(p, h, z)
  {
  }

  /** The NO_CYCLE paint on the reversed axis from (100, 100) to (50, 50). */
  function ReversedAxisPaint(c0: JColor, c1: JColor): Gradient.LinearPaint
  {
    Gradient.LinearPaint(Point(100.0, 100.0), Point(50.0, 50.0), [0.0, 1.0], [c0, c1], Gradient.NoCycle)
  }

  lemma AsWrittenReversedDescends(c0: JColor, c1: JColor, h: Helper)
    requires ValidHelper(h)
    ensures var p := PLinear(ReversedAxisPaint(c0, c1));
      && ValidPaint(p)
      && var b := BrushFor(p, h, Size(100.0, 100.0));
      && b.Ok? && b.value.Linear? && |b.value.linear.blend.positions| >= 3
      && b.value.linear.blend.positions[1] > b.value.linear.blend.positions[2]
  {
    var lp := ReversedAxisPaint(c0, c1);
    var ncs := Gradient.NetColors(h, lp.colors);
    Gradient.LinearPaintBrushAsWrittenReversed(c0, c1, ncs[0], ncs[1]);
    assert ncs == [ncs[0], ncs[1]];
  }

  lemma CorrectedReversedAscends(c0: JColor, c1: JColor, h: Helper)
    requires ValidHelper(h)
    ensures var p := PLinear(ReversedAxisPaint(c0, c1));
      && ValidPaint(p)
      && var b := BrushForCorrected(p, h, Size(100.0, 100.0));
      && b.Ok? && b.value.Linear?
      && Gradient.Ascending(b.value.linear.blend.positions)
  {
    var lp := ReversedAxisPaint(c0, c1);
    var ncs := Gradient.NetColors(h, lp.colors);
    var b := Gradient.LinearPaintBrush(lp, ncs, 100.0, 100.0);
    assert b.Some?;
    var zc :| 0.0 <= zc <= Gradient.MaxZoom && b.value == Gradient.StretchedBrush(lp, ncs, zc);
    Gradient.StretchedPositionsOrdered(zc, lp.fractions);
  }

  /**
   * On the reversed axis from (100, 100) to (50, 50) over a 100 x 100
   * surface the two brushes differ: the one NetGraphics builds has
   * descending stops, the corrected one ascending stops.
   */
  lemma BrushForDiffersOnReversedAxis(c0: JColor, c1: JColor, h: Helper)
    requires ValidHelper(h)
    ensures var p := PLinear(ReversedAxisPaint(c0, c1));
      && ValidPaint(p)
      && var asWritten := BrushFor(p, h, Size(100.0, 100.0));
      && var corrected := BrushForCorrected(p, h, Size(100.0, 100.0));
      && asWritten.Ok? && asWritten.value.Linear?
      && asWritten.value.linear.blend.positions[1] > asWritten.value.linear.blend.positions[2]
      && corrected.Ok? && corrected.value.Linear?
      && Gradient.Ascending(corrected.value.linear.blend.positions)
      && asWritten != corrected
  {
    AsWrittenReversedDescends(c0, c1, h);
    CorrectedReversedAscends(c0, c1, h);
  }

  /**
   * setPaint: null, or the current paint, changes nothing; a colour is
   * handed to setColor. Any other paint is recorded first and then
   * translated into a new brush the pen takes; when the translation
   * throws, the paint stays recorded and the old brush stays in place.
   */
  function SetPaint(s: Gfx, p: Option<Paint>, z: Size): (r: Outcome)
    requires Ready(s) && ValidSize(z)
    requires p.Some? ==> ValidPaint(p.value)
    ensures Ready(r.state)
    ensures p.None? || s.javaPaint == p ==> r == Outcome(s, None)
    ensures p.Some? && s.javaPaint != p && p.value.PColor? ==> r == Outcome(SetColor(s, Some(p.value.color)), None)
    ensures p.Some? && s.javaPaint != p ==> r.state.javaPaint == p
    ensures p.Some? && s.javaPaint != p && !p.value.PColor? ==>
      && r.state.g == s.g && r.state.composite == s.composite && r.state.color == s.color
      && (r.error.None? <==> BrushFor(p.value, s.composite, z).Ok?)
      && (r.error.None? ==> r.state.brush.value.brush == BrushFor(p.value, s.composite, z).value
                            && r.state.pen.value.brush == r.state.brush.value)
      && (r.error.Some? ==> r.error == Some(IndexOutOfRange) && r.state.brush == s.brush)
  {
    if p.None? || s.javaPaint == p then Outcome(s, None)
    else if p.value.PColor? then Outcome(SetColor(s, Some(p.value.color)), None)
    else
      var s1 := s.(javaPaint := p);
      var b := BrushFor(p.value, s.composite, z);
      if b.Fail? then Outcome(s1, Some(b.error))
      else
        var brush := BrushHandle(s.nextId, b.value);
        Outcome(s1.(brush := Some(brush), pen := Some(s.pen.value.(brush := brush)), nextId := s.nextId + 1), None)
  }

  /** After setPaint with a paint, getPaint reads that paint back and changes nothing more. */
  lemma SetPaintReadBack(s: Gfx, p: Paint, z: Size)
    requires Ready(s) && ValidSize(z) && ValidPaint(p)
    ensures var t := SetPaint(s, Some(p), z).state;
      GetPaint(t) == (Some(p), t)
  {
  }

  /**
   * setComposite: the current composite changes nothing and null throws
   * IllegalArgumentException. Otherwise the current paint is read (before
   * the switch), the new helper and compositing mode are installed, and
   * the paint is set again so that its colours go through the new helper.
   */
  function SetComposite(s: Gfx, comp: Option<JComposite>, z: Size): (r: Outcome)
    requires Ready(s) && ValidSize(z)
    requires comp.Some? ==> ValidComposite(comp.value)
    requires s.javaPaint.None? ==> InverseDefined(s.composite, s.color)
    requires s.javaPaint.Some? ==> ValidPaint(s.javaPaint.value)
    ensures Ready(r.state)
    ensures comp == Some(s.javaComposite) ==> r == Outcome(s, None)
    ensures comp.None? ==> r == Outcome(s, Some(IllegalArgument))
    ensures comp.Some? && comp != Some(s.javaComposite) ==>
      && r.state.javaComposite == comp.value
      && r.state.composite == Create(comp.value).helper
      && r.state.g.value.compositing == Create(comp.value).mode
      && r.state.javaPaint == GetPaint(s).0
  {
    if comp == Some(s.javaComposite) then Outcome(s, None)
    else if comp.None? then Outcome(s, Some(IllegalArgument))
    else
      var (prior, s1) := GetPaint(s);
      var created := Create(comp.value);
      var s2 := s1.(javaComposite := comp.value, composite := created.helper,
                    g := Some(s1.g.value.(compositing := created.mode)), javaPaint := None);
      SetPaint(s2, prior, z)
  }

  /**
   * After a composite change the colour paint is the same Java colour,
   * now drawn in the colour the new helper makes of it.
   */
  lemma SetCompositeRederivesColor(s: Gfx, comp: JComposite, c: JColor, z: Size)
    requires Ready(s) && ValidSize(z) && ValidComposite(comp) && comp != s.javaComposite
    requires s.javaPaint == Some(PColor(c))
    ensures var r := SetComposite(s, Some(comp), z);
      && r.error.None?
      && r.state.javaPaint == Some(PColor(c))
      && r.state.color == HelperNetColor(Create(comp).helper, Some(c))
      && r.state.brush.value.brush == Solid(r.state.color)
  {
  }

  // ---------------------------------------------------------------------
  // Rendering hints
  // ---------------------------------------------------------------------

  /**
   * setRenderingHint. `baselineOf` is getBaseline for the current font:
   * by the memoisation it is a function of the text rendering hint.
   * Unrecognised keys and values change nothing.
   */
  function SetRenderingHint(s: Gfx, key: HintKey, value: HintValue, baselineOf: FontMetrics.TextHint -> int): (r: Gfx)
    requires s.g.Some?
    ensures r.g.Some?
    ensures !Recognised(key, value) ==> r == s
    ensures r.color == s.color && r.javaPaint == s.javaPaint && r.pen == s.pen && r.brush == s.brush
    ensures r.composite == s.composite && r.g.value.compositing == s.g.value.compositing
    ensures key == KeyTextAntialiasing && Recognised(key, value) ==>
      r.baseline == baselineOf(r.g.value.textHint) && r.textAntialias == value
  {
    var n := s.g.value;
    match key
    case KeyAntialiasing =>
      if value == AntialiasDefault then s.(g := Some(n.(smoothing := SmoothingDefault, pixelOffset := PixelOffsetDefault)))
      else if value == AntialiasOff then s.(g := Some(n.(smoothing := SmoothingNone, pixelOffset := PixelOffsetDefault)))
      else if value == AntialiasOn then s.(g := Some(n.(smoothing := SmoothingAntiAlias, pixelOffset := PixelOffsetHighQuality)))
      else s
    case KeyInterpolation =>
      if value == InterpolationBilinear then s.(g := Some(n.(interpolation := HighQualityBilinear)))
      else if value == InterpolationBicubic then s.(g := Some(n.(interpolation := HighQualityBicubic)))
      else if value == InterpolationNearestNeighbor then s.(g := Some(n.(interpolation := NearestNeighbor)))
      else s
    case KeyTextAntialiasing =>
      if value == TextAntialiasDefault || value == TextAntialiasOff then
        SetTextRenderingHint(s, FontMetrics.SingleBitPerPixelGridFit, baselineOf).(textAntialias := value)
      else if value == TextAntialiasOn then
        SetTextRenderingHint(s, FontMetrics.AntiAlias, baselineOf).(textAntialias := value)
      else s
    case KeyFractionalMetrics =>
      if value in {FractionalMetricsDefault, FractionalMetricsOff, FractionalMetricsOn} then s.(fractional := value)
      else s
    case OtherKey(_) => s
  }

  /** setTextRenderingHint: the native hint changes and the baseline is looked up again. */
  function SetTextRenderingHint(s: Gfx, hint: FontMetrics.TextHint, baselineOf: FontMetrics.TextHint -> int): (r: Gfx)
    requires s.g.Some?
    ensures r.g == Some(s.g.value.(textHint := hint)) && r.baseline == baselineOf(hint)
    ensures r == s.(g := r.g, baseline := r.baseline)
  {
    s.(g := Some(s.g.value.(textHint := hint)), baseline := baselineOf(hint))
  }

  /**
   * The text rendering hint keeps only the last value set: a second call
   * undoes every trace of the first, the baseline included.
   */
  lemma TextHintLastWins(s: Gfx, h1: FontMetrics.TextHint, h2: FontMetrics.TextHint, baselineOf: FontMetrics.TextHint -> int)
    requires s.g.Some?
    ensures SetTextRenderingHint(SetTextRenderingHint(s, h1, baselineOf), h2, baselineOf) == SetTextRenderingHint(s, h2, baselineOf)
    ensures SetTextRenderingHint(s, s.g.value.textHint, baselineOf) == s <==> s.baseline == baselineOf(s.g.value.textHint)
  {
  }

  /** getRenderingHints: the hints read back from the native modes and the stored text and metrics hints. */
  function GetRenderingHints(s: Gfx): (m: map<HintKey, HintValue>)
    requires s.g.Some?
    ensures KeyTextAntialiasing in m && m[KeyTextAntialiasing] == s.textAntialias
    ensures KeyFractionalMetrics in m && m[KeyFractionalMetrics] == s.fractional
    ensures KeyAntialiasing in m <==>
      s.g.value.smoothing in {SmoothingDefault, SmoothingNone, SmoothingAntiAlias}
    ensures KeyInterpolation in m <==>
      s.g.value.interpolation in {Bilinear, HighQualityBilinear, Bicubic, HighQualityBicubic, NearestNeighbor}
    ensures forall k :: k in m ==> !k.OtherKey?
  {
    var n := s.g.value;
    var aa: map<HintKey, HintValue> :=
      match n.smoothing
      case SmoothingDefault => map[KeyAntialiasing := AntialiasDefault]
      case SmoothingNone => map[KeyAntialiasing := AntialiasOff]
      case SmoothingAntiAlias => map[KeyAntialiasing := AntialiasOn]
      case _ => map[];
    var ip: map<HintKey, HintValue> :=
      match n.interpolation
      case Bilinear => map[KeyInterpolation := InterpolationBilinear]
      case HighQualityBilinear => map[KeyInterpolation := InterpolationBilinear]
      case Bicubic => map[KeyInterpolation := InterpolationBicubic]
      case HighQualityBicubic => map[KeyInterpolation := InterpolationBicubic]
      case NearestNeighbor => map[KeyInterpolation := InterpolationNearestNeighbor]
      case _ => map[];
    aa + ip + map[KeyTextAntialiasing := s.textAntialias, KeyFractionalMetrics := s.fractional]
  }

  /** Every recognised hint reads back as the value it was set to. */
  lemma HintReadBack(s: Gfx, key: HintKey, value: HintValue, baselineOf: FontMetrics.TextHint -> int)
    requires s.g.Some? && Recognised(key, value)
    ensures var m := GetRenderingHints(SetRenderingHint(s, key, value, baselineOf));
            key in m && m[key] == value
  {
  }

  /** Setting one hint leaves the read-back of every other hint as it was. */
  lemma HintsIndependent(s: Gfx, key: HintKey, value: HintValue, other: HintKey, baselineOf: FontMetrics.TextHint -> int)
    requires s.g.Some? && other != key
    ensures var before := GetRenderingHints(s);
            var after := GetRenderingHints(SetRenderingHint(s, key, value, baselineOf));
            (other in before <==> other in after) && (other in before ==> before[other] == after[other])
  {
    var t := SetRenderingHint(s, key, value, baselineOf);
    if key != KeyAntialiasing {
      assert t.g.value.smoothing == s.g.value.smoothing;
    }
    if key != KeyInterpolation {
      assert t.g.value.interpolation == s.g.value.interpolation;
    }
    if key != KeyTextAntialiasing {
      assert t.textAntialias == s.textAntialias;
    }
    if key != KeyFractionalMetrics {
      assert t.fractional == s.fractional;
    }
  }

  /** isFractionalMetrics. */
  predicate FractionalMetrics(s: Gfx)
  {
    s.fractional == FractionalMetricsOn
  }

  // ---------------------------------------------------------------------
  // Lines, arcs, background
  // ---------------------------------------------------------------------

  /**
   * drawLine: GDI+ leaves out the last pixel, so a line whose end points
   * coincide is drawn to a point a hundredth of a pixel away.
   */
  function DrawLine(x1: int, y1: int, x2: int, y2: int): (r: (Point, Point))
    ensures r.0 == Point(x1 as real, y1 as real)
    ensures (x1, y1) != (x2, y2) ==> r.1 == Point(x2 as real, y2 as real)
    ensures (x1, y1) == (x2, y2) ==> r.1 == Point(x1 as real + 1.0 / 100.0, y2 as real + 1.0 / 100.0)
  {
    if x1 == x2 && y1 == y2 then (Point(x1 as real, y1 as real), Point(x1 as real + 0.01, y2 as real + 0.01))
    else (Point(x1 as real, y1 as real), Point(x2 as real, y2 as real))
  }

  /** The native segment never degenerates, and it lies within a hundredth of a pixel of the Java one. */
  lemma DrawLineNeverDegenerate(x1: int, y1: int, x2: int, y2: int)
    ensures DrawLine(x1, y1, x2, y2).0 != DrawLine(x1, y1, x2, y2).1
    ensures AbsReal(DrawLine(x1, y1, x2, y2).1.x - x2 as real) <= 1.0 / 100.0
    ensures AbsReal(DrawLine(x1, y1, x2, y2).1.y - y2 as real) <= 1.0 / 100.0
  {
  }

  /** A native DrawArc/FillPie call: bounding box, start angle and sweep in degrees. */
  datatype Arc = Arc(x: int, y: int, width: int, height: int, start: int, sweep: int)

  /**
   * drawArc and fillArc: Java measures angles counter-clockwise, GDI+
   * clockwise, so the native start is 360 - start - sweep (in unchecked
   * 32-bit arithmetic) and the sweep is kept.
   */
  function FlipArc(x: int, y: int, width: int, height: int, start: int, sweep: int): (r: Arc)
    requires -0x8000_0000 <= start < 0x8000_0000 && -0x8000_0000 <= sweep < 0x8000_0000
    ensures r.x == x && r.y == y && r.width == width && r.height == height && r.sweep == sweep
    ensures (r.start + start + sweep - 360) % TwoTo32 == 0
  {
    Arc(x, y, width, height, Wrap32(Wrap32(360 - start) - sweep), sweep)
  }

  /**
   * The flip mirrors the arc about the horizontal axis: the native arc
   * ends where the Java arc starts, and flipping twice restores the
   * Java start angle whenever no intermediate value overflows.
   */
  lemma FlipArcMirrors(start: int, sweep: int)
    requires -0x1000_0000 <= start < 0x1000_0000 && -0x1000_0000 <= sweep < 0x1000_0000
    ensures FlipArc(0, 0, 0, 0, start, sweep).start == 360 - start - sweep
    ensures FlipArc(0, 0, 0, 0, start, sweep).start + sweep == 360 - start
    ensures FlipArc(0, 0, 0, 0, FlipArc(0, 0, 0, 0, start, sweep).start, sweep).start == start
  {
  }

  /** setBackground: null is Color.Empty, any other colour keeps its alpha. */
  function SetBackground(s: Gfx, c: Option<JColor>): (r: Gfx)
    ensures r.bgcolor == ToNetColor(c) && r == s.(bgcolor := r.bgcolor)
  {
    s.(bgcolor := ToNetColor(c))
  }

  /** getBackground. */
  function GetBackground(s: Gfx): (r: Option<JColor>)
    ensures r.None? <==> s.bgcolor.Empty?
  {
    ToJavaColor(s.bgcolor)
  }

  /** The background reads back as it was set. */
  lemma BackgroundRoundTrip(s: Gfx, c: Option<JColor>)
    ensures GetBackground(SetBackground(s, c)) == c
  {
    JavaColorRoundTrip(c);
  }

  // ---------------------------------------------------------------------
  // drawString
  // ---------------------------------------------------------------------

  /** One native DrawString call, with the compositing mode in force while it runs. */
  datatype TextCall = TextCall(text: string, x: real, y: real, mode: CompositingMode)

  /** The font metrics' charWidth of each character. */
  function Widths(measure: string -> real): char -> int
  {
    (c: char) => FontMetrics.CharWidth(c, measure)
  }

  /** The sum of the integer character widths of `s`. */
  function Advance(s: string, width: char -> int): int
  {
    if |s| == 0 then 0 else Advance(s[..|s| - 1], width) + width(s[|s| - 1])
  }

  /** Advances add up over concatenation. */
  lemma {:induction false} AdvanceAppend(a: string, b: string, width: char -> int)
    ensures Advance(a + b, width) == Advance(a, width) + Advance(b, width)
    decreases |b|
  {
    if |b| == 0 {
      assert a + b == a;
    } else {
      var b' := b[..|b| - 1];
      assert (a + b)[..|a + b| - 1] == a + b';
      assert (a + b)[|a + b| - 1] == b[|b| - 1];
      AdvanceAppend(a, b', width);
    }
  }

  /** The texts of the calls, one after the other. */
  function Joined(calls: seq<TextCall>): string
  {
    if |calls| == 0 then [] else Joined(calls[..|calls| - 1]) + calls[|calls| - 1].text
  }

  /** One call per character, each drawing that character, together draw the text. */
  lemma {:induction false} JoinedGlyphs(calls: seq<TextCall>, text: string)
    requires |calls| == |text|
    requires forall i :: 0 <= i < |text| ==> calls[i].text == [text[i]]
    ensures Joined(calls) == text
    decreases |text|
  {
    if |text| > 0 {
      var n := |text| - 1;
      JoinedGlyphs(calls[..n], text[..n]);
      assert text == text[..n] + [text[n]];
    }
  }

  /**
   * drawString(text, x, y). The empty string draws nothing. Otherwise
   * the compositing mode is SourceOver while drawing and afterwards is
   * what it was. With fractional metrics, or a string the font cannot
   * place glyph by glyph (`simple` is false), one call draws the whole
   * text at y - baseline; otherwise each character is drawn on its own,
   * x advancing by the font metrics' charWidth.
   */
  method DrawString(s: Gfx, text: string, x: real, y: real, simple: bool, measure: string -> real)
    returns (calls: seq<TextCall>, r: Gfx)
    requires s.g.Some?
    ensures r == s
    ensures text == [] ==> calls == []
    ensures forall i :: 0 <= i < |calls| ==> calls[i].mode == SourceOver
    ensures text != [] && (FractionalMetrics(s) || !simple) ==>
      calls == [TextCall(text, x, y - s.baseline as real, SourceOver)]
    ensures text != [] && !FractionalMetrics(s) && simple ==>
      && |calls| == |text|
      && forall i :: 0 <= i < |text| ==>
           calls[i].text == [text[i]] && calls[i].y == y - s.baseline as real
           && calls[i].x == x + Advance(text[..i], Widths(measure)) as real
    ensures Joined(calls) == text
  {
    r := s;
    calls := [];
    if |text| == 0 {
      return;
    }
    var origMode := s.g.value.compositing;
    if origMode != SourceOver {
      r := r.(g := Some(r.g.value.(compositing := SourceOver)));
    }
    if FractionalMetrics(s) || !simple {
      calls := [TextCall(text, x, y - s.baseline as real, r.g.value.compositing)];
      assert Joined(calls) == Joined([]) + text;
    } else {
      calls := PlaceGlyphs(text, x, y - s.baseline as real, r.g.value.compositing, Widths(measure));
      JoinedGlyphs(calls, text);
    }
    if origMode != SourceOver {
      r := r.(g := Some(r.g.value.(compositing := origMode)));
    }
  }

  /** The glyph-by-glyph loop of drawString: one call per character, x advancing by charWidth. */
  method PlaceGlyphs(text: string, x: real, y: real, mode: CompositingMode, width: char -> int)
    returns (calls: seq<TextCall>)
    ensures |calls| == |text|
    ensures forall i :: 0 <= i < |text| ==>
      calls[i] == TextCall([text[i]], x + Advance(text[..i], width) as real, y, mode)
  {
    calls := [];
    var cx := x;
    var i := 0;
    while i < |text|
      invariant 0 <= i <= |text|
      invariant |calls| == i
      invariant cx == x + Advance(text[..i], width) as real
      invariant forall j :: 0 <= j < i ==>
        calls[j] == TextCall([text[j]], x + Advance(text[..j], width) as real, y, mode)
    {
      calls := calls + [TextCall([text[i]], cx, y, mode)];
      GlyphsAbut(text, i, width);
      cx := cx + width(text[i]) as real;
      i := i + 1;
    }
  }

  /**
   * Drawn glyph by glyph, the characters sit side by side: each starts
   * where the previous one's charWidth ends.
   */
  lemma GlyphsAbut(text: string, i: nat, width: char -> int)
    requires i < |text|
    ensures Advance(text[..i + 1], width) == Advance(text[..i], width) + width(text[i])
  {
    assert text[..i + 1][..i] == text[..i];
  }
}

=== FILE: graphics_environment.dfy ===
/**
 * NetGraphicsEnvironment and NetGraphicsConfiguration: the font family
 * list, the screen devices, and the compatible images, colour models and
 * bounds of a screen's configuration.
 */
module GraphicsEnvironment {
  import opened Base
  import opened Paths
  import Fonts

  // ---------------------------------------------------------------------
  // String order
  // ---------------------------------------------------------------------

  /** Ordinal string order: `a` sorts before or equal to `b`. */
  predicate Below(a: string, b: string)
    decreases |a|
  {
    |a| == 0 || (|b| > 0 && (a[0] < b[0] || (a[0] == b[0] && Below(a[1..], b[1..]))))
  }

  lemma {:induction false} BelowTotal(a: string, b: string)
    ensures Below(a, b) || Below(b, a)
    decreases |a|
  {
    if |a| > 0 && |b| > 0 && a[0] == b[0] {
      BelowTotal(a[1..], b[1..]);
    }
  }

  lemma {:induction false} BelowTransitive(a: string, b: string, c: string)
    requires Below(a, b) && Below(b, c)
    ensures Below(a, c)
    decreases |a|
  {
    if |a| > 0 && a[0] == b[0] && b[0] == c[0] {
      BelowTransitive(a[1..], b[1..], c[1..]);
    }
  }

  /** Neighbours in order. */
  predicate Sorted(s: seq<string>)
  {
    forall i :: 0 < i < |s| ==> Below(s[i - 1], s[i])
  }

  /** Every earlier name sorts before every later one. */
  lemma {:induction false} SortedPairwise(s: seq<string>, i: int, j: int)
    requires Sorted(s) && 0 <= i <= j < |s|
    ensures Below(s[i], s[j])
    decreases j - i
  {
    if i == j {
      BelowReflexive(s[i]);
    } else {
      SortedPairwise(s, i, j - 1);
      BelowTransitive(s[i], s[j - 1], s[j]);
    }
  }

  lemma {:induction false} BelowReflexive(a: string)
    ensures Below(a, a)
    decreases |a|
  {
    if |a| > 0 {
      BelowReflexive(a[1..]);
    }
  }

  // ---------------------------------------------------------------------
  // Array.Sort as insertion into a sorted list
  // ---------------------------------------------------------------------

  function InsertSorted(x: string, s: seq<string>): (r: seq<string>)
    ensures multiset(r) == multiset(s) + multiset{x}
    decreases |s|
  {
    if |s| == 0 then [x]
    else if Below(x, s[0]) then [x] + s
    else
      assert s == [s[0]] + s[1..];
      [s[0]] + InsertSorted(x, s[1..])
  }

  lemma {:induction false} InsertSortedKeepsOrder(x: string, s: seq<string>)
    requires Sorted(s)
    ensures Sorted(InsertSorted(x, s))
    ensures multiset(InsertSorted(x, s)) == multiset(s) + multiset{x}
    ensures |InsertSorted(x, s)| > 0 && (InsertSorted(x, s)[0] == x || (|s| > 0 && InsertSorted(x, s)[0] == s[0]))
    decreases |s|
  {
    if |s| == 0 {
    } else if Below(x, s[0]) {
      assert s == [s[0]] + s[1..];
    } else {
      var rest := InsertSorted(x, s[1..]);
      InsertSortedKeepsOrder(x, s[1..]);
      BelowTotal(x, s[0]);
      assert s == [s[0]] + s[1..];
      var r := [s[0]] + rest;
      forall i | 0 < i < |r|
        ensures Below(r[i - 1], r[i])
      {
        if i == 1 {
          if rest[0] != x {
            assert rest[0] == s[1];
          }
        } else {
          assert r[i - 1] == rest[i - 2] && r[i] == rest[i - 1];
        }
      }
    }
  }

  /** Array.Sort on strings, in ordinal order. */
  function SortNames(s: seq<string>): (r: seq<string>)
    ensures multiset(r) == multiset(s)
    decreases |s|
  {
    if |s| == 0 then []
    else
      assert s == [s[0]] + s[1..];
      InsertSorted(s[0], SortNames(s[1..]))
  }

  /** The sorted array is ordered and holds exactly the names it was given. */
  lemma {:induction false} SortNamesSorts(s: seq<string>)
    ensures Sorted(SortNames(s))
    ensures multiset(SortNames(s)) == multiset(s)
    decreases |s|
  {
    if |s| > 0 {
      SortNamesSorts(s[1..]);
      InsertSortedKeepsOrder(s[0], SortNames(s[1..]));
      assert s == [s[0]] + s[1..];
    }
  }

  // ---------------------------------------------------------------------
  // Font families
  // ---------------------------------------------------------------------

  /** The five logical font names, in the order they are appended. */
  const LogicalNames: seq<string> := ["Dialog", "DialogInput", "Serif", "SansSerif", "Monospaced"]

  /**
   * getAvailableFontFamilyNames: the localized name of every installed
   * family followed by the five logical names, sorted.
   */
  method FamilyNames(families: seq<string>) returns (names: seq<string>)
    ensures |names| == |families| + 5
    ensures multiset(names) == multiset(families) + multiset(LogicalNames)
    ensures Sorted(names)
    ensures forall n :: n in LogicalNames ==> n in names
  {
    var results: seq<string> := [];
    var i := 0;
    while i < |families|
      invariant 0 <= i <= |families|
      invariant results == families[..i]
    {
      results := results + [families[i]];
      assert families[..i + 1] == families[..i] + [families[i]];
      i := i + 1;
    }
    assert families[..i] == families;
    results := results + ["Dialog", "DialogInput", "Serif", "SansSerif", "Monospaced"];
    SortNamesSorts(results);
    names := SortNames(results);
    assert |names| == |multiset(names)| == |multiset(results)| == |results|;
    LogicalNamesListed(names, families);
  }

  /** Each logical name is on the list, whatever is installed. */
  lemma LogicalNamesListed(names: seq<string>, families: seq<string>)
    requires multiset(names) == multiset(families) + multiset(LogicalNames)
    ensures forall n :: n in LogicalNames ==> n in names
  {
    forall n | n in LogicalNames
      ensures n in names
    {
      assert n in multiset(LogicalNames);
      assert n in multiset(names);
    }
  }

  /** getAllFonts: a plain font of size 1 for each family name. */
  function AllFonts(names: seq<string>): (fonts: seq<Fonts.JavaFont>)
    ensures |fonts| == |names|
    ensures forall i :: 0 <= i < |fonts| ==> fonts[i].name == names[i] && fonts[i].style == 0 && fonts[i].size == 1
  {
    seq(|names|, (i: int) requires 0 <= i < |names| => Fonts.JavaFont(names[i], 0, 1, 1.0))
  }

  /** The fonts name the same families, in the same order, as the family list. */
  lemma AllFontsNameFamilies(names: seq<string>)
    ensures seq(|AllFonts(names)|, (i: int) requires 0 <= i < |AllFonts(names)| => AllFonts(names)[i].name) == names
  {
  }

  // ---------------------------------------------------------------------
  // Screens and configurations
  // ---------------------------------------------------------------------

  /** A screen's bounds and working area (the bounds minus task bars). */
  datatype Screen = Screen(bounds: IntRect, workingArea: IntRect)

  datatype Device = Device(screen: Screen)

  /** getScreenDevices: one device per screen, in the screens' order. */
  method ScreenDevices(screens: seq<Screen>) returns (devices: seq<Device>)
    ensures |devices| == |screens|
    ensures forall i :: 0 <= i < |devices| ==> devices[i].screen == screens[i]
  {
    devices := [];
    var i := 0;
    while i < |screens|
      invariant 0 <= i <= |screens|
      invariant |devices| == i
      invariant forall k :: 0 <= k < i ==> devices[k].screen == screens[k]
    {
      devices := devices + [Device(screens[i])];
      i := i + 1;
    }
  }

  /** java.awt.Transparency. */
  const Opaque: int := 1
  const Bitmask: int := 2
  const Translucent: int := 3

  /** BufferedImage types. */
  datatype ImageType = IntRgb | IntArgb | IntArgbPre

  datatype Image = Image(width: int, height: int, imageType: ImageType)

  /** The transparency a BufferedImage of each type reports. */
  function TransparencyOf(t: ImageType): int
  {
    match t
    case IntRgb => Opaque
    case IntArgb => Translucent
    case IntArgbPre => Translucent
  }

  /**
   * new BufferedImage(w, h, type): the raster the colour model builds
   * rejects a width or height that is not positive with
   * IllegalArgumentException.
   */
  function NewBufferedImage(width: int, height: int, t: ImageType): (r: Result<Image>)
    ensures r.Fail? <==> width <= 0 || height <= 0
    ensures r.Fail? ==> r.error == IllegalArgument
    ensures r.Ok? ==> r.value == Image(width, height, t)
  {
    if width <= 0 || height <= 0 then Fail(IllegalArgument) else Ok(Image(width, height, t))
  }

  /**
   * createCompatibleImage(w, h, transparency): INT_RGB for OPAQUE,
   * INT_ARGB_PRE for BITMASK, INT_ARGB for TRANSLUCENT; any other value
   * throws IllegalArgumentException before an image is built, and so does
   * the image constructor for a size that is not positive.
   */
  function CreateCompatibleImage(width: int, height: int, transparency: int): (r: Result<Image>)
    ensures r.Fail? <==> transparency !in {Opaque, Bitmask, Translucent} || width <= 0 || height <= 0
    ensures r.Fail? ==> r.error == IllegalArgument
    ensures r.Ok? ==> r.value.width == width && r.value.height == height
    ensures r.Ok? ==> TransparencyOf(r.value.imageType) >= transparency
    ensures r.Ok? && transparency != Bitmask ==> TransparencyOf(r.value.imageType) == transparency
  {
    if transparency == Opaque then NewBufferedImage(width, height, IntRgb)
    else if transparency == Bitmask then NewBufferedImage(width, height, IntArgbPre)
    else if transparency == Translucent then NewBufferedImage(width, height, IntArgb)
    else Fail(IllegalArgument)
  }

  /** createCompatibleImage(w, h): a translucent image, the one TRANSLUCENT asks for. */
  function CreateDefaultImage(width: int, height: int): (r: Result<Image>)
    ensures r.Fail? <==> width <= 0 || height <= 0
    ensures r.Fail? ==> r.error == IllegalArgument
    ensures r.Ok? ==> r.value.width == width && r.value.height == height
    ensures r.Ok? ==> TransparencyOf(r.value.imageType) == Translucent
    ensures CreateCompatibleImage(width, height, Translucent) == r
  {
    NewBufferedImage(width, height, IntArgb)
  }

  datatype ColorModel = RgbDefault

  /** getColorModel(transparency): the default ARGB model for TRANSLUCENT, null for anything else. */
  function GetColorModel(transparency: int): (r: Option<ColorModel>)
    ensures r.Some? <==> transparency == Translucent
  {
    if transparency == Translucent then Some(RgbDefault) else None
  }

  /** For a positive size, a colour model is offered exactly for the transparency whose image is plain INT_ARGB. */
  lemma ColorModelMatchesImage(width: int, height: int, transparency: int)
    requires width > 0 && height > 0
    ensures GetColorModel(transparency).Some? <==> CreateCompatibleImage(width, height, transparency) == Ok(Image(width, height, IntArgb))
  {
  }

  /** getBounds: the screen's bounds. */
  function GetBounds(s: Screen): (r: IntRect)
    ensures r == s.bounds
  {
    s.bounds
  }

  /** getDefaultTransform: a new AffineTransform, the identity. */
  function DefaultTransform(): (t: AffineTransform)
    ensures forall p: Point :: ApplyAffine(t, p) == p
  {
    AffineTransform(1.0, 0.0, 0.0, 1.0, 0.0, 0.0)
  }
}

=== FILE: graphics_state.dfy ===
/**
 * NetGraphicsState: a snapshot of a NetGraphics' native modes and of
 * clones of its pen and brush, and the re-application of that snapshot
 * (also used by NetGraphics.init to carry state over to a new native
 * graphics).
 */
module GraphicsState {
  import opened Base
  import opened Colors
  import opened Graphics
  import FontMetrics

  /**
   * The snapshot: the native modes once a graphics was saved (None while
   * savedGraphics is false) and the cloned pen and brush, if any.
   */
  datatype Snapshot = Snapshot(native: Option<Native>, pen: Option<PenHandle>, brush: Option<BrushHandle>)

  const Empty: Snapshot := Snapshot(None, None, None)

  /** Object.Clone of a pen or brush: the same contents under a new identity. */
  function ClonePen(p: PenHandle, id: nat): PenHandle { p.(id := id) }
  function CloneBrush(b: BrushHandle, id: nat): BrushHandle { b.(id := id) }

  /**
   * saveGraphics. A null NetGraphics changes nothing. Otherwise the native
   * modes are recorded when there is a native graphics, and the pen and
   * brush are cloned when both exist; the clones take fresh identities.
   */
  function SaveGraphics(st: Snapshot, netG: Option<Gfx>): (r: (Snapshot, Option<Gfx>))
    ensures netG.None? ==> r == (st, netG)
    ensures netG.Some? ==> r.1.Some? && r.1.value == netG.value.(nextId := r.1.value.nextId)
    ensures netG.Some? ==> r.0.native == (if netG.value.g.Some? then netG.value.g else st.native)
    ensures netG.Some? && netG.value.pen.Some? && netG.value.brush.Some? ==>
      && r.0.pen.Some? && r.0.brush.Some?
      && r.0.pen.value.(id := 0) == netG.value.pen.value.(id := 0)
      && r.0.brush.value.(id := 0) == netG.value.brush.value.(id := 0)
      && netG.value.nextId <= r.0.pen.value.id < r.1.value.nextId
      && netG.value.nextId <= r.0.brush.value.id < r.1.value.nextId
      && r.0.pen.value.id != r.0.brush.value.id
    ensures netG.Some? && !(netG.value.pen.Some? && netG.value.brush.Some?) ==>
      r.0.pen == st.pen && r.0.brush == st.brush && r.1 == netG
  {
    if netG.None? then (st, netG)
    else
      var s := netG.value;
      var native := if s.g.Some? then s.g else st.native;
      if s.pen.Some? && s.brush.Some? then
        (Snapshot(native, Some(ClonePen(s.pen.value, s.nextId)), Some(CloneBrush(s.brush.value, s.nextId + 1))),
         Some(s.(nextId := s.nextId + 2)))
      else (Snapshot(native, st.pen, st.brush), netG)
  }

  /** The outcome of restoreGraphics: the NetGraphics afterwards and the exception it raised, if any. */
  datatype Restored = Restored(target: Option<Gfx>, error: Option<Exception>)

  /**
   * restoreGraphics. A null NetGraphics changes nothing. With a native
   * graphics, a saved snapshot re-applies every recorded mode (the text
   * hint through setTextRenderingHint, which also looks the baseline up
   * again); an unsaved one only selects nearest-neighbour interpolation.
   * Then the NetGraphics gets fresh clones of the saved pen and brush,
   * or, when none were saved, a new pen and solid brush of its colour and
   * the default text antialiasing hint, which dereferences the native
   * graphics and so throws when there is none.
   */
  function RestoreGraphics(st: Snapshot, netG: Option<Gfx>, baselineOf: FontMetrics.TextHint -> int): (r: Restored)
    ensures netG.None? ==> r == Restored(None, None)
    ensures netG.Some? ==> r.target.Some?
    ensures netG.Some? && netG.value.g.Some? && st.native.Some? ==>
      && r.target.value.g.Some?
      && r.target.value.g.value.(textHint := st.native.value.textHint) == st.native.value
      && (st.pen.Some? && st.brush.Some? ==> r.target.value.g == st.native)
      && (st.pen.Some? && st.brush.Some? ==> r.target.value.baseline == baselineOf(st.native.value.textHint))
    ensures netG.Some? && netG.value.g.Some? && st.native.None? ==>
      r.target.value.g.Some? && r.target.value.g.value.interpolation == NearestNeighbor
    ensures netG.Some? && st.pen.Some? && st.brush.Some? ==>
      && r.error.None?
      && r.target.value.pen.Some? && r.target.value.brush.Some?
      && r.target.value.pen.value.(id := 0) == st.pen.value.(id := 0)
      && r.target.value.brush.value.(id := 0) == st.brush.value.(id := 0)
      && netG.value.nextId <= r.target.value.pen.value.id < r.target.value.nextId
      && netG.value.nextId <= r.target.value.brush.value.id < r.target.value.nextId
      && r.target.value.pen.value.id != r.target.value.brush.value.id
    ensures netG.Some? && !(st.pen.Some? && st.brush.Some?) ==>
      && (r.error.Some? <==> netG.value.g.None?)
      && (r.error.Some? ==> r.error == Some(NullReference))
      && r.target.value.brush.Some? && r.target.value.brush.value.brush == Solid(netG.value.color)
      && r.target.value.pen.Some? && r.target.value.pen.value.color == netG.value.color
      && (r.error.None? ==> r.target.value.textAntialias == TextAntialiasDefault)
      && (r.error.None? ==> r.target.value.g.value.textHint == FontMetrics.SingleBitPerPixelGridFit)
    ensures netG.Some? ==> r.target.value.color == netG.value.color && r.target.value.javaPaint == netG.value.javaPaint
  {
    if netG.None? then Restored(None, None)
    else
      var s := netG.value;
      var s1 :=
        if s.g.None? then s
        else if st.native.Some? then
          var n := st.native.value;
          SetTextRenderingHint(s.(g := Some(n.(textHint := s.g.value.textHint))), n.textHint, baselineOf)
        else s.(g := Some(s.g.value.(interpolation := NearestNeighbor)));
      var id := s1.nextId;
      if st.pen.Some? && st.brush.Some? then
        Restored(Some(s1.(pen := Some(ClonePen(st.pen.value, id)), brush := Some(CloneBrush(st.brush.value, id + 1)),
                          nextId := id + 2)), None)
      else
        var brush := BrushHandle(id + 1, Solid(s1.color));
        var s2 := s1.(pen := Some(PenHandle(id, s1.color, brush)), brush := Some(brush), nextId := id + 2);
        if s2.g.None? then Restored(Some(s2), Some(NullReference))
        else Restored(Some(SetRenderingHint(s2, KeyTextAntialiasing, TextAntialiasDefault, baselineOf)), None)
  }

  /** Restoring a snapshot twice hands out two distinct pens and brushes, neither of them the snapshot's own. */
  lemma RestoresNeverShare(st: Snapshot, s: Gfx, baselineOf: FontMetrics.TextHint -> int)
    requires st.pen.Some? && st.brush.Some?
    requires st.pen.value.id < s.nextId && st.brush.value.id < s.nextId
    ensures var first := RestoreGraphics(st, Some(s), baselineOf).target.value;
            var second := RestoreGraphics(st, Some(first), baselineOf).target.value;
            && first.pen.value.id != second.pen.value.id
            && first.brush.value.id != second.brush.value.id
            && first.pen.value.id != st.pen.value.id && second.pen.value.id != st.pen.value.id
            && first.brush.value.id != st.brush.value.id && second.brush.value.id != st.brush.value.id
  {
  }

  /**
   * A save followed by a restore onto the same graphics gives back the
   * native modes and the pen and brush contents it had, under new
   * identities.
   */
  lemma SaveRestoreRoundTrip(s: Gfx, baselineOf: FontMetrics.TextHint -> int)
    requires Ready(s) && s.baseline == baselineOf(s.g.value.textHint)
    ensures var (st, s1) := SaveGraphics(Empty, Some(s));
            var r := RestoreGraphics(st, s1, baselineOf);
            && r.error.None?
            && r.target.value.g == s.g
            && r.target.value.baseline == s.baseline
            && r.target.value.pen.value.(id := 0) == s.pen.value.(id := 0)
            && r.target.value.brush.value.(id := 0) == s.brush.value.(id := 0)
            && r.target.value.pen.value.id != s.pen.value.id
  {
    var (st, s1) := SaveGraphics(Empty, Some(s));
    assert st.native == s.g;
  }

  /**
   * NetGraphics.init: save the current state, switch to the new native
   * graphics and restore the state onto it.
   */
  function Init(s: Gfx, graphics: Native, baselineOf: FontMetrics.TextHint -> int): (r: Restored)
    ensures r.target.Some? && r.error.None?
    ensures r.target.value.g.Some?
    ensures s.g.Some? ==> r.target.value.g.value.(textHint := s.g.value.textHint) == s.g.value
    ensures s.g.None? ==> r.target.value.g.value.interpolation == NearestNeighbor
  {
    var (st, s1) := SaveGraphics(Empty, Some(s));
    RestoreGraphics(st, Some(s1.value.(g := Some(graphics))), baselineOf)
  }

  /**
   * The constructor's init, on a NetGraphics that has no native graphics,
   * pen or brush yet, leaves it ready to draw: nearest-neighbour
   * interpolation, a pen and solid brush of its colour, and the default
   * text antialiasing hint.
   */
  lemma ConstructorInitIsReady(s: Gfx, graphics: Native, baselineOf: FontMetrics.TextHint -> int)
    requires s.g.None? && s.pen.None? && s.brush.None?
    requires ValidHelper(s.composite) && ValidComposite(s.javaComposite)
    ensures var r := Init(s, graphics, baselineOf).target.value;
            && Ready(r)
            && r.g.value.interpolation == NearestNeighbor
            && r.brush.value.brush == Solid(s.color) && r.pen.value.color == s.color
            && r.textAntialias == TextAntialiasDefault
            && r.g.value.textHint == FontMetrics.SingleBitPerPixelGridFit
            && r.baseline == baselineOf(FontMetrics.SingleBitPerPixelGridFit)
  {
  }
}

=== FILE: input_events.dfy ===
/**
 * The translation of Windows Forms input into AWT terms done by the
 * component peers: drag-and-drop effects and actions, keyboard and mouse
 * modifier masks, the mouse button number, key codes and the wheel
 * scroll amount. Masks are 32-bit words as in both APIs.
 */
module InputEvents {
  import opened Base

  // ---------------------------------------------------------------------
  // Constants of System.Windows.Forms and java.awt
  // ---------------------------------------------------------------------

  /** System.Windows.Forms.DragDropEffects. */
  const EffectNone: bv32 := 0
  const EffectCopy: bv32 := 1
  const EffectMove: bv32 := 2
  const EffectLink: bv32 := 4

  /** java.awt.dnd.DnDConstants. */
  const ActionNone: bv32 := 0
  const ActionCopy: bv32 := 1
  const ActionMove: bv32 := 2
  const ActionCopyOrMove: bv32 := 3
  const ActionLink: bv32 := 0x4000_0000

  /** The modifier bits of System.Windows.Forms.Keys. */
  const KeysShift: bv32 := 0x1_0000
  const KeysControl: bv32 := 0x2_0000
  const KeysAlt: bv32 := 0x4_0000

  /** System.Windows.Forms.MouseButtons. */
  const MouseLeft: bv32 := 0x10_0000
  const MouseRight: bv32 := 0x20_0000
  const MouseMiddle: bv32 := 0x40_0000

  /** The extended modifiers of java.awt.event.InputEvent. */
  const ShiftDown: bv32 := 0x40
  const CtrlDown: bv32 := 0x80
  const AltDown: bv32 := 0x200
  const Button1Down: bv32 := 0x400
  const Button2Down: bv32 := 0x800
  const Button3Down: bv32 := 0x1000
  const AltGraphDown: bv32 := 0x2000

  /** The old-style button masks of java.awt.event.InputEvent (BUTTON2 and BUTTON3 share bits with ALT and META). */
  const Button1Mask: bv32 := 0x10
  const Button2Mask: bv32 := 0x8
  const Button3Mask: bv32 := 0x4

  /** java.awt.event.MouseEvent button numbers. */
  const NoButton: int := 0
  const Button1: int := 1
  const Button2: int := 2
  const Button3: int := 3

  /** The key-state bits an OLE drag reports for the control and shift keys. */
  const MkControl: bv32 := 0x8
  const MkShift: bv32 := 0x4

  // ---------------------------------------------------------------------
  // Drag and drop
  // ---------------------------------------------------------------------

  /** The five effect sets that have an AWT action, and the five actions that have an effect set. */
  predicate MappedEffects(e: bv32)
  {
    e == EffectNone || e == EffectCopy || e == EffectMove || e == EffectMove | EffectCopy || e == EffectLink
  }

  predicate MappedAction(a: bv32)
  {
    a == ActionNone || a == ActionCopy || a == ActionMove || a == ActionCopyOrMove || a == ActionLink
  }

  /** getAction: the AWT action of an effect set; a combination without one means no action. */
  function ActionOf(effects: bv32): (a: bv32)
    ensures MappedAction(a)
    ensures effects == EffectCopy <==> a == ActionCopy
    ensures effects == EffectMove <==> a == ActionMove
    ensures effects == EffectMove | EffectCopy <==> a == ActionCopyOrMove
    ensures effects == EffectLink <==> a == ActionLink
    ensures a == ActionNone <==> !MappedEffects(effects) || effects == EffectNone
  {
    if effects == EffectCopy then ActionCopy
    else if effects == EffectMove then ActionMove
    else if effects == EffectMove | EffectCopy then ActionCopyOrMove
    else if effects == EffectLink then ActionLink
    else ActionNone
  }

  /** getDragDropEffects: the effect set of an AWT action; any other value means no effect. */
  function EffectsOf(action: bv32): (e: bv32)
    ensures MappedEffects(e)
    ensures e == EffectNone <==> !MappedAction(action) || action == ActionNone
  {
    if action == ActionCopy then EffectCopy
    else if action == ActionMove then EffectMove
    else if action == ActionCopyOrMove then EffectMove | EffectCopy
    else if action == ActionLink then EffectLink
    else EffectNone
  }

  /** The two mappings are inverse on the values each of them maps. */
  lemma ActionEffectsRoundTrip(a: bv32, e: bv32)
    ensures MappedAction(a) ==> ActionOf(EffectsOf(a)) == a
    ensures MappedEffects(e) ==> EffectsOf(ActionOf(e)) == e
  {
  }

  /** Whether every effect of `wanted` is among `effects`. */
  predicate Allows(effects: bv32, wanted: bv32)
  {
    effects & wanted == wanted
  }

  /**
   * getDropAction: only the control and shift bits of the key state
   * count. Control asks for a copy, control and shift for a link, shift
   * for a move, each granted only if allowed; with neither key the first
   * allowed of move, copy and link is taken.
   */
  function DropAction(effects: bv32, keyState: bv32): (a: bv32)
    ensures a == ActionNone || a == ActionCopy || a == ActionMove || a == ActionLink
    ensures a != ActionNone ==> Allows(effects, EffectsOf(a))
    ensures keyState & (MkControl | MkShift) == MkControl ==> (a == ActionCopy <==> Allows(effects, EffectCopy)) && a in {ActionNone, ActionCopy}
    ensures keyState & (MkControl | MkShift) == MkControl | MkShift ==> (a == ActionLink <==> Allows(effects, EffectLink)) && a in {ActionNone, ActionLink}
    ensures keyState & (MkControl | MkShift) == MkShift ==> (a == ActionMove <==> Allows(effects, EffectMove)) && a in {ActionNone, ActionMove}
    ensures keyState & (MkControl | MkShift) == 0 ==>
      (a == ActionNone <==> !Allows(effects, EffectMove) && !Allows(effects, EffectCopy) && !Allows(effects, EffectLink))
  {
    var keys := keyState & (MkControl | MkShift);
    if keys == MkControl then (if Allows(effects, EffectCopy) then ActionCopy else ActionNone)
    else if keys == MkControl | MkShift then (if Allows(effects, EffectLink) then ActionLink else ActionNone)
    else if keys == MkShift then (if Allows(effects, EffectMove) then ActionMove else ActionNone)
    else if Allows(effects, EffectMove) then ActionMove
    else if Allows(effects, EffectCopy) then ActionCopy
    else if Allows(effects, EffectLink) then ActionLink
    else ActionNone
  }

  /** With no key held the preference is move, then copy, then link. */
  lemma DropActionPrefersMove(effects: bv32, keyState: bv32)
    requires keyState & (MkControl | MkShift) == 0
    ensures Allows(effects, EffectMove) ==> DropAction(effects, keyState) == ActionMove
    ensures !Allows(effects, EffectMove) && Allows(effects, EffectCopy) ==> DropAction(effects, keyState) == ActionCopy
    ensures !Allows(effects, EffectMove) && !Allows(effects, EffectCopy) && Allows(effects, EffectLink) ==> DropAction(effects, keyState) == ActionLink
  {
  }

  /** Key-state bits other than control and shift (the mouse buttons, say) never change the action. */
  lemma DropActionIgnoresOtherKeys(effects: bv32, k1: bv32, k2: bv32)
    requires k1 & (MkControl | MkShift) == k2 & (MkControl | MkShift)
    ensures DropAction(effects, k1) == DropAction(effects, k2)
  {
  }

  // ---------------------------------------------------------------------
  // Modifiers and buttons
  // ---------------------------------------------------------------------

  /**
   * GetModifiers: shift, then control or alt alone, or both as AltGraph
   * only, then one down-mask per held mouse button (`held` is
   * Control.MouseButtons).
   */
  function Modifiers(keys: bv32, held: bv32): (m: bv32)
    ensures m & ShiftDown != 0 <==> keys & KeysShift != 0
    ensures m & CtrlDown != 0 <==> keys & (KeysControl | KeysAlt) == KeysControl
    ensures m & AltDown != 0 <==> keys & (KeysControl | KeysAlt) == KeysAlt
    ensures m & AltGraphDown != 0 <==> keys & (KeysControl | KeysAlt) == KeysControl | KeysAlt
    ensures m & Button1Down != 0 <==> held & MouseLeft != 0
    ensures m & Button2Down != 0 <==> held & MouseMiddle != 0
    ensures m & Button3Down != 0 <==> held & MouseRight != 0
    ensures m & !(ShiftDown | CtrlDown | AltDown | AltGraphDown | Button1Down | Button2Down | Button3Down) == 0
  {
    var shift: bv32 := if keys & KeysShift != 0 then ShiftDown else 0;
    var ctrlAlt := keys & (KeysControl | KeysAlt);
    var combo: bv32 :=
      if ctrlAlt == KeysControl then CtrlDown
      else if ctrlAlt == KeysAlt then AltDown
      else if ctrlAlt == KeysControl | KeysAlt then AltGraphDown
      else 0;
    var b1: bv32 := if held & MouseLeft != 0 then Button1Down else 0;
    var b2: bv32 := if held & MouseMiddle != 0 then Button2Down else 0;
    var b3: bv32 := if held & MouseRight != 0 then Button3Down else 0;
    shift | combo | b1 | b2 | b3
  }

  /** Control and alt together never report control or alt on their own. */
  lemma AltGraphExcludesCtrlAndAlt(keys: bv32, held: bv32)
    ensures var m := Modifiers(keys, held);
            m & AltGraphDown != 0 ==> m & (CtrlDown | AltDown) == 0
  {
  }

  /**
   * GetMouseEventModifiers: the modifiers plus the old-style mask of the
   * event's button, added only when the event names exactly one of left,
   * middle and right.
   */
  function MouseEventModifiers(keys: bv32, held: bv32, button: bv32): (m: bv32)
    ensures m & !(Button1Mask | Button2Mask | Button3Mask) == Modifiers(keys, held)
    ensures button == MouseLeft ==> m == Modifiers(keys, held) | Button1Mask
    ensures button == MouseMiddle ==> m == Modifiers(keys, held) | Button2Mask
    ensures button == MouseRight ==> m == Modifiers(keys, held) | Button3Mask
    ensures button != MouseLeft && button != MouseMiddle && button != MouseRight ==> m == Modifiers(keys, held)
  {
    var m := Modifiers(keys, held);
    if button == MouseLeft then m | Button1Mask
    else if button == MouseMiddle then m | Button2Mask
    else if button == MouseRight then m | Button3Mask
    else m
  }

  /** GetButton: the first of left, middle and right that the event's buttons include. */
  function ButtonOf(button: bv32): (b: int)
    ensures b == Button1 <==> button & MouseLeft != 0
    ensures b == Button2 <==> button & MouseLeft == 0 && button & MouseMiddle != 0
    ensures b == Button3 <==> button & (MouseLeft | MouseMiddle) == 0 && button & MouseRight != 0
    ensures b == NoButton <==> button & (MouseLeft | MouseMiddle | MouseRight) == 0
  {
    if button & MouseLeft == MouseLeft then Button1
    else if button & MouseMiddle == MouseMiddle then Button2
    else if button & MouseRight == MouseRight then Button3
    else NoButton
  }

  /**
   * For a single button the event's number and its old-style mask agree;
   * for several at once the number picks one while no mask is set.
   */
  lemma ButtonAndMaskAgree(keys: bv32, held: bv32, button: bv32)
    requires Modifiers(keys, held) & (Button1Mask | Button2Mask | Button3Mask) == 0
    ensures var m := MouseEventModifiers(keys, held, button) & (Button1Mask | Button2Mask | Button3Mask);
            && (button == MouseLeft ==> ButtonOf(button) == Button1 && m == Button1Mask)
            && (button == MouseMiddle ==> ButtonOf(button) == Button2 && m == Button2Mask)
            && (button == MouseRight ==> ButtonOf(button) == Button3 && m == Button3Mask)
            && (button == MouseLeft | MouseRight ==> ButtonOf(button) == Button1 && m == 0)
  {
  }

  // ---------------------------------------------------------------------
  // Key codes and the wheel
  // ---------------------------------------------------------------------

  /** System.Windows.Forms.Keys key codes the mapping singles out, and the AWT codes they become. */
  const KeyEnter: bv32 := 13
  const KeyDelete: bv32 := 46
  const VkEnter: bv32 := 10
  const VkDelete: bv32 := 127

  /** MapKeyCode: Delete and Enter get AWT's codes; every other key code is passed through as a number. */
  function MapKeyCode(key: bv32): (k: bv32)
    ensures key == KeyDelete ==> k == VkDelete
    ensures key == KeyEnter ==> k == VkEnter
    ensures key != KeyDelete && key != KeyEnter ==> k == key
  {
    if key == KeyDelete then VkDelete
    else if key == KeyEnter then VkEnter
    else key
  }

  /**
   * The mapping loses nothing except where a passed-through code equals
   * one of AWT's two: Keys.LineFeed (10) and Keys.F16 (127) arrive as
   * Enter and Delete.
   */
  lemma MapKeyCodeInjective(k1: bv32, k2: bv32)
    requires k1 != VkEnter && k1 != VkDelete && k2 != VkEnter && k2 != VkDelete
    ensures MapKeyCode(k1) == MapKeyCode(k2) ==> k1 == k2
    ensures MapKeyCode(VkDelete) == MapKeyCode(KeyDelete) && MapKeyCode(VkEnter) == MapKeyCode(KeyEnter)
  {
  }

  /** The wheel delta of one notch. */
  const WheelDelta: int := 120

  /**
   * The scroll amount of a wheel event: -delta · lines / 120 in C# int
   * arithmetic, so the negation and the product wrap and the division
   * truncates.
   */
  function ScrollAmount(delta: int, lines: int): (n: int)
    requires -0x8000_0000 <= delta < 0x8000_0000 && -0x8000_0000 <= lines < 0x8000_0000
    ensures -0x8000_0000 / WheelDelta - 1 <= n <= 0x8000_0000 / WheelDelta
  {
    DivTrunc(Wrap32(Wrap32(-delta) * lines), WheelDelta)
  }

  /** Truncating division undoes a multiplication by the notch size. */
  lemma DivTruncNotches(q: int)
    ensures DivTrunc(WheelDelta * q, WheelDelta) == q
  {
    if q >= 0 {
      assert Abs(WheelDelta * q) == WheelDelta * q;
    } else {
      assert Abs(WheelDelta * q) == WheelDelta * -q;
    }
  }

  /** The product of two bounded factors is bounded. */
  lemma {:induction false} ProductBound(k: int, lines: int)
    requires 0 <= lines <= 100 && -1000 <= k <= 1000
    ensures -1000 * lines <= k * lines <= 1000 * lines
    ensures -100_000 <= k * lines <= 100_000
    decreases lines
  {
    if lines > 0 {
      ProductBound(k, lines - 1);
      assert k * lines == k * (lines - 1) + k;
    }
  }

  /**
   * Away from wrap-around, k notches scroll k · lines units, against the
   * wheel's direction.
   */
  lemma ScrollAmountPerNotch(k: int, lines: int)
    requires 0 <= lines <= 100 && -1000 <= k <= 1000
    ensures ScrollAmount(WheelDelta * k, lines) == -k * lines
  {
    var m := k * lines;
    ProductBound(k, lines);
    var d := WheelDelta * k;
    assert Wrap32(-d) == -d;
    assert -d * lines == WheelDelta * -m by {
      assert -d * lines == -(WheelDelta * k * lines);
    }
    assert Wrap32(-d * lines) == WheelDelta * -m;
    DivTruncNotches(-m);
  }
}

=== FILE: metrics.dfy ===
/**
 * The font metric formulas of NetFontMetrics and NetLineMetrics. The
 * native measurements they start from (a family's em height, cell
 * ascent and descent and line spacing, Font.Height, and the width
 * MeasureCharacterRanges reports) are inputs.
 */
module FontMetrics {
  import opened Base
  import Fonts
  import Paths

  /** FontFamily.GetEmHeight, GetCellAscent, GetCellDescent and GetLineSpacing for one style. */
  datatype CellMetrics = CellMetrics(emHeight: int, ascent: int, descent: int, lineSpacing: int)

  predicate ValidCell(c: CellMetrics)
  {
    c.emHeight > 0 && c.ascent >= 0 && c.descent >= 0 && c.lineSpacing >= 0
  }

  /** The scale from design units to the font's size. */
  function Scale(size: real, c: CellMetrics): real
    requires ValidCell(c)
  {
    size / c.emHeight as real
  }

  // ---------------------------------------------------------------------
  // NetFontMetrics
  // ---------------------------------------------------------------------

  /** What NetFontMetrics reads from its .NET font: Font.Size, Font.Height and the cell metrics. */
  datatype MetricsFont = MetricsFont(size: real, height: int, cell: CellMetrics)

  predicate ValidFont(f: MetricsFont)
  {
    ValidCell(f.cell) && f.size > 0.0
  }

  /** GetAscentFloat: the cell ascent scaled from design units to the font size. */
  function AscentFloat(f: MetricsFont): (r: real)
    requires ValidFont(f)
    ensures r >= 0.0
    ensures r * f.cell.emHeight as real == f.size * f.cell.ascent as real
  {
    ScaledProduct(f.size, f.cell.ascent, f.cell.emHeight)
  }

  /** GetDescentFloat. */
  function DescentFloat(f: MetricsFont): (r: real)
    requires ValidFont(f)
    ensures r >= 0.0
    ensures r * f.cell.emHeight as real == f.size * f.cell.descent as real
  {
    ScaledProduct(f.size, f.cell.descent, f.cell.emHeight)
  }

  /** size·units/em for a non-negative size and unit count. */
  function ScaledProduct(size: real, units: int, em: int): (r: real)
    requires size >= 0.0 && units >= 0 && em > 0
    ensures r >= 0.0
    ensures r * em as real == size * units as real
  {
    assert size * units as real >= 0.0 by { NonNegativeProduct(size, units as real); }
    size * units as real / em as real
  }

  lemma NonNegativeProduct(a: real, b: real)
    requires a >= 0.0 && b >= 0.0
    ensures a * b >= 0.0
  {
  }

  /** GetLeadingFloat: what Font.Height leaves above ascent plus descent, never negative. */
  function LeadingFloat(f: MetricsFont): (r: real)
    requires ValidFont(f)
    ensures r >= 0.0
    ensures r >= f.height as real - (AscentFloat(f) + DescentFloat(f))
    ensures r == 0.0 || r == f.height as real - (AscentFloat(f) + DescentFloat(f))
  {
    MaxReal(0.0, f.height as real - (AscentFloat(f) + DescentFloat(f)))
  }

  /** getLeading: the rounded leading, which is never negative. */
  function Leading(f: MetricsFont): (r: int)
    requires ValidFont(f)
    ensures r >= 0
    ensures AbsReal(LeadingFloat(f) - r as real) <= 1.0 / 2.0
  {
    RoundHalfEven(LeadingFloat(f))
  }

  /** getAscent. */
  function Ascent(f: MetricsFont): (r: int)
    requires ValidFont(f)
    ensures r >= 0
    ensures AbsReal(AscentFloat(f) - r as real) <= 1.0 / 2.0
  {
    RoundHalfEven(AscentFloat(f))
  }

  /** getDescent. */
  function Descent(f: MetricsFont): (r: int)
    requires ValidFont(f)
    ensures r >= 0
    ensures AbsReal(DescentFloat(f) - r as real) <= 1.0 / 2.0
  {
    RoundHalfEven(DescentFloat(f))
  }

  /** The TextRenderingHint of the graphics a string is measured on. */
  datatype TextHint =
    | SystemDefault
    | SingleBitPerPixelGridFit
    | SingleBitPerPixel
    | AntiAliasGridFit
    | AntiAlias
    | ClearTypeGridFit

  /** The hints under which GetStringWidth keeps the fractional width. */
  predicate Fractional(hint: TextHint)
  {
    hint == AntiAlias || hint == SingleBitPerPixel
  }

  /** The hint of the shared measuring graphics NetFontMetrics creates for itself. */
  const DefaultHint: TextHint := SingleBitPerPixelGridFit

  /**
   * GetStringWidth: 0 for the empty string; otherwise the measured width,
   * rounded to a whole number unless the hint keeps fractions.
   */
  function StringWidthFloat(s: string, hint: TextHint, measure: string -> real): (r: real)
    ensures s == [] ==> r == 0.0
    ensures s != [] && Fractional(hint) ==> r == measure(s)
    ensures s != [] && !Fractional(hint) ==> AbsReal(r - measure(s)) <= 1.0 / 2.0 && r == r.Floor as real
  {
    if |s| == 0 then 0.0
    else if Fractional(hint) then measure(s)
    else RoundHalfEven(measure(s)) as real
  }

  /** stringWidth: the width on the shared measuring graphics, rounded. */
  function StringWidth(s: string, measure: string -> real): (r: int)
    ensures s == [] ==> r == 0
    ensures s != [] ==> AbsReal(r as real - measure(s)) <= 1.0
  {
    RoundHalfEven(StringWidthFloat(s, DefaultHint, measure))
  }

  /** Rounding twice is rounding once: stringWidth is the measured width rounded. */
  lemma StringWidthRoundsOnce(s: string, measure: string -> real)
    ensures StringWidth(s, measure) == if s == [] then 0 else RoundHalfEven(measure(s))
  {
    if s == [] {
      RoundHalfEvenOfInt(0);
    } else {
      RoundHalfEvenOfInt(RoundHalfEven(measure(s)));
    }
  }

  /** The string of n copies of c. */
  function Repeat(c: char, n: nat): (s: string)
    ensures |s| == n && forall i :: 0 <= i < n ==> s[i] == c
  {
    seq(n, i => c)
  }

  /** charWidth: the width of twenty copies, divided by twenty in integer arithmetic. */
  function CharWidth(c: char, measure: string -> real): (r: int)
    ensures var w := StringWidth(Repeat(c, 20), measure);
      w >= 0 ==> r >= 0 && 20 * r <= w < 20 * r + 20
  {
    DivTrunc(StringWidth(Repeat(c, 20), measure), 20)
  }

  /** A character's width is the twentieth of its twenty-fold width, rounded down. */
  lemma CharWidthBounds(c: char, measure: string -> real)
    requires measure(Repeat(c, 20)) >= 0.0
    ensures CharWidth(c, measure) >= 0
    ensures 20 * CharWidth(c, measure) <= StringWidth(Repeat(c, 20), measure) < 20 * CharWidth(c, measure) + 20
  {
    var w := StringWidth(Repeat(c, 20), measure);
    StringWidthRoundsOnce(Repeat(c, 20), measure);
    assert w >= 0;
    assert CharWidth(c, measure) == w / 20;
  }

  /** getMaxAdvance: the width of 'M'. */
  function MaxAdvance(measure: string -> real): (r: int)
    ensures r == CharWidth('M', measure)
  {
    CharWidth('M', measure)
  }

  /** charsWidth: the width of data[off..off+len]; `new string(data, off, len)` rejects a range outside data. */
  function CharsWidth(data: seq<char>, off: int, len: int, measure: string -> real): (r: Result<int>)
    ensures r.Fail? <==> off < 0 || len < 0 || off + len > |data|
    ensures r.Fail? ==> r.error == ArgumentOutOfRange
    ensures r.Ok? ==> r.value == StringWidth(data[off..off + len], measure)
  {
    if off < 0 || len < 0 || off + len > |data| then Fail(ArgumentOutOfRange)
    else Ok(StringWidth(data[off..off + len], measure))
  }

  /** The whole array measures like the string it holds; an empty range measures 0. */
  lemma CharsWidthOfWholeAndEmpty(data: seq<char>, off: int, measure: string -> real)
    requires 0 <= off <= |data|
    ensures CharsWidth(data, 0, |data|, measure) == Ok(StringWidth(data, measure))
    ensures CharsWidth(data, off, 0, measure) == Ok(0)
  {
    assert data[0..|data|] == data;
    StringWidthRoundsOnce([], measure);
  }

  /**
   * GetStringBounds: a box of the measured width and the line height,
   * starting half the leading above the ascent. `graphics` is the hint of
   * the NetGraphics passed to getStringBounds; any other Graphics measures
   * on the shared graphics.
   */
  function StringBounds(f: MetricsFont, s: string, graphics: Option<TextHint>, measure: string -> real)
    : (r: Paths.RealRect)
    requires ValidFont(f)
    ensures r.x == 0.0
    ensures r.w == StringWidthFloat(s, if graphics.Some? then graphics.value else DefaultHint, measure)
    ensures r.h == LineHeightOf(f.size, f.cell)
  {
    var hint := if graphics.Some? then graphics.value else DefaultHint;
    var factor := Scale(f.size, f.cell);
    var height := f.cell.lineSpacing as real * factor;
    var descent := f.cell.descent as real * factor;
    var ascent := f.cell.ascent as real * factor;
    var leading := height - ascent - descent;
    Paths.RealRect(0.0, -ascent - leading / 2.0, StringWidthFloat(s, hint, measure), height)
  }

  /** Line spacing scaled to the font size. */
  function LineHeightOf(size: real, c: CellMetrics): real
    requires ValidCell(c)
  {
    c.lineSpacing as real * Scale(size, c)
  }

  /** The bounds split the leading evenly: as much space above the ascent as below the descent. */
  lemma StringBoundsSplitLeading(f: MetricsFont, s: string, graphics: Option<TextHint>, measure: string -> real)
    requires ValidFont(f)
    ensures var r := StringBounds(f, s, graphics, measure);
            var factor := Scale(f.size, f.cell);
            -r.y - f.cell.ascent as real * factor == r.y + r.h - f.cell.descent as real * factor
  {
  }

  // ---------------------------------------------------------------------
  // NetLineMetrics
  // ---------------------------------------------------------------------

  /**
   * A NetLineMetrics: the Java font's float size, the cell metrics of
   * the family CreateFontFamily picks for the font's name under the raw
   * style bits, and the measured string.
   */
  datatype LineMetrics = LineMetrics(family: Fonts.Family, style: bv32, size2D: real, cell: CellMetrics, text: string)

  /** The NetLineMetrics constructor; `cells` stands for the family's native metric queries. */
  function NewLineMetrics(font: Fonts.JavaFont, text: string, installed: set<string>,
                          cells: (Fonts.Family, bv32) -> CellMetrics): (m: LineMetrics)
    ensures m.family == Fonts.CreateFontFamily(Some(font.name), installed)
    ensures m.style == font.style && m.size2D == font.pointSize && m.text == text
    ensures m.cell == cells(m.family, m.style)
  {
    var family := Fonts.CreateFontFamily(Some(font.name), installed);
    LineMetrics(family, font.style, font.pointSize, cells(family, font.style), text)
  }

  predicate ValidLine(m: LineMetrics)
  {
    ValidCell(m.cell)
  }

  function LineAscent(m: LineMetrics): (r: real)
    requires ValidLine(m)
    ensures r * m.cell.emHeight as real == m.cell.ascent as real * m.size2D
  {
    m.cell.ascent as real * Scale(m.size2D, m.cell)
  }

  function LineDescent(m: LineMetrics): (r: real)
    requires ValidLine(m)
    ensures r * m.cell.emHeight as real == m.cell.descent as real * m.size2D
  {
    m.cell.descent as real * Scale(m.size2D, m.cell)
  }

  function LineHeight(m: LineMetrics): (r: real)
    requires ValidLine(m)
    ensures r * m.cell.emHeight as real == m.cell.lineSpacing as real * m.size2D
  {
    LineHeightOf(m.size2D, m.cell)
  }

  /** getLeading: not clamped, unlike NetFontMetrics. */
  function LineLeading(m: LineMetrics): (r: real)
    requires ValidLine(m)
    ensures LineAscent(m) + LineDescent(m) + r == LineHeight(m)
  {
    LineHeight(m) - LineAscent(m) - LineDescent(m)
  }

  /** getBaselineIndex: always the roman baseline. */
  function BaselineIndex(m: LineMetrics): (r: int)
    ensures r == 0
  {
    0
  }

  /** getBaselineOffsets: roman, centre and hanging baselines. */
  function BaselineOffsets(m: LineMetrics): (r: seq<real>)
    requires ValidLine(m)
    ensures |r| == 3 && r[0] == 0.0 && r[2] == -LineAscent(m)
    ensures 2.0 * r[1] == LineDescent(m) / 2.0 - LineAscent(m)
  {
    var ascent := LineAscent(m);
    [0.0, (LineDescent(m) / 2.0 - ascent) / 2.0, -ascent]
  }

  /** getNumChars. */
  function NumChars(m: LineMetrics): (r: nat)
    ensures r == |m.text|
  {
    |m.text|
  }

  /** The non-WINFX strikethrough and underline placements. */
  function StrikethroughOffset(m: LineMetrics): (r: real)
    requires ValidLine(m)
    ensures -3.0 * r == LineAscent(m)
  {
    LineAscent(m) / -3.0
  }

  function StrikethroughThickness(m: LineMetrics): (r: real)
    ensures 18.0 * r == m.size2D
  {
    m.size2D / 18.0
  }

  function UnderlineOffset(m: LineMetrics): (r: real)
    ensures 87.0 * r == 10.0 * m.size2D
  {
    m.size2D / 8.7
  }

  function UnderlineThickness(m: LineMetrics): (r: real)
    ensures 18.0 * r == m.size2D
  {
    m.size2D / 18.0
  }

  /**
   * For a positive size and ascent the strikethrough sits above the
   * baseline and the underline below it (Java's y grows downward), both
   * strokes are equally thick, and the centre baseline lies between the
   * hanging and roman baselines whenever the descent is at most twice
   * the ascent.
   */
  lemma DecorationPlacement(m: LineMetrics)
    requires ValidLine(m) && m.size2D > 0.0 && m.cell.ascent > 0
    ensures StrikethroughOffset(m) < 0.0 < UnderlineOffset(m)
    ensures StrikethroughThickness(m) == UnderlineThickness(m) > 0.0
    ensures m.cell.descent <= 2 * m.cell.ascent ==>
              BaselineOffsets(m)[2] <= BaselineOffsets(m)[1] <= BaselineOffsets(m)[0]
  {
    var k := Scale(m.size2D, m.cell);
    assert k > 0.0;
    assert LineAscent(m) > 0.0 by { PositiveProduct(m.cell.ascent as real, k); }
    if m.cell.descent <= 2 * m.cell.ascent {
      assert LineDescent(m) <= 2.0 * LineAscent(m) by {
        MonotoneProduct(m.cell.descent as real, 2.0 * m.cell.ascent as real, k);
      }
    }
  }

  lemma PositiveProduct(a: real, b: real)
    requires a > 0.0 && b > 0.0
    ensures a * b > 0.0
  {
  }

  lemma MonotoneProduct(a: real, b: real, k: real)
    requires a <= b && k >= 0.0
    ensures a * k <= b * k
  {
  }

  /**
   * The two metric classes agree on a font whose size and cell metrics
   * coincide: same ascent, descent and line height, and NetFontMetrics'
   * leading is NetLineMetrics' leading measured against Font.Height and
   * clamped at zero.
   */
  lemma MetricsAgree(f: MetricsFont, m: LineMetrics)
    requires ValidFont(f) && ValidLine(m)
    requires f.size == m.size2D && f.cell == m.cell
    ensures AscentFloat(f) == LineAscent(m) && DescentFloat(f) == LineDescent(m)
    ensures StringBounds(f, [], None, s => 0.0).h == LineHeight(m)
    ensures LeadingFloat(f) == MaxReal(0.0, f.height as real - LineAscent(m) - LineDescent(m))
  {
    ScaleTimes(f.size, f.cell.ascent, f.cell);
    ScaleTimes(f.size, f.cell.descent, f.cell);
  }

  /** units·(size/em) is size·units/em. */
  lemma ScaleTimes(size: real, units: int, c: CellMetrics)
    requires ValidCell(c)
    ensures units as real * Scale(size, c) == size * units as real / c.emHeight as real
  {
  }
}

=== FILE: paths.dfy ===
/**
 * Geometry conversions between java.awt.geom and System.Drawing (J2C and C2J):
 * shapes to GraphicsPath and back, the rounded rectangle built from lines and
 * arcs, affine transforms, rectangles, clip regions and glyph vectors.
 *
 * A GraphicsPath is modelled by the sequence of calls made on it (StartFigure,
 * AddLine, AddBezier, AddArc, CloseFigure); a GeneralPath by the sequence of
 * moveTo/lineTo/curveTo/closePath calls. The point/type arrays a GraphicsPath
 * reports (PathPoints, PathTypes) use GDI+'s PathPointType encoding: 0 starts
 * a figure, 1 is a line end, 3 a Bezier point, and bit 0x80 marks the last
 * point of a closed figure.
 */
module Paths {
  import opened Base

  datatype Point = Point(x: real, y: real)

  const Origin: Point := Point(0.0, 0.0)

  // ---------------------------------------------------------------------
  // J2C.ConvertShape: PathIterator segments to GraphicsPath calls
  // ---------------------------------------------------------------------

  /** One PathIterator segment with its coordinates. */
  datatype Segment =
    | MoveTo(p: Point)
    | LineTo(p: Point)
    | QuadTo(c: Point, p: Point)
    | CubicTo(c1: Point, c2: Point, p: Point)
    | Close

  /** One call on a GraphicsPath. */
  datatype PathCall =
    | StartFigure
    | AddLine(from: Point, to: Point)
    | AddBezier(p0: Point, p1: Point, p2: Point, p3: Point)
    | AddArc(x: int, y: int, w: int, h: int, start: int, sweep: int)
    | CloseFigure

  datatype NativePath = NativePath(fillMode: int, calls: seq<PathCall>)

  /**
   * The pen position in front of segment i: the end point of the nearest
   * earlier segment that is not a close, or the origin when there is none.
   * A close does not move the pen.
   */
  function PenBefore(segs: seq<Segment>, i: nat): (p: Point)
    requires i <= |segs|
    decreases i
  {
    if i == 0 then Origin
    else if segs[i - 1].Close? then PenBefore(segs, i - 1)
    else segs[i - 1].p
  }

  /**
   * J2C.ConvertShape: one GraphicsPath call per segment; lines and curves
   * start at the current pen, a quadratic becomes a cubic with its control
   * point doubled, and the path takes the iterator's winding rule as its fill
   * mode (WIND_EVEN_ODD = Alternate = 0, WIND_NON_ZERO = Winding = 1).
   */
  method ConvertShape(winding: int, segs: seq<Segment>) returns (r: NativePath)
    ensures r.fillMode == winding
    ensures |r.calls| == |segs|
    ensures forall i :: 0 <= i < |segs| ==> (segs[i].MoveTo? <==> r.calls[i] == StartFigure)
    ensures forall i :: 0 <= i < |segs| ==> (segs[i].Close? <==> r.calls[i] == CloseFigure)
    ensures forall i :: 0 <= i < |segs| && segs[i].LineTo? ==>
      r.calls[i] == AddLine(PenBefore(segs, i), segs[i].p)
    ensures forall i :: 0 <= i < |segs| && segs[i].QuadTo? ==>
      r.calls[i] == AddBezier(PenBefore(segs, i), segs[i].c, segs[i].c, segs[i].p)
    ensures forall i :: 0 <= i < |segs| && segs[i].CubicTo? ==>
      r.calls[i] == AddBezier(PenBefore(segs, i), segs[i].c1, segs[i].c2, segs[i].p)
  {
    var calls: seq<PathCall> := [];
    var pen := Origin;
    var i := 0;
    while i < |segs|
      invariant 0 <= i <= |segs|
      invariant |calls| == i
      invariant pen == PenBefore(segs, i)
      invariant forall k :: 0 <= k < i ==> (segs[k].MoveTo? <==> calls[k] == StartFigure)
      invariant forall k :: 0 <= k < i ==> (segs[k].Close? <==> calls[k] == CloseFigure)
      invariant forall k :: 0 <= k < i && segs[k].LineTo? ==>
        calls[k] == AddLine(PenBefore(segs, k), segs[k].p)
      invariant forall k :: 0 <= k < i && segs[k].QuadTo? ==>
        calls[k] == AddBezier(PenBefore(segs, k), segs[k].c, segs[k].c, segs[k].p)
      invariant forall k :: 0 <= k < i && segs[k].CubicTo? ==>
        calls[k] == AddBezier(PenBefore(segs, k), segs[k].c1, segs[k].c2, segs[k].p)
    {
      match segs[i] {
        case MoveTo(p) =>
          pen := p;
          calls := calls + [StartFigure];
        case LineTo(p) =>
          calls := calls + [AddLine(pen, p)];
          pen := p;
        case QuadTo(c, p) =>
          calls := calls + [AddBezier(pen, c, c, p)];
          pen := p;
        case CubicTo(c1, c2, p) =>
          calls := calls + [AddBezier(pen, c1, c2, p)];
          pen := p;
        case Close =>
          calls := calls + [CloseFigure];
      }
      i := i + 1;
    }
    r := NativePath(winding, calls);
  }

  /**
   * After a close the next line starts at the pen as it was before the close,
   * not at the figure's first point.
   */
  lemma LineAfterCloseStartsAtLastEnd(a: Point, b: Point, c: Point)
    ensures var segs := [MoveTo(a), LineTo(b), Close, LineTo(c)];
      PenBefore(segs, 3) == b
  {
  }

  // ---------------------------------------------------------------------
  // C2J.ConvertShape: GraphicsPath points and types to GeneralPath calls
  // ---------------------------------------------------------------------

  /** One call on a GeneralPath. */
  datatype JavaCall =
    | JMoveTo(p: Point)
    | JLineTo(p: Point)
    | JCurveTo(p1: Point, p2: Point, p3: Point)
    | JClosePath

  /** A byte of PathTypes: the kind is in the low three bits, 0x80 closes. */
  type PathType = b: int | 0 <= b < 256

  function Kind(t: PathType): (k: int)
    ensures 0 <= k < 8
  {
    t % 8
  }

  predicate Closes(t: PathType) {
    t >= 0x80
  }

  /** How many points the call at the head of the arrays consumes. */
  function Used(tys: seq<PathType>): (n: nat)
    requires |tys| > 0
    ensures n == 1 || n == 3
  {
    if Kind(tys[0]) == 3 then 3 else 1
  }

  /**
   * The calls for the head of the arrays: a moveTo, lineTo or curveTo by
   * kind (nothing for an unknown kind), then a closePath when the last point
   * consumed carries the close flag.
   */
  function Step(pts: seq<Point>, tys: seq<PathType>): (calls: seq<JavaCall>)
    requires |pts| == |tys| && |tys| > 0 && Used(tys) <= |tys|
    ensures |calls| <= 2
    ensures Closes(tys[Used(tys) - 1]) <==> |calls| > 0 && calls[|calls| - 1] == JClosePath
  {
    var k := Kind(tys[0]);
    var head :=
      if k == 0 then [JMoveTo(pts[0])]
      else if k == 1 then [JLineTo(pts[0])]
      else if k == 3 then [JCurveTo(pts[0], pts[1], pts[2])]
      else [];
    head + if Closes(tys[Used(tys) - 1]) then [JClosePath] else []
  }

  /** Prefixes already-decoded calls to a decoding result. */
  function Prepend(done: seq<JavaCall>, r: Result<seq<JavaCall>>): Result<seq<JavaCall>> {
    match r
    case Fail(e) => Fail(e)
    case Ok(rest) => Ok(done + rest)
  }

  /**
   * The GeneralPath calls for the point/type arrays of a GraphicsPath.
   * A Bezier point consumes itself and the next two points, and the close
   * flag is read from the last point consumed; a point of any other unknown
   * kind adds nothing but its close flag. A Bezier start without two
   * following points reads past the arrays and fails.
   */
  function Decode(pts: seq<Point>, tys: seq<PathType>): (r: Result<seq<JavaCall>>)
    requires |pts| == |tys|
    ensures r.Fail? ==> r.error == IndexOutOfRange
    ensures r.Ok? ==> |r.value| <= 2 * |tys|
    decreases |tys|
  {
    if |tys| == 0 then Ok([])
    else if |tys| < Used(tys) then Fail(IndexOutOfRange)
    else Prepend(Step(pts, tys), Decode(pts[Used(tys)..], tys[Used(tys)..]))
  }

  lemma PrependAppend(a: seq<JavaCall>, b: seq<JavaCall>, r: Result<seq<JavaCall>>)
    ensures Prepend(a, Prepend(b, r)) == Prepend(a + b, r)
  {
    if r.Ok? {
      assert a + (b + r.value) == (a + b) + r.value;
    }
  }

  datatype JavaPath = JavaPath(winding: int, calls: seq<JavaCall>)

  /**
   * C2J.ConvertShape: the fill mode becomes the winding rule, and the arrays
   * are walked point by point as Decode describes.
   */
  method ConvertPath(fillMode: int, pts: seq<Point>, tys: seq<PathType>)
    returns (r: Result<JavaPath>)
    requires |pts| == |tys|
    ensures r.Ok? <==> Decode(pts, tys).Ok?
    ensures r.Ok? ==> r.value == JavaPath(fillMode, Decode(pts, tys).value)
    ensures r.Fail? ==> r.error == IndexOutOfRange
  {
    var calls: seq<JavaCall> := [];
    var i := 0;
    assert pts[0..] == pts && tys[0..] == tys;
    assert Prepend([], Decode(pts, tys)) == Decode(pts, tys) by {
      if Decode(pts, tys).Ok? {
        assert [] + Decode(pts, tys).value == Decode(pts, tys).value;
      }
    }
    while i < |tys|
      invariant 0 <= i <= |tys|
      invariant Decode(pts, tys) == Prepend(calls, Decode(pts[i..], tys[i..]))
      decreases |tys| - i
    {
      ghost var i0 := i;
      ghost var calls0 := calls;
      var pathType := tys[i];
      var k := Kind(pathType);
      if k == 0 {
        calls := calls + [JMoveTo(pts[i])];
      } else if k == 1 {
        calls := calls + [JLineTo(pts[i])];
      } else if k == 3 {
        if i + 2 >= |tys| {
          assert |tys[i..]| < Used(tys[i..]);
          return Fail(IndexOutOfRange);
        }
        calls := calls + [JCurveTo(pts[i], pts[i + 1], pts[i + 2])];
        i := i + 2;
        pathType := tys[i];
      }
      if Closes(pathType) {
        calls := calls + [JClosePath];
      }
      i := i + 1;
      assert calls == calls0 + Step(pts[i0..], tys[i0..]);
      assert pts[i0..][i - i0..] == pts[i..];
      assert tys[i0..][i - i0..] == tys[i..];
      PrependAppend(calls0, Step(pts[i0..], tys[i0..]), Decode(pts[i..], tys[i..]));
    }
    assert Decode(pts[i..], tys[i..]) == Ok([]);
    assert calls + [] == calls;
    r := Ok(JavaPath(fillMode, calls));
  }

  /** A figure's start is reported as kind 0 and becomes a moveTo. */
  lemma DecodeStart(p: Point)
    ensures Decode([p], [0]) == Ok([JMoveTo(p)])
  {
    assert [p][1..] == [] && [0 as PathType][1..] == [];
    assert [JMoveTo(p)] + [] == [JMoveTo(p)];
  }

  /** A point of an unknown kind is skipped, but its close flag is honoured. */
  lemma DecodeSkipsUnknownKind(p: Point, t: PathType, pts: seq<Point>, tys: seq<PathType>)
    requires Kind(t) !in {0, 1, 3} && |pts| == |tys|
    ensures Decode([p] + pts, [t] + tys) ==
      Prepend(if Closes(t) then [JClosePath] else [], Decode(pts, tys))
  {
    assert ([p] + pts)[1..] == pts;
    assert ([t] + tys)[1..] == tys;
    assert Step([p] + pts, [t] + tys) == if Closes(t) then [JClosePath] else [];
  }

  // --- GDI+'s encoding of a figure list, the partner of Decode ---

  /**
   * The calls GDI+ itself can report back: every close directly follows a
   * point-producing call.
   */
  predicate Canonical(calls: seq<JavaCall>) {
    forall i :: 0 <= i < |calls| && calls[i].JClosePath? ==> i > 0 && !calls[i - 1].JClosePath?
  }

  datatype Encoded = Encoded(pts: seq<Point>, tys: seq<PathType>)

  function PointsOf(c: JavaCall): seq<Point> {
    match c
    case JMoveTo(p) => [p]
    case JLineTo(p) => [p]
    case JCurveTo(p1, p2, p3) => [p1, p2, p3]
    case JClosePath => []
  }

  function TypesOf(c: JavaCall, closed: bool): seq<PathType> {
    var flag := if closed then 0x80 else 0;
    match c
    case JMoveTo(_) => [0 + flag]
    case JLineTo(_) => [1 + flag]
    case JCurveTo(_, _, _) => [3, 3, 3 + flag]
    case JClosePath => []
  }

  /** PathPoints/PathTypes for a list of calls, following PathPointType. */
  function Encode(calls: seq<JavaCall>): (e: Encoded)
    requires Canonical(calls)
    ensures |e.pts| == |e.tys|
    decreases |calls|
  {
    if |calls| == 0 then Encoded([], [])
    else
      var closed := |calls| > 1 && calls[1].JClosePath?;
      var n := if closed then 2 else 1;
      assert Canonical(calls[n..]) by {
        forall i | 0 <= i < |calls[n..]| && calls[n..][i].JClosePath?
          ensures i > 0 && !calls[n..][i - 1].JClosePath?
        {
          assert calls[i + n].JClosePath?;
        }
      }
      var rest := Encode(calls[n..]);
      Encoded(PointsOf(calls[0]) + rest.pts, TypesOf(calls[0], closed) + rest.tys)
  }

  lemma StepOfEncoded(c: JavaCall, closed: bool, ps: seq<Point>, ts: seq<PathType>)
    requires !c.JClosePath? && |ps| == |ts|
    ensures var pts := PointsOf(c) + ps; var tys := TypesOf(c, closed) + ts;
      |pts| == |tys| && |tys| > 0 && Used(tys) == |PointsOf(c)| &&
      Step(pts, tys) == [c] + (if closed then [JClosePath] else [])
  {
  }

  /** Decoding GDI+'s encoding of a canonical call list gives the calls back. */
  lemma {:induction false} DecodeEncode(calls: seq<JavaCall>)
    requires Canonical(calls)
    ensures Decode(Encode(calls).pts, Encode(calls).tys) == Ok(calls)
    decreases |calls|
  {
    if |calls| == 0 {
    } else {
      var closed := |calls| > 1 && calls[1].JClosePath?;
      var n := if closed then 2 else 1;
      assert !calls[0].JClosePath?;
      assert Canonical(calls[n..]) by {
        forall i | 0 <= i < |calls[n..]| && calls[n..][i].JClosePath?
          ensures i > 0 && !calls[n..][i - 1].JClosePath?
        {
          assert calls[i + n].JClosePath?;
        }
      }
      var rest := Encode(calls[n..]);
      DecodeEncode(calls[n..]);
      var e := Encode(calls);
      var used := |PointsOf(calls[0])|;
      StepOfEncoded(calls[0], closed, rest.pts, rest.tys);
      assert e.pts[used..] == rest.pts;
      assert e.tys[used..] == rest.tys;
      assert calls[..n] == [calls[0]] + (if closed then [JClosePath] else []);
      assert calls[..n] + calls[n..] == calls;
    }
  }

  // ---------------------------------------------------------------------
  // J2C.ConvertRoundRect
  // ---------------------------------------------------------------------

  /**
   * The rounded rectangle as four edges joined by four quarter arcs (upper
   * right, lower right, lower left, upper left), each arc drawn only when
   * both arc diameters are positive. The inset of each edge is half the
   * arc diameter, with C#'s truncating integer division.
   */
  function RoundRect(x: int, y: int, w: int, h: int, aw: int, ah: int): (r: seq<PathCall>)
    ensures aw > 0 && ah > 0 ==> |r| == 9
    ensures !(aw > 0 && ah > 0) ==> |r| == 5
    ensures r[|r| - 1] == CloseFigure
    ensures forall i :: 0 <= i < |r| - 1 ==> r[i].AddLine? || r[i].AddArc?
    ensures forall i :: 0 <= i < |r| && r[i].AddArc? ==> r[i].w == aw && r[i].h == ah && r[i].sweep == 90
  {
    var a := DivTrunc(aw, 2);
    var b := DivTrunc(ah, 2);
    var arcs := aw > 0 && ah > 0;
    var top := [Line(x + a, y, x + w - a, y)];
    var right := [Line(x + w, y + b, x + w, y + h - b)];
    var bottom := [Line(x + w - a, y + h, x + a, y + h)];
    var left := [Line(x, y + h - b, x, y + b)];
    var upperRight := if arcs then [AddArc(x + w - aw, y, aw, ah, 270, 90)] else [];
    var lowerRight := if arcs then [AddArc(x + w - aw, y + h - ah, aw, ah, 0, 90)] else [];
    var lowerLeft := if arcs then [AddArc(x, y + h - ah, aw, ah, 90, 90)] else [];
    var upperLeft := if arcs then [AddArc(x, y, aw, ah, 180, 90)] else [];
    top + upperRight + right + lowerRight + bottom + lowerLeft + left + upperLeft + [CloseFigure]
  }

  function Line(x1: int, y1: int, x2: int, y2: int): PathCall {
    AddLine(Point(x1 as real, y1 as real), Point(x2 as real, y2 as real))
  }

  /** The point of an axis-aligned ellipse at a multiple of 90 degrees (clockwise, y down). */
  function EllipsePoint(x: int, y: int, w: int, h: int, angle: int): Point
    requires angle % 90 == 0
  {
    var cx := x as real + w as real / 2.0;
    var cy := y as real + h as real / 2.0;
    match angle % 360
    case 0 => Point(x as real + w as real, cy)
    case 90 => Point(cx, y as real + h as real)
    case 180 => Point(x as real, cy)
    case _ => Point(cx, y as real)
  }

  predicate Drawing(c: PathCall) {
    c.AddLine? || (c.AddArc? && c.start % 90 == 0 && c.sweep % 90 == 0)
  }

  function StartOf(c: PathCall): Point
    requires Drawing(c)
  {
    match c
    case AddLine(from, _) => from
    case AddArc(x, y, w, h, start, _) => EllipsePoint(x, y, w, h, start)
  }

  function EndOf(c: PathCall): Point
    requires Drawing(c)
  {
    match c
    case AddLine(_, to) => to
    case AddArc(x, y, w, h, start, sweep) => EllipsePoint(x, y, w, h, start + sweep)
  }

  /** Each piece begins where the previous one ends, and the last ends where the first begins. */
  predicate Closed(calls: seq<PathCall>) {
    |calls| > 0 &&
    (forall i :: 0 <= i < |calls| ==> Drawing(calls[i])) &&
    (forall i :: 0 <= i < |calls| - 1 ==> EndOf(calls[i]) == StartOf(calls[i + 1])) &&
    EndOf(calls[|calls| - 1]) == StartOf(calls[0])
  }

  /**
   * With even, positive arc diameters the edges meet the arcs exactly: the
   * outline is one closed curve before CloseFigure is even applied.
   */
  lemma RoundRectIsClosedCurve(x: int, y: int, w: int, h: int, aw: int, ah: int)
    requires aw > 0 && ah > 0 && aw % 2 == 0 && ah % 2 == 0
    ensures var r := RoundRect(x, y, w, h, aw, ah); Closed(r[..8])
  {
    var r := RoundRect(x, y, w, h, aw, ah);
    assert DivTrunc(aw, 2) == aw / 2;
    assert DivTrunc(ah, 2) == ah / 2;
    assert (aw / 2) as real == aw as real / 2.0;
    assert (ah / 2) as real == ah as real / 2.0;
  }

  /** With no arcs the path is the plain rectangle outline. */
  lemma RoundRectWithoutArcsIsRectangle(x: int, y: int, w: int, h: int)
    ensures RoundRect(x, y, w, h, 0, 0) ==
      [Line(x, y, x + w, y), Line(x + w, y, x + w, y + h),
       Line(x + w, y + h, x, y + h), Line(x, y + h, x, y), CloseFigure]
    ensures Closed(RoundRect(x, y, w, h, 0, 0)[..4])
  {
  }

  // ---------------------------------------------------------------------
  // Affine transforms: J2C.ConvertTransform and C2J.ConvertMatrix
  // ---------------------------------------------------------------------

  /** An AffineTransform: [m00 m01 m02; m10 m11 m12]. */
  datatype AffineTransform = AffineTransform(m00: real, m10: real, m01: real, m11: real, m02: real, m12: real)

  /** A System.Drawing.Drawing2D.Matrix and its Elements [M11, M12, M21, M22, dx, dy]. */
  datatype Matrix = Matrix(e11: real, e12: real, e21: real, e22: real, dx: real, dy: real)

  /** J2C.ConvertTransform: scaleX, shearY, shearX, scaleY, translateX, translateY. */
  function ToMatrix(t: AffineTransform): (m: Matrix)
    ensures ApplyMatrix(m, Point(0.0, 0.0)) == ApplyAffine(t, Point(0.0, 0.0))
  {
    Matrix(t.m00, t.m10, t.m01, t.m11, t.m02, t.m12)
  }

  /** C2J.ConvertMatrix: new AffineTransform(matrix.Elements). */
  function ToAffine(m: Matrix): (t: AffineTransform)
    ensures ApplyAffine(t, Point(0.0, 0.0)) == ApplyMatrix(m, Point(0.0, 0.0))
  {
    AffineTransform(m.e11, m.e12, m.e21, m.e22, m.dx, m.dy)
  }

  /** Java's mapping: x' = m00 x + m01 y + m02, y' = m10 x + m11 y + m12. */
  function ApplyAffine(t: AffineTransform, p: Point): Point {
    Point(t.m00 * p.x + t.m01 * p.y + t.m02, t.m10 * p.x + t.m11 * p.y + t.m12)
  }

  /** GDI+'s row-vector mapping: [x y 1] times [M11 M12; M21 M22; dx dy]. */
  function ApplyMatrix(m: Matrix, p: Point): Point {
    Point(p.x * m.e11 + p.y * m.e21 + m.dx, p.x * m.e12 + p.y * m.e22 + m.dy)
  }

  /** The converted matrix moves every point where the Java transform moves it. */
  lemma ToMatrixAgrees(t: AffineTransform, p: Point)
    ensures ApplyMatrix(ToMatrix(t), p) == ApplyAffine(t, p)
  {
    assert p.x * t.m00 == t.m00 * p.x && p.y * t.m01 == t.m01 * p.y;
    assert p.x * t.m10 == t.m10 * p.x && p.y * t.m11 == t.m11 * p.y;
  }

  lemma TransformRoundTrip(t: AffineTransform, m: Matrix)
    ensures ToAffine(ToMatrix(t)) == t
    ensures ToMatrix(ToAffine(m)) == m
  {
  }

  // ---------------------------------------------------------------------
  // Rectangles, regions, glyph vectors
  // ---------------------------------------------------------------------

  datatype IntRect = IntRect(x: int, y: int, w: int, h: int)
  datatype RealRect = RealRect(x: real, y: real, w: real, h: real)

  /** C2J.ConvertRectangle: each component cast to int (toward zero). */
  function ToJavaRect(r: RealRect): (j: IntRect)
    ensures AbsReal(r.x - j.x as real) < 1.0 && AbsReal(r.y - j.y as real) < 1.0
    ensures AbsReal(r.w - j.w as real) < 1.0 && AbsReal(r.h - j.h as real) < 1.0
    ensures AbsReal(j.w as real) <= AbsReal(r.w) && AbsReal(j.h as real) <= AbsReal(r.h)
  {
    IntRect(Truncate(r.x), Truncate(r.y), Truncate(r.w), Truncate(r.h))
  }

  /**
   * J2C.ConvertRect(java.awt.Rectangle): the same four integers, held in
   * the model's real-valued rectangle.
   */
  function ToNetRect(r: IntRect): (n: RealRect)
    ensures n.x == r.x as real && n.y == r.y as real
    ensures n.w == r.w as real && n.h == r.h as real
  {
    RealRect(r.x as real, r.y as real, r.w as real, r.h as real)
  }

  lemma IntRectRoundTrip(r: IntRect)
    ensures ToJavaRect(ToNetRect(r)) == r
  {
  }

  /** A span box as the SpanIterator reports it: [lox, loy, hix, hiy]. */
  datatype Box = Box(lox: int, loy: int, hix: int, hiy: int)

  /** A sun.java2d.pipe.Region: rectangular bounds, or a list of span boxes. */
  datatype JRegion = Rectangular(bounds: Box) | Spans(boxes: seq<Box>)

  /**
   * A System.Drawing.Region: the parameterless Region, whose interior is
   * infinite, one rectangle, or the union of rectangles.
   */
  datatype NetRegion = InfiniteRegion | RectRegion(rect: IntRect) | UnionRegion(rects: seq<IntRect>)

  /** J2C.ConvertRegion; null stays null. */
  function ToNetRegion(r: Option<JRegion>): (n: Option<NetRegion>)
    ensures n.None? <==> r.None?
    ensures r.Some? && r.value.Rectangular? ==>
      var q := r.value.bounds;
      (n.value.InfiniteRegion? <==> q.hix < q.lox || q.hiy < q.loy) &&
      (n.value.RectRegion? ==>
         n.value.rect.w >= 0 && n.value.rect.h >= 0 &&
         n.value.rect.x == q.lox && n.value.rect.y == q.loy &&
         n.value.rect.x + n.value.rect.w == q.hix && n.value.rect.y + n.value.rect.h == q.hiy)
    ensures r.Some? && r.value.Spans? ==>
      n.value.UnionRegion? && |n.value.rects| == |r.value.boxes| &&
      forall i :: 0 <= i < |r.value.boxes| ==>
        n.value.rects[i] == BoxRect(r.value.boxes[i])
  {
    match r
    case None => None
    case Some(Rectangular(b)) =>
      var w := b.hix - b.lox;
      var h := b.hiy - b.loy;
      Some(if w < 0 || h < 0 then InfiniteRegion else RectRegion(IntRect(b.lox, b.loy, w, h)))
    case Some(Spans(boxes)) =>
      Some(UnionRegion(seq(|boxes|, i requires 0 <= i < |boxes| => BoxRect(boxes[i]))))
  }

  /** A span box as a rectangle: its low corner and its extent. */
  function BoxRect(b: Box): IntRect {
    IntRect(b.lox, b.loy, b.hix - b.lox, b.hiy - b.loy)
  }

  /** Whether pixel (x, y) lies in a span box, which is half-open at its high edges. */
  predicate InBox(b: Box, x: int, y: int) {
    b.lox <= x < b.hix && b.loy <= y < b.hiy
  }

  /** Whether pixel (x, y) lies in a System.Drawing.Rectangle. */
  predicate InRect(r: IntRect, x: int, y: int) {
    r.x <= x < r.x + r.w && r.y <= y < r.y + r.h
  }

  /** Whether pixel (x, y) lies in a Java region: in its bounds, or in one of its span boxes. */
  predicate InJRegion(r: JRegion, x: int, y: int) {
    match r
    case Rectangular(b) => InBox(b, x, y)
    case Spans(boxes) => exists i :: 0 <= i < |boxes| && InBox(boxes[i], x, y)
  }

  /** Whether pixel (x, y) lies in a .NET region; the parameterless Region holds every pixel. */
  predicate InNetRegion(n: NetRegion, x: int, y: int) {
    match n
    case InfiniteRegion => true
    case RectRegion(r) => InRect(r, x, y)
    case UnionRegion(rs) => exists i :: 0 <= i < |rs| && InRect(rs[i], x, y)
  }

  /**
   * The converted region holds exactly the pixels of the Java region,
   * except for a rectangular region with a negative extent: that holds no
   * pixel in Java, and every pixel once converted.
   */
  lemma ToNetRegionKeepsPixels(r: JRegion, x: int, y: int)
    ensures var n := ToNetRegion(Some(r)).value;
      if r.Rectangular? && (r.bounds.hix < r.bounds.lox || r.bounds.hiy < r.bounds.loy)
      then !InJRegion(r, x, y) && InNetRegion(n, x, y)
      else InNetRegion(n, x, y) <==> InJRegion(r, x, y)
  {
    var n := ToNetRegion(Some(r)).value;
    if r.Spans? {
      if InJRegion(r, x, y) {
        var i :| 0 <= i < |r.boxes| && InBox(r.boxes[i], x, y);
        assert InRect(n.rects[i], x, y);
      }
      if InNetRegion(n, x, y) {
        var i :| 0 <= i < |n.rects| && InRect(n.rects[i], x, y);
        assert InBox(r.boxes[i], x, y);
      }
    }
  }

  /** J2C.ConvertGlyphVector: every glyph code cast to a 16-bit char. */
  function GlyphText(codes: seq<int>): (s: seq<int>)
    ensures |s| == |codes|
    ensures forall i :: 0 <= i < |codes| ==> 0 <= s[i] < 0x1_0000 && (s[i] - codes[i]) % 0x1_0000 == 0
  {
    seq(|codes|, i requires 0 <= i < |codes| => codes[i] % 0x1_0000)
  }

  /** Codes that are already UTF-16 units pass through unchanged. */
  lemma GlyphTextKeepsChars(codes: seq<int>)
    requires forall i :: 0 <= i < |codes| ==> 0 <= codes[i] < 0x1_0000
    ensures GlyphText(codes) == codes
  {
  }
}

=== FILE: print_graphics.dfy ===
/**
 * PrintGraphics: Graphics.create() emulated on a single native printer
 * graphics. Every PrintGraphics of one print job draws on the same
 * native graphics; the job remembers which of them last set it up (the
 * "current" one), and an operation on another first saves the current
 * one's state into its snapshot and re-applies its own.
 */
module PrintGraphics {
  import opened Base
  import opened Graphics
  import opened GraphicsState
  import FontMetrics

  /** One PrintGraphics object: its NetGraphics fields, its saved state, and its flags. */
  datatype PrintObject = PrintObject(gfx: Gfx, myState: Option<Snapshot>, disposed: bool, isBase: bool)

  /**
   * A print job: the shared native graphics, the objects drawing on it,
   * the current one (PrintGraphicsContext.Current), and the allocators
   * for pen/brush identities and object identities.
   */
  datatype PrintJob = PrintJob(
    native: Native, nativeDisposed: bool, objects: map<nat, PrintObject>, current: nat,
    nextId: nat, nextObject: nat)

  predicate ValidJob(j: PrintJob)
  {
    j.current in j.objects && forall k :: k in j.objects ==> k < j.nextObject
  }

  /** An object's NetGraphics view: its own fields on the job's shared native graphics and allocator. */
  function Bound(j: PrintJob, id: nat): (s: Gfx)
    requires id in j.objects
    ensures s.g == Some(j.native) && s.nextId == j.nextId
  {
    j.objects[id].gfx.(g := Some(j.native), nextId := j.nextId)
  }

  /** Writes an object back, its native graphics and allocator becoming the job's. */
  function Put(j: PrintJob, id: nat, o: PrintObject, s: Gfx): (r: PrintJob)
    requires id in j.objects && s.g.Some?
    ensures r.objects.Keys == j.objects.Keys && r.current == j.current && r.nextObject == j.nextObject
    ensures r.native == s.g.value && r.nextId == s.nextId && r.objects[id] == o.(gfx := s)
    ensures forall k :: k in j.objects && k != id ==> r.objects[k] == j.objects[k]
  {
    j.(native := s.g.value, nextId := s.nextId, objects := j.objects[id := o.(gfx := s)])
  }

  /** The saving half of checkState: the current object, unless disposed, saves into its snapshot. */
  function SaveCurrent(j: PrintJob): (r: PrintJob)
    requires ValidJob(j)
    ensures ValidJob(r) && r.objects.Keys == j.objects.Keys && r.current == j.current
    ensures r.native == j.native
    ensures j.objects[j.current].disposed ==> r == j
    ensures !j.objects[j.current].disposed ==> r.objects[j.current].myState.Some?
    ensures forall k :: k in j.objects && k != j.current ==> r.objects[k] == j.objects[k]
  {
    var c := j.current;
    var o := j.objects[c];
    if o.disposed then j
    else
      var st := if o.myState.None? then GraphicsState.Empty else o.myState.value;
      var (snap, s) := SaveGraphics(st, Some(Bound(j, c)));
      Put(j, c, o.(myState := Some(snap)), s.value)
  }

  /** The restoring half of checkState: the object re-applies its own snapshot, if it has one. */
  function RestoreOwn(j: PrintJob, id: nat, baselineOf: FontMetrics.TextHint -> int): (r: PrintJob)
    requires ValidJob(j) && id in j.objects
    ensures ValidJob(r) && r.objects.Keys == j.objects.Keys && r.current == j.current
    ensures j.objects[id].myState.None? ==> r == j
    ensures forall k :: k in j.objects && k != id ==> r.objects[k] == j.objects[k]
    ensures j.objects[id].myState.Some? && j.objects[id].myState.value.native.Some?
            && j.objects[id].myState.value.pen.Some? && j.objects[id].myState.value.brush.Some? ==>
              r.native == j.objects[id].myState.value.native.value
  {
    var o := j.objects[id];
    if o.myState.None? then j
    else
      var res := RestoreGraphics(o.myState.value, Some(Bound(j, id)), baselineOf);
      Put(j, id, o, res.target.value)
  }

  /**
   * checkState: nothing to do when `me` is already current; otherwise the
   * current object saves its state (unless disposed), `me` becomes
   * current and restores its own state.
   */
  function CheckState(j: PrintJob, me: nat, baselineOf: FontMetrics.TextHint -> int): (r: PrintJob)
    requires ValidJob(j) && me in j.objects
    ensures ValidJob(r) && r.current == me && r.objects.Keys == j.objects.Keys
    ensures j.current == me ==> r == j
    ensures j.current != me && j.objects[me].myState.None? ==> r.native == j.native
  {
    if j.current == me then j
    else RestoreOwn(SaveCurrent(j).(current := me), me, baselineOf)
  }

  /**
   * create: after checkState, the creator saves its state into a fresh
   * snapshot; the copy (no snapshot of its own, not the base) becomes
   * current and the creator's snapshot is restored onto it.
   */
  function Create(j: PrintJob, me: nat, baselineOf: FontMetrics.TextHint -> int): (r: (PrintJob, nat))
    requires ValidJob(j) && me in j.objects
    ensures ValidJob(r.0) && r.1 !in j.objects && r.0.objects.Keys == j.objects.Keys + {r.1}
    ensures r.0.current == r.1
    ensures r.0.objects[r.1].myState.None? && !r.0.objects[r.1].isBase
    ensures r.0.objects[me].myState.Some?
  {
    var j1 := CheckState(j, me, baselineOf);
    var o := j1.objects[me];
    var (snap, s) := SaveGraphics(GraphicsState.Empty, Some(Bound(j1, me)));
    var j2 := Put(j1, me, o.(myState := Some(snap)), s.value);
    var child := j2.objects[me].(myState := None, isBase := false);
    var id := j2.nextObject;
    var j3 := j2.(objects := j2.objects[id := child], current := id, nextObject := id + 1);
    var res := RestoreGraphics(snap, Some(Bound(j3, id)), baselineOf);
    (Put(j3, id, child, res.target.value), id)
  }

  /**
   * The copy starts from its creator's state: the same native modes, and
   * pen and brush of the same contents under identities of its own.
   */
  lemma CreateCopiesState(j: PrintJob, me: nat, baselineOf: FontMetrics.TextHint -> int)
    requires ValidJob(j) && me in j.objects && j.current == me
    requires j.objects[me].gfx.pen.Some? && j.objects[me].gfx.brush.Some?
    requires j.objects[me].gfx.pen.value.id < j.nextId && j.objects[me].gfx.brush.value.id < j.nextId
    ensures var (r, child) := Create(j, me, baselineOf);
            var c := r.objects[child].gfx;
            var p := j.objects[me].gfx;
            && r.native == j.native
            && c.pen.Some? && c.pen.value.(id := 0) == p.pen.value.(id := 0) && c.pen.value.id != p.pen.value.id
            && c.brush.Some? && c.brush.value.(id := 0) == p.brush.value.(id := 0) && c.brush.value.id != p.brush.value.id
  {
    var (snap, s) := SaveGraphics(GraphicsState.Empty, Some(Bound(j, me)));
    assert snap.native == Some(j.native);
    assert snap.pen.value.(id := 0) == j.objects[me].gfx.pen.value.(id := 0);
    assert snap.brush.value.(id := 0) == j.objects[me].gfx.brush.value.(id := 0);
    assert s.value.nextId == j.nextId + 2;
  }

  /**
   * Whatever the copy does to the shared native graphics, the creator's
   * next operation finds the native modes as they were when it created
   * the copy.
   */
  lemma ParentSeesOwnState(j: PrintJob, me: nat, changed: Native, baselineOf: FontMetrics.TextHint -> int)
    requires ValidJob(j) && me in j.objects && j.current == me
    requires j.objects[me].gfx.pen.Some? && j.objects[me].gfx.brush.Some?
    ensures var (r, child) := Create(j, me, baselineOf);
            CheckState(r.(native := changed), me, baselineOf).native == j.native
  {
    var (r, child) := Create(j, me, baselineOf);
    var r2 := r.(native := changed);
    var snap := r.objects[me].myState.value;
    assert snap.native == Some(j.native) && snap.pen.Some? && snap.brush.Some?;
    var saved := SaveCurrent(r2).(current := me);
    assert saved.objects[me] == r.objects[me];
  }

  /**
   * dispose: the snapshot is dropped and the object marked disposed; only
   * the base object disposes the shared native graphics.
   */
  function Dispose(j: PrintJob, me: nat): (r: PrintJob)
    requires ValidJob(j) && me in j.objects
    ensures ValidJob(r) && r.current == j.current && r.native == j.native && r.objects.Keys == j.objects.Keys
    ensures r.objects[me].disposed && r.objects[me].myState.None?
    ensures r.nativeDisposed <==> j.nativeDisposed || j.objects[me].isBase
  {
    var o := j.objects[me];
    j.(objects := j.objects[me := o.(myState := None, disposed := true)],
       nativeDisposed := j.nativeDisposed || o.isBase)
  }

  /** A disposed current object is not saved when another object takes over. */
  lemma DisposedCurrentNotSaved(j: PrintJob, other: nat, baselineOf: FontMetrics.TextHint -> int)
    requires ValidJob(j) && other in j.objects && other != j.current
    ensures var d := Dispose(j, j.current);
            CheckState(d, other, baselineOf).objects[j.current].myState.None?
  {
  }

  /** The operations PrintGraphics overrides, as far as the protocol is concerned. */
  datatype Operation =
    | Drawing(op: Gfx -> Gfx)   // any wrapped NetGraphics operation, which runs checkState first
    | DeviceConfiguration       // getDeviceConfiguration, which skips checkState
    | CopyArea                  // copyArea, which always throws

  /** The NetGraphics a wrapped operation on `me` works on: its own fields once checkState has run. */
  function Received(j: PrintJob, me: nat, baselineOf: FontMetrics.TextHint -> int): (s: Gfx)
    requires ValidJob(j) && me in j.objects
    ensures s.g == Some(CheckState(j, me, baselineOf).native)
  {
    Bound(CheckState(j, me, baselineOf), me)
  }

  /**
   * One operation on object `me` of the job. A drawing operation runs on
   * the state checkState leaves, and what it leaves behind is written
   * back into `me` (an operation that drops the native graphics leaves
   * the job's in place); every other object keeps what checkState left it.
   */
  function Perform(j: PrintJob, me: nat, op: Operation, baselineOf: FontMetrics.TextHint -> int): (r: Result<PrintJob>)
    requires ValidJob(j) && me in j.objects
    ensures op.Drawing? ==> r.Ok? && ValidJob(r.value) && r.value.current == me
    ensures op.Drawing? ==>
      var j1 := CheckState(j, me, baselineOf);
      var s := op.op(Received(j, me, baselineOf));
      && r.value.objects.Keys == j.objects.Keys
      && r.value.objects[me] == j1.objects[me].(gfx := if s.g.Some? then s else s.(g := Some(j1.native)))
      && r.value.native == (if s.g.Some? then s.g.value else j1.native)
      && r.value.nextId == s.nextId
      && forall k :: k in j.objects && k != me ==> r.value.objects[k] == j1.objects[k]
    ensures op.DeviceConfiguration? ==> r == Ok(j)
    ensures op.CopyArea? ==> r == Fail(NotImplemented)
  {
    match op
    case Drawing(f) =>
      var j1 := CheckState(j, me, baselineOf);
      var s := f(Bound(j1, me));
      if s.g.Some? then Ok(Put(j1, me, j1.objects[me], s))
      else Ok(Put(j1, me, j1.objects[me], s.(g := Some(j1.native))))
    case DeviceConfiguration => Ok(j)
    case CopyArea => Fail(NotImplemented)
  }

  /** Switching to an object with a full snapshot puts that snapshot's native modes back. */
  lemma SwitchRestoresSnapshot(k: PrintJob, me: nat, baselineOf: FontMetrics.TextHint -> int)
    requires ValidJob(k) && me in k.objects && k.current != me
    requires k.objects[me].myState.Some? && k.objects[me].myState.value.native.Some?
    requires k.objects[me].myState.value.pen.Some? && k.objects[me].myState.value.brush.Some?
    ensures CheckState(k, me, baselineOf).native == k.objects[me].myState.value.native.value
  {
    var saved := SaveCurrent(k).(current := me);
    assert saved.objects[me] == k.objects[me];
  }

  /**
   * Through the dispatcher: after create, whatever drawing operation the
   * copy performs, the creator's next drawing operation is handed the
   * native modes the creator had when it made the copy.
   */
  lemma ParentDrawsOnOwnState(j: PrintJob, me: nat, childOp: Gfx -> Gfx, baselineOf: FontMetrics.TextHint -> int)
    requires ValidJob(j) && me in j.objects && j.current == me
    requires j.objects[me].gfx.pen.Some? && j.objects[me].gfx.brush.Some?
    ensures var (r, child) := Create(j, me, baselineOf);
            var r2 := Perform(r, child, Drawing(childOp), baselineOf);
            && r2.Ok? && me in r2.value.objects
            && Received(r2.value, me, baselineOf).g == Some(j.native)
  {
    var (r, child) := Create(j, me, baselineOf);
    var snap := r.objects[me].myState.value;
    assert snap.native == Some(j.native) && snap.pen.Some? && snap.brush.Some? by {
      ParentSeesOwnState(j, me, j.native, baselineOf);
      var (snap0, s0) := SaveGraphics(GraphicsState.Empty, Some(Bound(j, me)));
      assert snap0.native == Some(j.native);
    }
    var r2 := Perform(r, child, Drawing(childOp), baselineOf).value;
    assert r2.objects[me] == r.objects[me];
    SwitchRestoresSnapshot(r2, me, baselineOf);
  }
}

=== FILE: printer_status.dfy ===
/**
 * Win32PrintPeer.getPrinterStatus: the decoding of a Win32 printer status
 * word (PRINTER_INFO_2.Status) into the javax.print attributes PrinterState,
 * PrinterStateReasons, QueuedJobCount and PrinterIsAcceptingJobs. The
 * status word and job count are inputs; the spooler lookup is not modelled.
 *
 * The status word is modelled as the set of its PRINTER_STATUS_* bits. The
 * source tests `(status & mask) > 0` on a signed int; none of its masks has
 * the sign bit, so that test is "some bit of the mask is in the set".
 */
module PrinterStatus {
  import opened Base

  /** The PRINTER_STATUS_* bits, 0x1 through 0x1000000 in this order. */
  datatype StatusBit =
    | Paused | Error | PendingDeletion | PaperJam | PaperOut | ManualFeed | PaperProblem | Offline
    | IoActive | Busy | Printing | OutputBinFull | NotAvailable | Waiting | Processing | Initializing
    | WarmingUp | TonerLow | NoToner | PagePunt | UserIntervention | OutOfMemory | DoorOpen
    | ServerUnknown | PowerSave

  type Status = set<StatusBit>

  /** The bits that refuse new jobs, and with NOT_AVAILABLE the bits that stop the printer. */
  const RefusingBits: set<StatusBit> := {Error, NoToner, OutOfMemory, Offline, UserIntervention, DoorOpen}
  const StoppingBits: set<StatusBit> := RefusingBits + {NotAvailable}
  const ProcessingBits: set<StatusBit> := {Busy, Printing}

  /** Whether the word has a bit of the mask. */
  predicate AnyOf(status: Status, mask: set<StatusBit>)
  {
    exists b :: b in mask && b in status
  }

  // ---------------------------------------------------------------------
  // The attributes
  // ---------------------------------------------------------------------

  /** javax.print.attribute.standard.PrinterState, as far as it is reported. */
  datatype PrinterState = Stopped | ProcessingState

  /** The PrinterStateReason values the decoding reports. */
  datatype Reason = ReasonPaused | Other | MediaJam | MediaEmpty | TimedOut | OutputAreaFull | ReasonTonerLow | TonerEmpty | ReasonDoorOpen

  datatype Severity = Report | Warning | SeverityError

  /** The reason a bit reports, if any. */
  function ReasonOf(b: StatusBit): Option<Reason>
  {
    match b
    case Paused | PowerSave => Some(ReasonPaused)
    case Error | UserIntervention | OutOfMemory => Some(Other)
    case PaperJam => Some(MediaJam)
    case PaperOut => Some(MediaEmpty)
    case Offline => Some(TimedOut)
    case OutputBinFull => Some(OutputAreaFull)
    case TonerLow => Some(ReasonTonerLow)
    case NoToner => Some(TonerEmpty)
    case DoorOpen => Some(ReasonDoorOpen)
    case _ => None
  }

  /** The severity every report of a reason carries. */
  function SeverityOf(k: Reason): Severity
  {
    match k
    case ReasonPaused => Report
    case MediaJam | MediaEmpty | OutputAreaFull | ReasonTonerLow => Warning
    case Other | TimedOut | TonerEmpty | ReasonDoorOpen => SeverityError
  }

  /** Whether some bit of the word reports reason `k`. */
  predicate Reports(status: Status, k: Reason)
  {
    exists b :: b in status && ReasonOf(b) == Some(k)
  }

  /** PrinterState: stopped on any stopping bit, else processing when busy or printing, else null. */
  function StateOf(status: Status): (r: Option<PrinterState>)
    ensures r == Some(Stopped) <==> AnyOf(status, StoppingBits)
    ensures r == Some(ProcessingState) <==> !AnyOf(status, StoppingBits) && AnyOf(status, ProcessingBits)
  {
    if AnyOf(status, StoppingBits) then Some(Stopped)
    else if AnyOf(status, ProcessingBits) then Some(ProcessingState)
    else None
  }

  /** PrinterIsAcceptingJobs: refused on any refusing bit. */
  function AcceptingJobs(status: Status): (accepting: bool)
    ensures !accepting <==> AnyOf(status, RefusingBits)
  {
    !AnyOf(status, RefusingBits)
  }

  /** The reporting bits in the order the source tests them. */
  const ReportingOrder: seq<StatusBit> :=
    [Paused, Error, PaperJam, PaperOut, Offline, OutputBinFull, TonerLow, NoToner, UserIntervention, OutOfMemory, DoorOpen, PowerSave]

  predicate AllReporting(bits: seq<StatusBit>)
  {
    forall i :: 0 <= i < |bits| ==> ReasonOf(bits[i]).Some?
  }

  /** Every bit with a reason is examined. */
  lemma ReportingOrderComplete(b: StatusBit)
    ensures ReasonOf(b).Some? <==> b in ReportingOrder
  {
    assert ReportingOrder[0] == Paused && ReportingOrder[1] == Error && ReportingOrder[2] == PaperJam;
    assert ReportingOrder[3] == PaperOut && ReportingOrder[4] == Offline && ReportingOrder[5] == OutputBinFull;
    assert ReportingOrder[6] == TonerLow && ReportingOrder[7] == NoToner && ReportingOrder[8] == UserIntervention;
    assert ReportingOrder[9] == OutOfMemory && ReportingOrder[10] == DoorOpen && ReportingOrder[11] == PowerSave;
  }

  /** The reason map after one `put` for a bit, when the bit is set. */
  function PutIf(m: map<Reason, Severity>, status: Status, bit: StatusBit): map<Reason, Severity>
    requires ReasonOf(bit).Some?
  {
    if bit in status then m[ReasonOf(bit).value := SeverityOf(ReasonOf(bit).value)] else m
  }

  /** The puts for the given bits, one after the other. */
  function Collect(status: Status, bits: seq<StatusBit>): map<Reason, Severity>
    requires AllReporting(bits)
  {
    if |bits| == 0 then map[]
    else PutIf(Collect(status, bits[..|bits| - 1]), status, bits[|bits| - 1])
  }

  /** Whether one of the given bits is in the word and reports `k`. */
  predicate ReportedBy(status: Status, bits: seq<StatusBit>, k: Reason)
  {
    exists i :: 0 <= i < |bits| && bits[i] in status && ReasonOf(bits[i]) == Some(k)
  }

  /** The puts hold exactly the reasons their set bits report, each with its severity. */
  lemma {:induction false} CollectAgrees(status: Status, bits: seq<StatusBit>, k: Reason)
    requires AllReporting(bits)
    ensures k in Collect(status, bits) <==> ReportedBy(status, bits, k)
    ensures k in Collect(status, bits) ==> Collect(status, bits)[k] == SeverityOf(k)
    decreases |bits|
  {
    if |bits| > 0 {
      var front := bits[..|bits| - 1];
      CollectAgrees(status, front, k);
      if ReportedBy(status, front, k) {
        var i :| 0 <= i < |front| && front[i] in status && ReasonOf(front[i]) == Some(k);
        assert bits[i] == front[i];
      }
      if ReportedBy(status, bits, k) && !(bits[|bits| - 1] in status && ReasonOf(bits[|bits| - 1]) == Some(k)) {
        var i :| 0 <= i < |bits| && bits[i] in status && ReasonOf(bits[i]) == Some(k);
        assert i < |front| && front[i] == bits[i];
      }
    }
  }

  /**
   * extractResions: one put per reporting bit in the source's order (a
   * later put of the same reason replaces the earlier one, always with the
   * same severity); null when nothing was put.
   */
  function ExtractReasons(status: Status): (r: Option<map<Reason, Severity>>)
    ensures r.None? <==> forall b :: b in status ==> ReasonOf(b).None?
    ensures r.Some? ==> forall k: Reason :: k in r.value <==> Reports(status, k)
    ensures r.Some? ==> forall k: Reason :: k in r.value ==> r.value[k] == SeverityOf(k)
  {
    var m := Collect(status, ReportingOrder);
    assert forall k: Reason :: (k in m <==> Reports(status, k)) && (k in m ==> m[k] == SeverityOf(k)) by {
      forall k: Reason ensures (k in m <==> Reports(status, k)) && (k in m ==> m[k] == SeverityOf(k)) {
        CollectAgrees(status, ReportingOrder, k);
        if Reports(status, k) {
          var b :| b in status && ReasonOf(b) == Some(k);
          ReportingOrderComplete(b);
          var i :| 0 <= i < |ReportingOrder| && ReportingOrder[i] == b;
        }
      }
    }
    if exists b :: b in status && ReasonOf(b).Some? then
      var b :| b in status && ReasonOf(b).Some?;
      assert Reports(status, ReasonOf(b).value);
      Some(m)
    else
      assert forall k: Reason :: k !in m;
      None
  }

  /** The bits without a reason change nothing in the reasons. */
  lemma SilentBitsAddNoReason(status: Status, silent: set<StatusBit>)
    requires forall b :: b in silent ==> ReasonOf(b).None?
    ensures ExtractReasons(status + silent) == ExtractReasons(status)
  {
    var a := ExtractReasons(status + silent);
    var c := ExtractReasons(status);
    if a.Some? {
      assert forall k: Reason :: Reports(status + silent, k) <==> Reports(status, k);
      assert a.value.Keys == c.value.Keys;
      assert a.value == c.value;
    }
  }

  /** The printer refuses jobs exactly when some reason it reports is an error. */
  lemma RefusesIffErrorReason(status: Status)
    ensures !AcceptingJobs(status) <==>
      ExtractReasons(status).Some? && exists k: Reason :: k in ExtractReasons(status).value && SeverityOf(k) == SeverityError
  {
    var r := ExtractReasons(status);
    if !AcceptingJobs(status) {
      var b :| b in RefusingBits && b in status;
      ErrorReasonIffRefusing(b);
      var k := ReasonOf(b).value;
      assert Reports(status, k);
      assert k in r.value && SeverityOf(k) == SeverityError;
    } else if r.Some? {
      forall k: Reason | k in r.value
        ensures SeverityOf(k) != SeverityError
      {
        var b :| b in status && ReasonOf(b) == Some(k);
        ErrorReasonIffRefusing(b);
      }
    }
  }

  /** A bit gives a reason of error severity exactly when it is a refusing bit. */
  lemma ErrorReasonIffRefusing(b: StatusBit)
    ensures ReasonOf(b).Some? && SeverityOf(ReasonOf(b).value) == SeverityError <==> b in RefusingBits
  {
  }

  /**
   * The printer is stopped exactly when it refuses jobs or reports
   * NOT_AVAILABLE; that bit alone stops it without a reason and leaves it
   * accepting jobs.
   */
  lemma StoppedIffRefusingOrUnavailable(status: Status)
    ensures StateOf(status) == Some(Stopped) <==> !AcceptingJobs(status) || NotAvailable in status
    ensures StateOf({NotAvailable}) == Some(Stopped) && AcceptingJobs({NotAvailable}) && ExtractReasons({NotAvailable}).None?
  {
    if NotAvailable in status {
      assert NotAvailable in StoppingBits;
    }
    if AnyOf(status, StoppingBits) && !AnyOf(status, RefusingBits) {
      var b :| b in StoppingBits && b in status;
      assert b == NotAvailable;
    }
    assert NotAvailable in StoppingBits;
  }

  // ---------------------------------------------------------------------
  // getPrinterStatus
  // ---------------------------------------------------------------------

  /** The attribute categories the peer answers; any other category is answered with null. */
  datatype Category = PrinterStateCategory | ReasonsCategory | QueuedJobCountCategory | AcceptingJobsCategory | OtherCategory

  datatype Attribute =
    | StateAttribute(state: PrinterState)
    | ReasonsAttribute(reasons: map<Reason, Severity>)
    | QueuedJobCount(jobs: nat)
    | AcceptingAttribute(accepting: bool)

  /** The two PRINTER_INFO_2 fields read: the job count and the status word. */
  datatype PrinterInfo = PrinterInfo(cJobs: int, status: Status)

  /**
   * getPrinterStatus: null when the printer could not be queried or the
   * category is not one of the four; otherwise the decoded attribute
   * (itself null for an idle state or an empty reason set). A negative job
   * count makes the QueuedJobCount constructor throw.
   */
  function GetPrinterStatus(info: Option<PrinterInfo>, category: Category): (r: Result<Option<Attribute>>)
    ensures info.None? || category == OtherCategory ==> r == Ok(None)
    ensures r.Fail? <==> info.Some? && category == QueuedJobCountCategory && info.value.cJobs < 0
    ensures r.Fail? ==> r.error == IllegalArgument
    ensures info.Some? && category == QueuedJobCountCategory && info.value.cJobs >= 0 ==>
      r == Ok(Some(QueuedJobCount(info.value.cJobs)))
    ensures info.Some? && category == PrinterStateCategory ==>
      r.Ok? && (r.value.Some? <==> StateOf(info.value.status).Some?)
      && (r.value.Some? ==> r.value.value == StateAttribute(StateOf(info.value.status).value))
    ensures info.Some? && category == ReasonsCategory ==>
      r.Ok? && (r.value.None? <==> forall b :: b in info.value.status ==> ReasonOf(b).None?)
    ensures info.Some? && category == ReasonsCategory && r.Ok? && r.value.Some? ==>
      r.value.value == ReasonsAttribute(ExtractReasons(info.value.status).value)
    ensures info.Some? && category == AcceptingJobsCategory ==>
      r == Ok(Some(AcceptingAttribute(!AnyOf(info.value.status, RefusingBits))))
  {
    if info.None? then Ok(None)
    else
      var status := info.value.status;
      match category
      case PrinterStateCategory =>
        var s := StateOf(status);
        Ok(if s.Some? then Some(StateAttribute(s.value)) else None)
      case ReasonsCategory =>
        var rs := ExtractReasons(status);
        Ok(if rs.Some? then Some(ReasonsAttribute(rs.value)) else None)
      case QueuedJobCountCategory =>
        if info.value.cJobs < 0 then Fail(IllegalArgument) else Ok(Some(QueuedJobCount(info.value.cJobs)))
      case AcceptingJobsCategory => Ok(Some(AcceptingAttribute(AcceptingJobs(status))))
      case OtherCategory => Ok(None)
  }

  /**
   * The attributes one status word yields agree with each other: jobs are
   * refused exactly when an ERROR reason is reported, and the printer is
   * STOPPED exactly when it refuses jobs or reports NOT_AVAILABLE.
   */
  lemma StatusAttributesAgree(info: PrinterInfo)
    ensures var accepting := GetPrinterStatus(Some(info), AcceptingJobsCategory);
      var reasons := GetPrinterStatus(Some(info), ReasonsCategory);
      var state := GetPrinterStatus(Some(info), PrinterStateCategory);
      && (accepting == Ok(Some(AcceptingAttribute(false))) <==>
            reasons.Ok? && reasons.value.Some? &&
            exists k: Reason :: k in reasons.value.value.reasons && reasons.value.value.reasons[k] == SeverityError)
      && (state == Ok(Some(StateAttribute(Stopped))) <==>
            accepting == Ok(Some(AcceptingAttribute(false))) || NotAvailable in info.status)
  {
    RefusesIffErrorReason(info.status);
    StoppedIffRefusingOrUnavailable(info.status);
  }
}

=== FILE: stroke.dfy ===
/**
 * Translating a java.awt.BasicStroke into the settings of a GDI+ Pen
 * (NetGraphics.setStroke, SetLineJoin, SetLineDash and J2C.ConvertLineJoin).
 *
 * GDI+ measures dash lengths and the dash offset in multiples of the pen
 * width, and has no square dash cap; Java measures everything in user
 * units. The translation divides by the line width where it is above 1,
 * doubles odd-length dash arrays (Java repeats them, GDI+ needs on/off
 * pairs), drops the "{x, 0}" solid pattern GDI+ rejects, and emulates the
 * square cap by lengthening dashes and shortening gaps by one unit each.
 */
module Stroke {
  import opened Base

  const CAP_BUTT: int := 0
  const CAP_ROUND: int := 1
  const CAP_SQUARE: int := 2
  const JOIN_MITER: int := 0
  const JOIN_ROUND: int := 1
  const JOIN_BEVEL: int := 2

  /** The smallest gap the square-cap emulation leaves (0.00001F). */
  const MinGap: real := 0.00001
  /** The width a zero-width dashed pen is widened to (0.001F). */
  const HairlineWidth: real := 0.001

  datatype BasicStroke = BasicStroke(
    width: real, cap: int, join: int, miterLimit: real,
    dash: Option<seq<real>>, phase: real)

  /** new BasicStroke(): width 1, square caps, miter joins, miter limit 10, no dashes. */
  const DefaultStroke: BasicStroke := BasicStroke(1.0, CAP_SQUARE, JOIN_MITER, 10.0, None, 0.0)

  /** The checks the BasicStroke constructor makes on a dash array and its phase. */
  predicate ValidDash(s: BasicStroke) {
    s.width >= 0.0 && s.phase >= 0.0 &&
    (s.dash.Some? ==>
      |s.dash.value| > 0 &&
      (forall i :: 0 <= i < |s.dash.value| ==> s.dash.value[i] >= 0.0) &&
      (exists i :: 0 <= i < |s.dash.value| && s.dash.value[i] > 0.0))
  }

  /** System.Drawing.Drawing2D.LineJoin (Miter = 0, Bevel = 1, Round = 2). */
  datatype LineJoin = Miter | Bevel | Round

  function LineJoinValue(j: LineJoin): int {
    match j
    case Miter => 0
    case Bevel => 1
    case Round => 2
  }

  datatype DashStyle = Solid | Custom
  datatype DashCap = Flat | RoundCap

  datatype Pen = Pen(
    width: real, miterLimit: real, join: LineJoin,
    dashStyle: DashStyle, dashPattern: seq<real>, dashOffset: real, dashCap: DashCap)

  /** The Java join each GDI+ join stands for. */
  function JavaJoin(j: LineJoin): int {
    match j
    case Miter => JOIN_MITER
    case Round => JOIN_ROUND
    case Bevel => JOIN_BEVEL
  }

  /** J2C.ConvertLineJoin: an unknown join is reported (logged) and becomes Miter. */
  function ConvertLineJoin(join: int): (r: (LineJoin, bool))
    ensures r.1 <==> join !in {JOIN_MITER, JOIN_ROUND, JOIN_BEVEL}
    ensures !r.1 ==> JavaJoin(r.0) == join
    ensures r.1 ==> r.0 == Miter
  {
    if join == JOIN_MITER then (Miter, false)
    else if join == JOIN_ROUND then (Round, false)
    else if join == JOIN_BEVEL then (Bevel, false)
    else (Miter, true)
  }

  lemma LineJoinRoundTrip(j: LineJoin)
    ensures ConvertLineJoin(JavaJoin(j)) == (j, false)
  {
  }

  /** The two enumerations number round and bevel differently, so a plain cast would swap them. */
  lemma LineJoinIsNotACast()
    ensures LineJoinValue(ConvertLineJoin(JOIN_ROUND).0) != JOIN_ROUND
    ensures LineJoinValue(ConvertLineJoin(JOIN_BEVEL).0) != JOIN_BEVEL
  {
  }

  // ---------------------------------------------------------------------
  // The dash pattern
  // ---------------------------------------------------------------------

  /** An odd-length array is followed by a copy of itself. */
  function Paired(d: seq<real>): (r: seq<real>)
    ensures |d| % 2 == 1 ==> |r| == 2 * |d|
    ensures |d| % 2 == 0 ==> r == d
    ensures |d| % 2 == 1 ==> r[..|d|] == d && r[|d|..] == d
  {
    if |d| % 2 == 1 then d + d else d
  }

  /** A length in multiples of the line width, when the line is wider than 1. */
  function Unit(x: real, width: real): real {
    if width > 1.0 then x / width else x
  }

  /** The factor GDI+ multiplies a pen-unit length by: the width, for lines wider than 1. */
  function Scale(width: real): real {
    if width > 1.0 then width else 1.0
  }

  lemma UnitScale(x: real, width: real)
    ensures Unit(x, width) * Scale(width) == x
    ensures x >= 0.0 ==> Unit(x, width) >= 0.0
    ensures x > 0.0 ==> Unit(x, width) > 0.0
  {
  }

  function InPenUnits(d: seq<real>, width: real): (r: seq<real>)
    ensures |r| == |d|
    ensures forall i :: 0 <= i < |d| ==> r[i] == Unit(d[i], width)
  {
    seq(|d|, i requires 0 <= i < |d| => Unit(d[i], width))
  }

  /** The pair {x, 0} (a solid line in Java) is cut to {x}. */
  function WithoutZeroGap(d: seq<real>): (r: seq<real>)
    ensures |d| == 2 && d[1] == 0.0 ==> r == d[..1]
    ensures !(|d| == 2 && d[1] == 0.0) ==> r == d
  {
    if |d| == 2 && d[1] == 0.0 then d[..1] else d
  }

  /** The square-cap emulation: dashes one unit longer, gaps one unit shorter but positive. */
  function SquareCapped(d: seq<real>): (r: seq<real>)
    ensures |r| == |d|
    ensures forall i :: 0 <= i < |d| && i % 2 == 0 ==> r[i] == d[i] + 1.0
    ensures forall i :: 0 <= i < |d| && i % 2 == 1 ==> r[i] == MaxReal(MinGap, d[i] - 1.0)
  {
    seq(|d|, i requires 0 <= i < |d| => if i % 2 == 0 then d[i] + 1.0 else MaxReal(MinGap, d[i] - 1.0))
  }

  /** The pattern before any cap correction. */
  function BasePattern(d: seq<real>, width: real): seq<real> {
    WithoutZeroGap(InPenUnits(Paired(d), width))
  }

  /**
   * The pen width and dash offset for a (possibly square-shifted) phase:
   * the offset counts pen widths, and a pen of zero width with a positive
   * phase is first widened to a hairline.
   */
  function DashOffset(penWidth: real, lineWidth: real, phase: real): (r: (real, real))
    ensures lineWidth > 0.0 ==> r.0 == penWidth && r.1 * lineWidth == phase
    ensures lineWidth <= 0.0 && phase > 0.0 ==> r.0 == HairlineWidth && r.1 * HairlineWidth == phase
    ensures lineWidth <= 0.0 && phase <= 0.0 ==> r == (penWidth, 0.0)
  {
    if lineWidth > 0.0 then (penWidth, phase / lineWidth)
    else if phase > 0.0 then (HairlineWidth, phase / HairlineWidth)
    else (penWidth, 0.0)
  }

  /**
   * For a pen as wide as the line and a non-negative phase, as BasicStroke
   * guarantees, the dash offset in pen widths times the final pen width is
   * the Java phase again, and a positive phase never meets a zero-width pen.
   */
  lemma DashOffsetRestoresPhase(width: real, phase: real)
    requires width >= 0.0 && phase >= 0.0
    ensures var (penWidth, offset) := DashOffset(width, width, phase);
      offset * penWidth == phase && (penWidth > 0.0 || phase == 0.0)
  {
  }

  /** The phase after the cap correction: square caps start half a width earlier. */
  function CappedPhase(s: BasicStroke): real {
    if s.cap == CAP_SQUARE then s.phase + s.width / 2.0 else s.phase
  }

  /** The effect of SetLineDash on a pen. */
  function SetLineDash(pen: Pen, s: BasicStroke): (r: (Pen, bool))
    ensures s.dash.None? ==> r == (pen.(dashStyle := Solid), false)
    ensures s.dash.Some? ==> r.0.dashStyle == Custom && r.0.join == pen.join && r.0.miterLimit == pen.miterLimit
    ensures s.dash.Some? ==> (r.1 <==> s.cap !in {CAP_BUTT, CAP_ROUND, CAP_SQUARE})
    ensures s.dash.Some? && s.cap == CAP_SQUARE ==>
      r.0.dashPattern == SquareCapped(BasePattern(s.dash.value, s.width)) && r.0.dashCap == Flat
    ensures s.dash.Some? && s.cap != CAP_SQUARE ==> r.0.dashPattern == BasePattern(s.dash.value, s.width)
    ensures s.dash.Some? && s.cap == CAP_BUTT ==> r.0.dashCap == Flat
    ensures s.dash.Some? && s.cap == CAP_ROUND ==> r.0.dashCap == RoundCap
    ensures s.dash.Some? && r.1 ==> r.0.dashCap == pen.dashCap
    ensures s.dash.Some? ==> (r.0.width, r.0.dashOffset) == DashOffset(pen.width, s.width, CappedPhase(s))
  {
    match s.dash
    case None => (pen.(dashStyle := Solid), false)
    case Some(d) =>
      var base := BasePattern(d, s.width);
      var (cap, pattern, logged) :=
        if s.cap == CAP_BUTT then (Flat, base, false)
        else if s.cap == CAP_ROUND then (RoundCap, base, false)
        else if s.cap == CAP_SQUARE then (Flat, SquareCapped(base), false)
        else (pen.dashCap, base, true);
      var (width, offset) := DashOffset(pen.width, s.width, CappedPhase(s));
      (pen.(width := width, dashStyle := Custom, dashPattern := pattern,
            dashOffset := offset, dashCap := cap), logged)
  }

  /** An odd dash array behaves exactly like the array written out twice. */
  lemma OddDashSameAsDoubled(pen: Pen, s: BasicStroke)
    requires s.dash.Some? && |s.dash.value| % 2 == 1
    ensures SetLineDash(pen, s) == SetLineDash(pen, s.(dash := Some(s.dash.value + s.dash.value)))
  {
    var d := s.dash.value;
    assert |d + d| % 2 == 0;
    assert Paired(d + d) == d + d == Paired(d);
  }

  /**
   * For a valid stroke with butt or round caps, an odd array of n lengths
   * yields 2n pen-unit lengths, the array repeated (UnitScale: each times
   * the pen's scale is the Java length).
   */
  lemma OddDashDoubles(pen: Pen, s: BasicStroke)
    requires ValidDash(s) && s.dash.Some? && |s.dash.value| % 2 == 1
    requires s.cap == CAP_BUTT || s.cap == CAP_ROUND
    ensures var p := SetLineDash(pen, s).0.dashPattern; var d := s.dash.value;
      |p| == 2 * |d| &&
      forall i :: 0 <= i < |d| ==> p[i] == Unit(d[i], s.width) && p[|d| + i] == Unit(d[i], s.width)
  {
    var d := s.dash.value;
    assert SetLineDash(pen, s).0.dashPattern == BasePattern(d, s.width);
    var k :| 0 <= k < |d| && d[k] > 0.0;
    OddBasePattern(d, s.width, k);
  }

  lemma OddBasePattern(d: seq<real>, width: real, k: int)
    requires |d| % 2 == 1 && 0 <= k < |d| && d[k] > 0.0
    ensures var p := BasePattern(d, width);
      |p| == 2 * |d| &&
      forall i :: 0 <= i < |d| ==> p[i] == Unit(d[i], width) && p[|d| + i] == Unit(d[i], width)
  {
    var n := |d|;
    var scaled := InPenUnits(d + d, width);
    assert Paired(d) == d + d;
    if n == 1 {
      UnitScale(d[0], width);
      assert (d + d)[1] == d[0];
      assert scaled[1] == Unit(d[0], width) > 0.0;
    }
    assert BasePattern(d, width) == scaled;
    forall i | 0 <= i < n
      ensures scaled[i] == Unit(d[i], width) && scaled[n + i] == Unit(d[i], width)
    {
      assert (d + d)[n + i] == d[i];
      assert (d + d)[i] == d[i];
    }
  }

  /** With a square cap every emitted length is positive, as GDI+ requires. */
  lemma SquareCapPatternPositive(pen: Pen, s: BasicStroke)
    requires ValidDash(s) && s.dash.Some? && s.cap == CAP_SQUARE
    ensures forall i :: 0 <= i < |SetLineDash(pen, s).0.dashPattern| ==> SetLineDash(pen, s).0.dashPattern[i] > 0.0
  {
    var base := BasePattern(s.dash.value, s.width);
    var p := SetLineDash(pen, s).0.dashPattern;
    assert p == SquareCapped(base);
    forall i | 0 <= i < |p|
      ensures p[i] > 0.0
    {
      if i % 2 == 0 {
        BasePatternNonNegative(s.dash.value, s.width, i);
      }
    }
  }

  lemma BasePatternNonNegative(d: seq<real>, width: real, i: int)
    requires forall k :: 0 <= k < |d| ==> d[k] >= 0.0
    requires 0 <= i < |BasePattern(d, width)|
    ensures BasePattern(d, width)[i] >= 0.0
  {
    var p := Paired(d);
    assert forall k :: 0 <= k < |p| ==> p[k] >= 0.0 by {
      if |d| % 2 == 1 {
        forall k | 0 <= k < |p| ensures p[k] >= 0.0 {
          if k >= |d| { assert p[k] == d[k - |d|]; }
        }
      }
    }
    var q := InPenUnits(p, width);
    UnitScale(p[i], width);
  }

  /** The pattern {x, 0} with a thin line comes out as the single length {x}. */
  lemma SolidPairCollapses(pen: Pen, x: real)
    requires x > 0.0
    ensures SetLineDash(pen, BasicStroke(1.0, CAP_BUTT, JOIN_MITER, 10.0, Some([x, 0.0]), 0.0)).0.dashPattern == [x]
  {
  }

  // ---------------------------------------------------------------------
  // setStroke
  // ---------------------------------------------------------------------

  /** A java.awt.Stroke: a BasicStroke, or another implementation known by identity. */
  datatype JStroke = Basic(s: BasicStroke) | OtherStroke(id: nat)

  datatype StrokeState = StrokeState(stroke: Option<JStroke>, pen: Pen)

  datatype StrokeOutcome = StrokeOutcome(state: StrokeState, error: Option<Exception>, logged: bool)

  /** getStroke: the last stroke set, or a default BasicStroke before any. */
  function GetStroke(st: StrokeState): (r: JStroke)
    ensures st.stroke.Some? ==> r == st.stroke.value
    ensures st.stroke.None? ==> r == Basic(DefaultStroke)
  {
    if st.stroke.Some? then st.stroke.value else Basic(DefaultStroke)
  }

  /**
   * NetGraphics.setStroke: an equal stroke is ignored; a BasicStroke sets
   * the pen's width, miter limit, join and dashes; another stroke is only
   * reported. A null stroke is stored and then dereferenced, which throws.
   */
  function SetStroke(st: StrokeState, stroke: Option<JStroke>): (r: StrokeOutcome)
    ensures st.stroke.Some? && stroke == st.stroke ==> r == StrokeOutcome(st, None, false)
    ensures stroke.None? ==> r.error == Some(NullReference) && r.state.stroke.None?
    ensures stroke.Some? && stroke != st.stroke ==> r.error.None? && r.state.stroke == stroke
    ensures stroke.Some? && stroke != st.stroke && stroke.value.OtherStroke? ==> r.state.pen == st.pen && r.logged
    ensures stroke.Some? && stroke != st.stroke && stroke.value.Basic? ==>
      var s := stroke.value.s;
      r.state.pen.miterLimit == s.miterLimit &&
      r.state.pen.join == ConvertLineJoin(s.join).0 &&
      (r.state.pen.width == s.width || (s.width <= 0.0 && r.state.pen.width == HairlineWidth)) &&
      (r.logged <==> ConvertLineJoin(s.join).1 || SetLineDash(st.pen, s).1)
    ensures stroke.Some? && stroke != st.stroke && stroke.value.Basic? && stroke.value.s.dash.None? ==>
      r.state.pen.dashStyle == Solid && r.state.pen.width == stroke.value.s.width
    ensures stroke.Some? && stroke != st.stroke && stroke.value.Basic? && stroke.value.s.dash.Some? ==>
      var s := stroke.value.s;
      && r.state.pen.dashStyle == Custom
      && r.state.pen.dashPattern ==
           (if s.cap == CAP_SQUARE then SquareCapped(BasePattern(s.dash.value, s.width)) else BasePattern(s.dash.value, s.width))
      && (r.state.pen.width, r.state.pen.dashOffset) == DashOffset(s.width, s.width, CappedPhase(s))
  {
    if st.stroke.Some? && stroke == st.stroke then StrokeOutcome(st, None, false)
    else match stroke
      case None => StrokeOutcome(st.(stroke := None), Some(NullReference), false)
      case Some(OtherStroke(_)) => StrokeOutcome(st.(stroke := stroke), None, true)
      case Some(Basic(s)) =>
        var (join, joinLogged) := ConvertLineJoin(s.join);
        var pen := st.pen.(width := s.width, miterLimit := s.miterLimit, join := join);
        var (pen', dashLogged) := SetLineDash(pen, s);
        StrokeOutcome(StrokeState(stroke, pen'), None, joinLogged || dashLogged)
  }

  /** Setting the same stroke twice changes nothing the second time. */
  lemma SetStrokeIdempotent(st: StrokeState, s: JStroke)
    ensures var once := SetStroke(st, Some(s)).state;
      SetStroke(once, Some(s)) == StrokeOutcome(once, None, false)
  {
  }

  /** After setStroke, getStroke reports the stroke that was set. */
  lemma GetStrokeAfterSet(st: StrokeState, s: JStroke)
    ensures GetStroke(SetStroke(st, Some(s)).state) == s
  {
  }
}

=== FILE: text_peers.dfy ===
/**
 * The text peers: the text edits and the caret of NetTextAreaPeer, the
 * item list of NetListPeer, and the Enter key and preferred size of
 * NetTextFieldPeer.
 */
module TextPeers {
  import opened Base

  // ---------------------------------------------------------------------
  // NetTextAreaPeer: edits
  // ---------------------------------------------------------------------

  /**
   * insert: String.Insert of the new text at `pos`; a position outside
   * 0 .. |text| makes it throw ArgumentOutOfRangeException.
   */
  function Insert(text: string, t: string, pos: int): (r: Result<string>)
    ensures r.Fail? <==> pos < 0 || pos > |text|
    ensures r.Fail? ==> r.error == ArgumentOutOfRange
    ensures r.Ok? ==> |r.value| == |text| + |t|
    ensures r.Ok? ==> r.value[..pos] == text[..pos] && r.value[pos..pos + |t|] == t && r.value[pos + |t|..] == text[pos..]
  {
    if pos < 0 || pos > |text| then Fail(ArgumentOutOfRange)
    else Ok(text[..pos] + t + text[pos..])
  }

  /**
   * replaceRange: the text before `start`, the new text, the text from
   * `end` on. Either Substring throws ArgumentOutOfRangeException when its
   * bound lies outside 0 .. |text|. Nothing checks start <= end: with
   * end < start the text between them appears twice.
   */
  function ReplaceRange(text: string, t: string, start: int, end: int): (r: Result<string>)
    ensures r.Fail? <==> start < 0 || start > |text| || end < 0 || end > |text|
    ensures r.Fail? ==> r.error == ArgumentOutOfRange
    ensures r.Ok? ==> |r.value| == start + |t| + (|text| - end)
    ensures r.Ok? ==> r.value[..start] == text[..start] && r.value[start..start + |t|] == t && r.value[start + |t|..] == text[end..]
  {
    if start < 0 || start > |text| || end < 0 || end > |text| then Fail(ArgumentOutOfRange)
    else Ok(text[..start] + t + text[end..])
  }

  /** insert is replaceRange of the empty range at the position. */
  lemma InsertIsEmptyReplace(text: string, t: string, pos: int)
    ensures Insert(text, t, pos) == ReplaceRange(text, t, pos, pos)
  {
  }

  /** Replacing the new text by what it replaced undoes a replaceRange. */
  lemma ReplaceRangeUndo(text: string, t: string, start: int, end: int)
    requires 0 <= start <= end <= |text|
    ensures ReplaceRange(text, t, start, end).Ok?
    ensures ReplaceRange(ReplaceRange(text, t, start, end).value, text[start..end], start, start + |t|) == Ok(text)
  {
    var mid := ReplaceRange(text, t, start, end).value;
    assert mid[..start] + text[start..end] + mid[start + |t|..] == text[..start] + text[start..end] + text[end..];
    assert text[..start] + text[start..end] + text[end..] == text;
  }

  /** With end before start the peer grows the text by the overlap instead of failing. */
  lemma ReversedRangeRepeatsText()
    ensures ReplaceRange("abcd", "", 3, 1) == Ok("abcbcd")
  {
    assert "abcd"[..3] == "abc" && "abcd"[1..] == "bcd";
    assert "abc" + "" + "bcd" == "abcbcd";
  }

  // ---------------------------------------------------------------------
  // NetTextAreaPeer: caret, selection, sizes
  // ---------------------------------------------------------------------

  /** The rich text box: its text and selection. */
  datatype TextArea = TextArea(text: string, selStart: nat, selLength: nat)

  predicate ValidArea(a: TextArea)
  {
    a.selStart + a.selLength <= |a.text|
  }

  function GetCaretPosition(a: TextArea): (r: int)
    ensures r == a.selStart
  {
    a.selStart
  }

  /** getSelectionEnd: the start plus the length of the selection. */
  function GetSelectionEnd(a: TextArea): (r: int)
    ensures r >= GetCaretPosition(a) && r - GetCaretPosition(a) == a.selLength
    ensures ValidArea(a) ==> r <= |a.text|
  {
    a.selStart + a.selLength
  }

  /**
   * setCaretPosition: an empty selection at the position. The text box
   * throws ArgumentOutOfRangeException for a negative start and keeps a
   * start beyond the text at the text's end.
   */
  function SetCaretPosition(a: TextArea, pos: int): (r: Result<TextArea>)
    ensures r.Fail? <==> pos < 0
    ensures r.Fail? ==> r.error == ArgumentOutOfRange
    ensures r.Ok? ==> r.value.text == a.text && r.value.selLength == 0 && ValidArea(r.value)
    ensures r.Ok? ==> r.value.selStart == if pos <= |a.text| then pos else |a.text|
  {
    if pos < 0 then Fail(ArgumentOutOfRange)
    else Ok(TextArea(a.text, if pos <= |a.text| then pos else |a.text|, 0))
  }

  /** After setCaretPosition within the text the caret reads back and nothing is selected. */
  lemma CaretRoundTrip(a: TextArea, pos: int)
    requires 0 <= pos <= |a.text|
    ensures GetCaretPosition(SetCaretPosition(a, pos).value) == pos
    ensures GetSelectionEnd(SetCaretPosition(a, pos).value) == pos
  {
  }

  /** select and setEditable are not implemented. */
  function Select(a: TextArea, start: int, end: int): (r: Result<TextArea>)
    ensures r.Fail? && r.error == NotImplemented
  {
    Fail(NotImplemented)
  }

  function SetEditable(a: TextArea, editable: bool): (r: Result<TextArea>)
    ensures r.Fail? && r.error == NotImplemented
  {
    Fail(NotImplemented)
  }

  datatype Dimension = Dimension(width: int, height: int)

  /**
   * getMinimumSize(rows, cols): `cols` widths of '0' and `rows` line
   * heights, plus 20 each way, in wrapping int arithmetic.
   */
  function AreaMinimumSize(zeroWidth: int, lineHeight: int, rows: int, cols: int): (d: Dimension)
    ensures -0x4000_0000 <= zeroWidth * cols < 0x4000_0000 ==> d.width == zeroWidth * cols + 20
    ensures -0x4000_0000 <= lineHeight * rows < 0x4000_0000 ==> d.height == lineHeight * rows + 20
  {
    Dimension(Wrap32(Wrap32(zeroWidth * cols) + 20), Wrap32(Wrap32(lineHeight * rows) + 20))
  }

  function AreaPreferredSize(zeroWidth: int, lineHeight: int, rows: int, cols: int): (d: Dimension)
    ensures d == AreaMinimumSize(zeroWidth, lineHeight, rows, cols)
  {
    AreaMinimumSize(zeroWidth, lineHeight, rows, cols)
  }

  /** The size without arguments is that of 10 rows and 60 columns. */
  function AreaDefaultMinimumSize(zeroWidth: int, lineHeight: int): (d: Dimension)
    ensures 0 <= zeroWidth < 0x100_0000 && 0 <= lineHeight < 0x100_0000 ==> d == Dimension(60 * zeroWidth + 20, 10 * lineHeight + 20)
  {
    AreaMinimumSize(zeroWidth, lineHeight, 10, 60)
  }

  /** Each further column adds the width of a '0', each further row a line height. */
  lemma AreaSizeGrowsPerCell(zeroWidth: int, lineHeight: int, rows: nat, cols: nat)
    requires 0 <= zeroWidth < 0x1000 && 0 <= lineHeight < 0x1000 && rows < 0x1000 && cols < 0x1000
    ensures AreaMinimumSize(zeroWidth, lineHeight, rows, cols + 1).width == AreaMinimumSize(zeroWidth, lineHeight, rows, cols).width + zeroWidth
    ensures AreaMinimumSize(zeroWidth, lineHeight, rows + 1, cols).height == AreaMinimumSize(zeroWidth, lineHeight, rows, cols).height + lineHeight
  {
    Bound12(zeroWidth, cols);
    Bound12(zeroWidth, cols + 1);
    Bound12(lineHeight, rows);
    Bound12(lineHeight, rows + 1);
  }

  lemma Bound12(a: int, b: int)
    requires 0 <= a < 0x1000 && 0 <= b <= 0x1000
    ensures 0 <= a * b <= 0x100_0000
  {
    assert a * b <= 0x1000 * b by { assert (0x1000 - a) * b >= 0; }
  }

  // ---------------------------------------------------------------------
  // NetListPeer
  // ---------------------------------------------------------------------

  /** add: ListBox.Items.Insert; an index outside 0 .. |items| throws ArgumentOutOfRangeException. */
  function Add(items: seq<string>, item: string, index: int): (r: Result<seq<string>>)
    ensures r.Fail? <==> index < 0 || index > |items|
    ensures r.Fail? ==> r.error == ArgumentOutOfRange
    ensures r.Ok? ==> |r.value| == |items| + 1 && r.value[index] == item
    ensures r.Ok? ==> r.value[..index] == items[..index] && r.value[index + 1..] == items[index..]
  {
    if index < 0 || index > |items| then Fail(ArgumentOutOfRange)
    else Ok(items[..index] + [item] + items[index..])
  }

  /**
   * java.awt.List appends by handing its peer the index -1, which
   * Items.Insert rejects: the item reaches the Java list but not the
   * native one.
   */
  lemma AddAppendAsWrittenFails(items: seq<string>, item: string)
    ensures Add(items, item, -1) == Fail(ArgumentOutOfRange)
  {
  }

  /** add with the AWT peer convention that index -1 appends. */
  function AddCorrected(items: seq<string>, item: string, index: int): (r: Result<seq<string>>)
    ensures index == -1 ==> r == Ok(items + [item])
    ensures index != -1 ==> r == Add(items, item, index)
  {
    if index == -1 then Ok(items + [item]) else Add(items, item, index)
  }

  /** Appending, by -1 or by the item count, puts the item last and keeps the others in order. */
  lemma AddCorrectedAppends(items: seq<string>, item: string, index: int)
    requires index == -1 || index == |items|
    ensures AddCorrected(items, item, index) == Ok(items + [item])
  {
    if index == |items| {
      assert items[..index] == items && items[index..] == [];
      assert items[..index] + [item] + items[index..] == items + [item];
    }
  }

  /** `count` calls of Items.RemoveAt(index), each throwing when the index is not that of an item. */
  function RemoveAtRepeated(items: seq<string>, index: int, count: nat): Result<seq<string>>
    decreases count
  {
    if count == 0 then Ok(items)
    else if index < 0 || index >= |items| then Fail(ArgumentOutOfRange)
    else RemoveAtRepeated(items[..index] + items[index + 1..], index, count - 1)
  }

  /** Removing at the same index `count` times cuts out the `count` items from there, if there are that many. */
  lemma {:induction false} RemoveAtRepeatedCuts(items: seq<string>, index: int, count: nat)
    ensures var r := RemoveAtRepeated(items, index, count);
            && (r.Fail? <==> count > 0 && (index < 0 || index + count > |items|))
            && (r.Fail? ==> r.error == ArgumentOutOfRange)
            && (r.Ok? && count > 0 ==> r.value == items[..index] + items[index + count..])
    decreases count
  {
    if count > 0 && 0 <= index < |items| {
      var rest := items[..index] + items[index + 1..];
      RemoveAtRepeatedCuts(rest, index, count - 1);
      if count > 1 && index + count <= |items| {
        assert rest[..index] == items[..index];
        assert rest[index + count - 1..] == items[index + count..];
      }
      if count == 1 {
        assert rest == items[..index] + items[index + count..];
      }
    }
  }

  /**
   * delItems as written: RemoveAt(start) once for each i in start .. end-1,
   * which removes the half-open range [start, end).
   */
  function DelItemsAsWritten(items: seq<string>, start: int, end: int): (r: Result<seq<string>>)
    ensures end <= start ==> r == Ok(items)
    ensures start < end ==> (r.Fail? <==> start < 0 || end > |items|)
    ensures start < end && r.Ok? ==> r.value == items[..start] + items[end..]
  {
    RemoveAtRepeatedCuts(items, start, if end <= start then 0 else end - start);
    if end <= start then Ok(items) else RemoveAtRepeated(items, start, end - start)
  }

  /**
   * java.awt.List passes inclusive bounds: remove(p) is delItems(p, p).
   * As written that removes nothing, so the item stays in the native list.
   */
  lemma DelItemsAsWrittenKeepsRemovedItem(items: seq<string>, p: int)
    ensures DelItemsAsWritten(items, p, p) == Ok(items)
  {
  }

  /** delItems with the inclusive range java.awt.List means: the items start .. end. */
  function DelItems(items: seq<string>, start: int, end: int): (r: Result<seq<string>>)
    ensures end < start ==> r == Ok(items)
    ensures start <= end ==> (r.Fail? <==> start < 0 || end >= |items|)
    ensures start <= end && r.Ok? ==> r.value == items[..start] + items[end + 1..]
  {
    RemoveAtRepeatedCuts(items, start, if end < start then 0 else end - start + 1);
    if end < start then Ok(items) else RemoveAtRepeated(items, start, end - start + 1)
  }

  /** remove(p) removes exactly item p, and undoes add(item, p). */
  lemma DelItemsRemovesOne(items: seq<string>, item: string, p: int)
    requires 0 <= p < |items|
    ensures DelItems(items, p, p) == Ok(items[..p] + items[p + 1..])
    ensures 0 <= p <= |items| ==> DelItems(Add(items, item, p).value, p, p) == Ok(items)
  {
    var added := Add(items, item, p).value;
    assert added[..p] + added[p + 1..] == items;
  }

  /** The constructor: each item of the Java list added at its own index. */
  method ListFromTarget(target: seq<string>) returns (items: seq<string>)
    ensures items == target
  {
    items := [];
    var i := 0;
    while i < |target|
      invariant 0 <= i <= |target|
      invariant items == target[..i]
    {
      var r := Add(items, target[i], i);
      items := r.value;
      assert target[..i + 1] == target[..i] + [target[i]];
      i := i + 1;
    }
  }

  /** The list's size does not depend on the number of rows asked for. */
  function ListMinimumSize(rows: int): (d: Dimension)
    ensures d.width == 100 && d.height == 100
  {
    Dimension(100, 100)
  }

  function ListPreferredSize(rows: int): (d: Dimension)
    ensures d == ListMinimumSize(rows)
  {
    ListMinimumSize(rows)
  }

  datatype SelectionMode = One | MultiSimple

  /** setMultipleMode: several selected items only in multiple mode. */
  function SelectionModeFor(multi: bool): (m: SelectionMode)
    ensures m == MultiSimple <==> multi
  {
    if multi then MultiSimple else One
  }

  // ---------------------------------------------------------------------
  // NetTextFieldPeer
  // ---------------------------------------------------------------------

  const KeyTyped: int := 400
  const ActionPerformed: int := 1001

  datatype KeyEvent = KeyEvent(id: int, keyChar: char, altDown: bool, controlDown: bool, when: int, modifiers: int)
  datatype ActionEvent = ActionEvent(id: int, command: string, when: int, modifiers: int)

  /**
   * handleJavaKeyEvent: a typed Enter without Alt or Ctrl posts
   * ACTION_PERFORMED with the field's text and is consumed; every other
   * event is left alone.
   */
  function HandleJavaKeyEvent(e: KeyEvent, text: string): (r: (bool, Option<ActionEvent>))
    ensures r.0 <==> e.id == KeyTyped && e.keyChar == '\n' && !e.altDown && !e.controlDown
    ensures r.0 <==> r.1.Some?
    ensures r.1.Some? ==> r.1.value == ActionEvent(ActionPerformed, text, e.when, e.modifiers)
  {
    if e.id == KeyTyped && e.keyChar == '\n' && !e.altDown && !e.controlDown then
      (true, Some(ActionEvent(ActionPerformed, text, e.when, e.modifiers)))
    else (false, None)
  }

  /** The action events a run of key events posts, each handled in turn against the same text. */
  function ActionsFor(es: seq<KeyEvent>, text: string): seq<ActionEvent>
  {
    if |es| == 0 then []
    else
      var posted := HandleJavaKeyEvent(es[|es| - 1], text).1;
      ActionsFor(es[..|es| - 1], text) + (if posted.Some? then [posted.value] else [])
  }

  /** How many of the events are an Enter typed without Alt or Ctrl. */
  function PlainEnters(es: seq<KeyEvent>): nat
  {
    if |es| == 0 then 0
    else
      var e := es[|es| - 1];
      PlainEnters(es[..|es| - 1]) + (if e.id == KeyTyped && e.keyChar == '\n' && !e.altDown && !e.controlDown then 1 else 0)
  }

  /**
   * A text field posts one ACTION_PERFORMED per plain typed Enter and no
   * other action, each carrying the field's text as its command.
   */
  lemma {:induction false} OneActionPerEnter(es: seq<KeyEvent>, text: string)
    ensures |ActionsFor(es, text)| == PlainEnters(es)
    ensures forall i :: 0 <= i < |ActionsFor(es, text)| ==>
      ActionsFor(es, text)[i].id == ActionPerformed && ActionsFor(es, text)[i].command == text
    decreases |es|
  {
    if |es| > 0 {
      OneActionPerEnter(es[..|es| - 1], text);
    }
  }

  /**
   * getPreferredSize(len): the width of `len` average characters, taking
   * the average over the 13 letters a .. m, rounded half to even; the
   * height is the control's preferred height.
   */
  function FieldPreferredSize(alphabetWidth: real, len: int, preferredHeight: int): (d: Dimension)
    ensures -1.0 / 2.0 <= alphabetWidth * len as real / 13.0 - d.width as real <= 1.0 / 2.0
    ensures d.height == preferredHeight
  {
    Dimension(RoundHalfEven(alphabetWidth * len as real / 13.0), preferredHeight)
  }

  function FieldMinimumSize(alphabetWidth: real, len: int, preferredHeight: int): (d: Dimension)
    ensures d == FieldPreferredSize(alphabetWidth, len, preferredHeight)
  {
    FieldPreferredSize(alphabetWidth, len, preferredHeight)
  }

  /** Room for 13 characters is the measured alphabet's width, rounded; for none it is 0. */
  lemma FieldWidthOfMeasuredText(alphabetWidth: real, preferredHeight: int)
    ensures FieldPreferredSize(alphabetWidth, 13, preferredHeight).width == RoundHalfEven(alphabetWidth)
    ensures FieldPreferredSize(alphabetWidth, 0, preferredHeight).width == 0
  {
    assert alphabetWidth * 13 as real / 13.0 == alphabetWidth;
    RoundHalfEvenOfInt(0);
  }
}

=== FILE: toolkit.dfy ===
/**
 * NetToolkit's own rules: the system colour table, the frame-state and
 * modality capabilities, the screen insets, the cursor size, the origin
 * shift of a text outline, and the hotspot check of NetCustomCursor.
 */
module Toolkit {
  import opened Base
  import opened Paths
  import Colors
  import FontMetrics
  import Forms
  import WindowPeer
  import GraphicsEnvironment

  // ---------------------------------------------------------------------
  // loadSystemColors
  // ---------------------------------------------------------------------

  /** The System.Drawing.SystemColors the table reads. */
  datatype NativeColor =
    | Desktop | ActiveCaption | ActiveCaptionText | ActiveBorder
    | InactiveCaption | InactiveCaptionText | InactiveBorder
    | Window | WindowFrame | WindowText | Menu | MenuText
    | Highlight | HighlightText | GrayText
    | Control | ControlText | ControlLight | ControlLightLight | ControlDark | ControlDarkDark
    | ScrollBar | Info | InfoText

  /** java.awt.SystemColor.NUM_COLORS: the indices DESKTOP (0) .. INFO_TEXT (25). */
  const NumColors: int := 26

  /** Color.Purple, the marker for a slot nobody filled. */
  const Purple: Colors.Argb := 0xFF80_0080

  /** The native colour behind each java.awt.SystemColor index; TEXT and TEXT_TEXT reuse the window's colours. */
  function SourceOf(index: int): (c: Option<NativeColor>)
    ensures c.Some? <==> 0 <= index < NumColors
  {
    if index == 0 then Some(Desktop)
    else if index == 1 then Some(ActiveCaption)
    else if index == 2 then Some(ActiveCaptionText)
    else if index == 3 then Some(ActiveBorder)
    else if index == 4 then Some(InactiveCaption)
    else if index == 5 then Some(InactiveCaptionText)
    else if index == 6 then Some(InactiveBorder)
    else if index == 7 then Some(Window)
    else if index == 8 then Some(WindowFrame)
    else if index == 9 then Some(WindowText)
    else if index == 10 then Some(Menu)
    else if index == 11 then Some(MenuText)
    else if index == 12 then Some(Window)
    else if index == 13 then Some(WindowText)
    else if index == 14 then Some(Highlight)
    else if index == 15 then Some(HighlightText)
    else if index == 16 then Some(GrayText)
    else if index == 17 then Some(Control)
    else if index == 18 then Some(ControlText)
    else if index == 19 then Some(ControlLight)
    else if index == 20 then Some(ControlLightLight)
    else if index == 21 then Some(ControlDark)
    else if index == 22 then Some(ControlDarkDark)
    else if index == 23 then Some(ScrollBar)
    else if index == 24 then Some(Info)
    else if index == 25 then Some(InfoText)
    else None
  }

  /** The assignments in the order the toolkit makes them: index, then native colour. */
  const Assignments: seq<(int, NativeColor)> := [
    (0, Desktop), (1, ActiveCaption), (2, ActiveCaptionText), (3, ActiveBorder),
    (4, InactiveCaption), (5, InactiveCaptionText), (6, InactiveBorder),
    (7, Window), (8, WindowFrame), (9, WindowText), (10, Menu), (11, MenuText),
    (12, Window), (13, WindowText), (14, Highlight), (15, HighlightText), (16, GrayText),
    (17, Control), (18, ControlText), (19, ControlLight), (20, ControlLightLight),
    (21, ControlDark), (22, ControlDarkDark), (23, ScrollBar), (24, Info), (25, InfoText)]

  /** The k-th assignment writes slot k with the colour the index table names. */
  lemma AssignmentsFollowIndices(k: int)
    requires 0 <= k < |Assignments|
    ensures |Assignments| == NumColors
    ensures Assignments[k].0 == k && SourceOf(k) == Some(Assignments[k].1)
  {
  }

  /**
   * loadSystemColors: every slot of the Java table is first Purple, then
   * each known index gets its native colour. A table shorter than
   * NUM_COLORS makes the first write past its end throw.
   */
  method LoadSystemColors(length: nat, palette: NativeColor -> Colors.Argb) returns (r: Result<seq<Colors.Argb>>)
    ensures r.Fail? <==> length < NumColors
    ensures r.Fail? ==> r.error == IndexOutOfRange
    ensures r.Ok? ==> |r.value| == length
    ensures r.Ok? ==> forall i :: 0 <= i < length ==> r.value[i] == if i < NumColors then palette(SourceOf(i).value) else Purple
  {
    var colors: seq<Colors.Argb> := [];
    var i := 0;
    while i < length
      invariant 0 <= i <= length && |colors| == i
      invariant forall j :: 0 <= j < i ==> colors[j] == Purple
    {
      colors := colors + [Purple];
      i := i + 1;
    }
    var k := 0;
    while k < |Assignments|
      invariant 0 <= k <= |Assignments| && |colors| == length
      invariant k > 0 ==> length >= k
      invariant forall j :: 0 <= j < length ==> colors[j] == if j < k then palette(SourceOf(j).value) else Purple
    {
      AssignmentsFollowIndices(k);
      var (index, source) := Assignments[k];
      if index >= |colors| {
        return Fail(IndexOutOfRange);
      }
      colors := colors[index := palette(source)];
      k := k + 1;
    }
    AssignmentsFollowIndices(0);
    return Ok(colors);
  }

  /**
   * In a loaded table the text slots repeat the window slots (TEXT is the
   * window background, TEXT_TEXT the window text), and Purple survives
   * only past INFO_TEXT or where the system itself uses it.
   */
  lemma TextSlotsRepeatWindowSlots(table: seq<Colors.Argb>, palette: NativeColor -> Colors.Argb, i: int)
    requires |table| >= NumColors
    requires forall j :: 0 <= j < |table| ==> table[j] == if j < NumColors then palette(SourceOf(j).value) else Purple
    requires 0 <= i < |table| && table[i] == Purple
    ensures table[12] == table[7] && table[13] == table[9]
    ensures i >= NumColors || palette(SourceOf(i).value) == Purple
  {
    assert table[12] == palette(SourceOf(12).value) && table[7] == palette(SourceOf(7).value);
    assert table[13] == palette(SourceOf(13).value) && table[9] == palette(SourceOf(9).value);
  }

  // ---------------------------------------------------------------------
  // Capabilities
  // ---------------------------------------------------------------------

  /** isFrameStateSupported: NORMAL, ICONIFIED and MAXIMIZED_BOTH. */
  function IsFrameStateSupported(state: int): (r: bool)
    ensures r <==> state == Forms.FrameNormal || state == Forms.FrameIconified || state == Forms.FrameMaximizedBoth
  {
    state == Forms.FrameNormal || state == Forms.FrameIconified || state == Forms.FrameMaximizedBoth
  }

  /**
   * The supported states are exactly those the frame peer can set and
   * read back; any other state is ignored by setState.
   */
  lemma SupportedStatesRoundTrip(formState: int, state: int)
    ensures IsFrameStateSupported(state) <==> Forms.FrameStateMapped(state)
    ensures IsFrameStateSupported(state) ==> Forms.GetState(Forms.SetState(formState, state)) == Ok(state)
    ensures !IsFrameStateSupported(state) ==> Forms.SetState(formState, state) == formState
  {
    Forms.FrameStateRoundTrip(formState, state);
  }

  /** java.awt.Dialog.ModalityType, in ordinal order. */
  datatype ModalityType = Modeless | DocumentModal | ApplicationModal | ToolkitModal

  /** isModalityTypeSupported: modeless and application-modal dialogs only. */
  function IsModalityTypeSupported(t: ModalityType): (r: bool)
    ensures r <==> t == Modeless || t == ApplicationModal
  {
    t.Modeless? || t.ApplicationModal?
  }

  datatype ModalExclusionType = NoExclude | ApplicationExclude | ToolkitExclude

  /** isModalExclusionTypeSupported: never. */
  function IsModalExclusionTypeSupported(t: ModalExclusionType): (r: bool)
    ensures !r
  {
    false
  }

  /** getBestCursorSize: the size asked for. */
  function BestCursorSize(width: int, height: int): (d: (int, int))
    ensures d.0 == width && d.1 == height
  {
    (width, height)
  }

  // ---------------------------------------------------------------------
  // getScreenInsets
  // ---------------------------------------------------------------------

  function Bottom(r: IntRect): int { r.y + r.h }
  function Right(r: IntRect): int { r.x + r.w }

  /** getScreenInsets for a screen's configuration: how far the working area lies inside the bounds on each side. */
  function ScreenInsets(s: GraphicsEnvironment.Screen): (i: WindowPeer.Insets)
    ensures s.workingArea.y == s.bounds.y + i.top && s.workingArea.x == s.bounds.x + i.left
    ensures Bottom(s.workingArea) + i.bottom == Bottom(s.bounds) && Right(s.workingArea) + i.right == Right(s.bounds)
  {
    var work := s.workingArea;
    var bounds := s.bounds;
    WindowPeer.Insets(work.y - bounds.y, work.x - bounds.x, Bottom(bounds) - Bottom(work), Right(bounds) - Right(work))
  }

  /**
   * The screen insets are the window insets of a window the size of the
   * screen whose client area is the working area; a screen without task
   * bars has none.
   */
  lemma ScreenInsetsAsWindowInsets(s: GraphicsEnvironment.Screen)
    ensures ScreenInsets(s) == WindowPeer.CalcInsets(s.bounds.x, s.bounds.y, s.bounds.w, s.bounds.h,
                                                      s.workingArea.x, s.workingArea.y, s.workingArea.w, s.workingArea.h)
    ensures s.workingArea == s.bounds ==> ScreenInsets(s) == WindowPeer.Insets(0, 0, 0, 0)
  {
  }

  // ---------------------------------------------------------------------
  // outline
  // ---------------------------------------------------------------------

  /**
   * outline: GraphicsPath.AddString places the top of the text cell at
   * its origin, so the origin is the Java baseline point moved up by the
   * font's ascent.
   */
  function OutlineOrigin(f: FontMetrics.MetricsFont, x: real, y: real): (p: Point)
    requires FontMetrics.ValidFont(f)
    ensures p.x == x && p.y <= y
    ensures p.y + FontMetrics.AscentFloat(f) == y
  {
    Point(x, y - FontMetrics.AscentFloat(f))
  }

  /** Outlines of the same font at two baselines differ by exactly the baselines' offset. */
  lemma OutlineShiftIsTranslation(f: FontMetrics.MetricsFont, x: real, y1: real, y2: real)
    requires FontMetrics.ValidFont(f)
    ensures OutlineOrigin(f, x, y2).y - OutlineOrigin(f, x, y1).y == y2 - y1
  {
  }

  // ---------------------------------------------------------------------
  // NetCustomCursor
  // ---------------------------------------------------------------------

  datatype HotSpot = HotSpot(x: int, y: int)

  /** The cursor the constructor builds: its size and whether the image was scaled to it. */
  datatype CursorImage = CursorImage(width: int, height: int, scaled: bool)

  /**
   * The constructor: a broken image or negative size resets the caller's
   * hotspot to (0, 0); the image is scaled to the toolkit's best size when
   * that differs; a hotspot outside the final size throws
   * ArgumentException. The hotspot is returned beside the outcome because
   * the reset happens in the caller's Point even when the constructor
   * throws.
   */
  function CustomCursor(loadError: bool, width: int, height: int, hotSpot: HotSpot,
                        best: (int, int) -> (int, int)): (r: (HotSpot, Result<CursorImage>))
    ensures r.0 == if loadError || width < 0 || height < 0 then HotSpot(0, 0) else hotSpot
    ensures var (w, h) := best(width, height);
            && (r.1.Fail? <==> !(0 <= r.0.x < w && 0 <= r.0.y < h))
            && (r.1.Fail? ==> r.1.error == NativeArgument)
            && (r.1.Ok? ==> r.1.value == CursorImage(w, h, w != width || h != height))
  {
    var spot := if loadError || width < 0 || height < 0 then HotSpot(0, 0) else hotSpot;
    var (w, h) := best(width, height);
    var scaled := w != width || h != height;
    if spot.x >= w || spot.y >= h || spot.x < 0 || spot.y < 0 then (spot, Fail(NativeArgument))
    else (spot, Ok(CursorImage(w, h, scaled)))
  }

  /**
   * With the toolkit's best size being the size asked for, an image of
   * negative size can never become a cursor: the reset hotspot (0, 0)
   * lies outside it. A good image with a hotspot inside it is never
   * scaled.
   */
  lemma NegativeCursorAlwaysFails(loadError: bool, width: int, height: int, hotSpot: HotSpot)
    ensures width < 0 || height < 0 ==> CustomCursor(loadError, width, height, hotSpot, BestCursorSize).1.Fail?
    ensures !loadError && 0 <= hotSpot.x < width && 0 <= hotSpot.y < height ==>
              CustomCursor(loadError, width, height, hotSpot, BestCursorSize).1 == Ok(CursorImage(width, height, false))
  {
  }

  /**
   * getBestCursorSize as the constructor's comment expects it: a size
   * that is not positive is raised to one pixel, every positive size is
   * kept.
   */
  function BestCursorSizeCorrected(width: int, height: int): (d: (int, int))
    ensures d.0 >= 1 && d.1 >= 1
    ensures width >= 1 ==> d.0 == width
    ensures height >= 1 ==> d.1 == height
  {
    (if width < 1 then 1 else width, if height < 1 then 1 else height)
  }

  /**
   * With the corrected size, a broken image or an image of negative size
   * becomes a cursor with its hotspot at (0, 0), as the constructor's
   * comment intends; a good image is treated as before.
   */
  lemma BrokenCursorHiddenWhenCorrected(loadError: bool, width: int, height: int, hotSpot: HotSpot)
    ensures loadError || width < 0 || height < 0 ==>
              var r := CustomCursor(loadError, width, height, hotSpot, BestCursorSizeCorrected);
              r.0 == HotSpot(0, 0) && r.1.Ok?
    ensures width >= 1 && height >= 1 ==>
              CustomCursor(loadError, width, height, hotSpot, BestCursorSizeCorrected)
              == CustomCursor(loadError, width, height, hotSpot, BestCursorSize)
  {
  }
}

=== FILE: window_peer.dfy ===
/**
 * NetWindowPeer: modal blocking, the application-wide window grab, the
 * owner chain test that decides whether a grab survives a deactivation or
 * a click elsewhere, and the computation of a window's insets.
 */
module WindowPeer {
  import opened Base

  // ---------------------------------------------------------------------
  // Modal blocking
  // ---------------------------------------------------------------------

  /** The modal fields of one window: its blocker's peer, the saved and the current enabled flag. */
  datatype Modal = Modal(blocker: Option<nat>, savedEnabled: bool, enabled: bool)

  predicate IsModalBlocked(m: Modal)
  {
    m.blocker.Some?
  }

  /**
   * setModalBlocked: blocking records the dialog and the enabled flag and
   * disables the window; unblocking forgets the dialog and restores the
   * saved flag.
   */
  function SetModalBlocked(m: Modal, dialog: nat, blocked: bool): (r: Modal)
    ensures IsModalBlocked(r) <==> blocked
    ensures blocked ==> r.blocker == Some(dialog) && r.savedEnabled == m.enabled && !r.enabled
    ensures !blocked ==> r.enabled == m.savedEnabled && r.savedEnabled == m.savedEnabled
  {
    if blocked then Modal(Some(dialog), m.enabled, false)
    else Modal(None, m.savedEnabled, m.savedEnabled)
  }

  /** Blocking and then unblocking leaves the window as enabled as it was, and unblocked. */
  lemma ModalBlockRoundTrip(m: Modal, dialog: nat, other: nat)
    ensures var r := SetModalBlocked(SetModalBlocked(m, dialog, true), other, false);
            !IsModalBlocked(r) && r.enabled == m.enabled
  {
  }

  // ---------------------------------------------------------------------
  // Owner chains
  // ---------------------------------------------------------------------

  /**
   * The parent window of each window that has one, and a depth that every
   * parent step lowers (AWT's containment hierarchy has no cycles).
   */
  datatype Tree = Tree(parent: map<nat, nat>, depth: map<nat, nat>)

  predicate ValidTree(t: Tree)
  {
    && t.parent.Keys <= t.depth.Keys
    && forall w :: w in t.parent ==> t.parent[w] in t.depth && t.depth[t.parent[w]] < t.depth[w]
  }

  /** Whether `owner` is `w` or one of its ancestors. */
  predicate OnChain(t: Tree, owner: nat, w: nat)
    requires ValidTree(t) && w in t.depth
    decreases t.depth[w]
  {
    w == owner || (w in t.parent && OnChain(t, owner, t.parent[w]))
  }

  /** The window `k` parent steps above `w`, if there is one. */
  function Ancestor(t: Tree, w: nat, k: nat): Option<nat>
    decreases k
  {
    if k == 0 then Some(w)
    else if w in t.parent then Ancestor(t, t.parent[w], k - 1)
    else None
  }

  /** Being on the chain is being some number of parent steps up. */
  lemma {:induction false} OnChainIffAncestor(t: Tree, owner: nat, w: nat)
    requires ValidTree(t) && w in t.depth
    ensures OnChain(t, owner, w) <==> exists k: nat :: Ancestor(t, w, k) == Some(owner)
    decreases t.depth[w]
  {
    if w == owner {
      assert Ancestor(t, w, 0) == Some(owner);
    } else if w in t.parent {
      var p := t.parent[w];
      OnChainIffAncestor(t, owner, p);
      if OnChain(t, owner, p) {
        var k: nat :| Ancestor(t, p, k) == Some(owner);
        assert Ancestor(t, w, k + 1) == Some(owner);
        assert exists i: nat :: Ancestor(t, w, i) == Some(owner);
      }
      if exists k: nat :: Ancestor(t, w, k) == Some(owner) {
        var k: nat :| Ancestor(t, w, k) == Some(owner);
        assert k > 0;
        var j: nat := k - 1;
        assert Ancestor(t, p, j) == Some(owner);
        assert exists i: nat :: Ancestor(t, p, i) == Some(owner);
        assert OnChain(t, owner, w);
      }
    }
  }

  /** IsOneOfOwnersOf: walks from `w` up the parents until it meets `owner` or runs out of parents. */
  method IsOneOfOwnersOf(t: Tree, owner: nat, w: nat) returns (found: bool)
    requires ValidTree(t) && w in t.depth
    ensures found <==> OnChain(t, owner, w)
  {
    var window: Option<nat> := Some(w);
    while window.Some?
      invariant window.Some? ==> window.value in t.depth
      invariant window.Some? ==> (OnChain(t, owner, w) <==> OnChain(t, owner, window.value))
      invariant window.None? ==> !OnChain(t, owner, w)
      decreases if window.Some? then t.depth[window.value] + 1 else 0
    {
      if window.value == owner {
        return true;
      }
      window := if window.value in t.parent then Some(t.parent[window.value]) else None;
    }
    return false;
  }

  // ---------------------------------------------------------------------
  // The grab
  // ---------------------------------------------------------------------

  /** What the grab logic posts: an UngrabEvent for a window, a request to bring one to the front, a focus event. */
  datatype Posted = UngrabEvent(window: nat) | ToFront(window: nat) | GainedFocus(window: nat) | LostFocus(window: nat)

  /** The application-wide grabbedWindow and everything posted so far. */
  datatype Grabs = Grabs(grabbed: Option<nat>, posted: seq<Posted>)

  /** Ungrab: acts only on the grabbed window, posting an UngrabEvent when asked to, and always releases it. */
  function Ungrab(g: Grabs, me: nat, doPost: bool): (r: Grabs)
    ensures g.grabbed != Some(me) ==> r == g
    ensures g.grabbed == Some(me) ==> r.grabbed.None? && r.posted == g.posted + (if doPost then [UngrabEvent(me)] else [])
  {
    if g.grabbed == Some(me) then
      Grabs(None, g.posted + (if doPost then [UngrabEvent(me)] else []))
    else g
  }

  /**
   * Grab: releases the previous grab with an event, takes the grab, and
   * gives it up again at once when no form of the application is active;
   * a grabbing window that is not the active form is brought to the front.
   */
  function Grab(g: Grabs, me: nat, active: Option<nat>): (r: Grabs)
    ensures active.Some? ==> r.grabbed == Some(me)
    ensures active.None? ==> r.grabbed.None?
    ensures var released := if g.grabbed.Some? then [UngrabEvent(g.grabbed.value)] else [];
            && (active.None? ==> r.posted == g.posted + released + [UngrabEvent(me)])
            && (active.Some? && active.value != me ==> r.posted == g.posted + released + [ToFront(me)])
            && (active == Some(me) ==> r.posted == g.posted + released)
  {
    var g1 := if g.grabbed.Some? then Ungrab(g, g.grabbed.value, true) else g;
    var g2 := g1.(grabbed := Some(me));
    if active.None? then Ungrab(g2, me, true)
    else if active.value != me then g2.(posted := g2.posted + [ToFront(me)])
    else g2
  }

  /** A grab ends the previous one: the window that held it is told exactly once, before anything else. */
  lemma GrabReleasesPrevious(g: Grabs, me: nat, previous: nat, active: Option<nat>)
    requires g.grabbed == Some(previous)
    ensures var r := Grab(g, me, active);
            |r.posted| > |g.posted| && r.posted[|g.posted|] == UngrabEvent(previous)
  {
  }

  /**
   * The release that WmActivate (on deactivation) and OnMouseDown apply:
   * the grab ends, with an event, unless the grabbing window owns `me`.
   */
  function ReleaseForeignGrab(g: Grabs, t: Tree, me: nat): (r: Grabs)
    requires ValidTree(t) && me in t.depth
    ensures g.grabbed.Some? && !OnChain(t, g.grabbed.value, me) ==> r == Grabs(None, g.posted + [UngrabEvent(g.grabbed.value)])
    ensures g.grabbed.None? || OnChain(t, g.grabbed.value, me) ==> r == g
  {
    if g.grabbed.Some? && !OnChain(t, g.grabbed.value, me) then Ungrab(g, g.grabbed.value, true) else g
  }

  /** WmActivate: activation reports the gained focus; deactivation first releases a foreign grab. */
  function WmActivate(g: Grabs, t: Tree, me: nat, active: bool): (r: Grabs)
    requires ValidTree(t) && me in t.depth
    ensures active ==> r == g.(posted := g.posted + [GainedFocus(me)])
    ensures !active ==> r == ReleaseForeignGrab(g, t, me).(posted := ReleaseForeignGrab(g, t, me).posted + [LostFocus(me)])
  {
    if active then g.(posted := g.posted + [GainedFocus(me)])
    else
      var g1 := ReleaseForeignGrab(g, t, me);
      g1.(posted := g1.posted + [LostFocus(me)])
  }

  /**
   * A grab survives a click in, or the deactivation of, any window the
   * grabbing window owns (its popups, say), and ends on any other.
   */
  lemma GrabSurvivesOwnedWindows(g: Grabs, t: Tree, me: nat, grabber: nat)
    requires ValidTree(t) && me in t.depth && g.grabbed == Some(grabber)
    ensures ReleaseForeignGrab(g, t, me).grabbed == Some(grabber) <==> exists k: nat :: Ancestor(t, me, k) == Some(grabber)
    ensures WmActivate(g, t, me, false).grabbed == Some(grabber) <==> exists k: nat :: Ancestor(t, me, k) == Some(grabber)
  {
    OnChainIffAncestor(t, grabber, me);
  }

  // ---------------------------------------------------------------------
  // Insets
  // ---------------------------------------------------------------------

  datatype Insets = Insets(top: int, left: int, bottom: int, right: int)

  /**
   * CalcInsetsImpl: top and left are the client area's offset from the
   * window's corner on screen; bottom and right are what the window's size
   * leaves beyond the client area.
   */
  function CalcInsets(windowX: int, windowY: int, width: int, height: int,
                      clientScreenX: int, clientScreenY: int, clientWidth: int, clientHeight: int): (r: Insets)
    ensures r.left + clientWidth + r.right == width
    ensures r.top + clientHeight + r.bottom == height
    ensures windowX + r.left == clientScreenX && windowY + r.top == clientScreenY
  {
    var x := clientScreenX - windowX;
    var y := clientScreenY - windowY;
    Insets(y, x, height - clientHeight - y, width - clientWidth - x)
  }

  /** The insets do not depend on where the window is, only on where its client area sits in it. */
  lemma InsetsIgnorePosition(wx: int, wy: int, dx: int, dy: int, width: int, height: int, cx: int, cy: int, cw: int, ch: int)
    ensures CalcInsets(wx + dx, wy + dy, width, height, cx + dx, cy + dy, cw, ch) == CalcInsets(wx, wy, width, height, cx, cy, cw, ch)
  {
  }
}
